=== FILE: README.md ===
# fufu-bot playback core in Dafny

fufu-bot is a Discord music bot. It comes in two variants that share a
design:

- a Python bot (`main.py`, discord.py with yt-dlp);
- a JavaScript bot (`src/`, discord.js with @discordjs/voice, play-dl,
  ytdl-core and the Spotify Web API).

Each guild has a playback queue, a "now playing" slot and a loop setting.
A track that ends triggers an advance: replay the current track, or take
the front of the queue, or report the queue finished. The commands change
this state: play, skip, stop, leave, loop, shuffle, remove, pause and
resume.

This project models that per-guild core and proves properties of it.

- **`Playback`** states the advance rule once, on values. It proves what
  repeated advances do:
  - with looping off, tracks play first in, first out (FIFO);
  - under queue-loop, the queue rotates and comes back to its order, and
    from the second round on each advance restarts a track it already
    started;
  - under track-loop, the current track repeats forever.
- **`PyBot`** models `main.py`. The class `MusicBot` holds the three
  per-guild dictionaries and the set of sources whose stream has been
  played. `play_next` is proved to take exactly one step of the advance
  rule. Under queue-loop the bot puts the very source it just played back
  at the tail, not a new one (`main.py` 370-372). A played source's stream
  is spent, so from the second round on every track the rotation restarts
  is a spent source (`PyBot.MusicBot.PlayNext`, `PyBot.AdvancedReusesSources`
  and `Playback.QueueLoopRestartsEarlier`).
- **`JsQueue`**, **`JsPlayer`** and **`JsBot`** model `src/queue.js`,
  `src/player.js` and `src/index.js` as classes:
  - `GuildQueue`;
  - `GuildAudioController`, which also tracks the auto-leave timers it has
    armed;
  - `Bot`, the registry of queues and controllers.

  Each controller method is proved against a function on a `View` of its
  state. The lemmas about those functions state what `start`, `skip`,
  `stop` and `leave` do.
- **`JsYouTube`** and **`JsSpotify`** model how a query becomes tracks, in
  `src/youtube.js` and `src/spotify.js`. This includes the five-minute
  Spotify token cache.
- **`Batch`** is the fold both bots use over a playlist or album: failed
  items are skipped and the order is kept.
- **`Duration`** and **`Listing`** model the "m:ss" clock and the numbered
  queue listing.
- **`Text`** and **`Common`** hold string helpers and `Option`/`Result`.

The outside world reaches the model as parameters. That covers the Discord
API, yt-dlp, play-dl, ytdl-core, youtube-sr, the Spotify API, streams, the
clock and the random draws of `random.shuffle`. The configuration values
`PREFIX` and `MAX_QUEUE_LENGTH` are parameters too.

`GuildQueue.length()` and `GuildQueue.getLoop()` are the functions
`JsQueue.GuildQueue.Length` and `JsQueue.GuildQueue.GetLoop`. Each only
reads one field, so neither has a contract of its own.

Where the code and the intended design differ, the model follows the code.
The JavaScript bot shows six such points; all but the fourth are stated as
lemmas:

- `stop` keeps the loop switch on. With a current track, the Idle handler
  then replays that track (`JsPlayer.StopUnderLoopKeepsPlaying`).
- `leave` goes through `player.stop(true)`, which raises the Idle event. It
  therefore takes the next track off the queue before disconnecting
  (`JsPlayer.LeaveTakesFront`).
- Starting a track does not cancel an armed auto-leave timer
  (`JsPlayer.AutoLeaveSurvivesStart`).
- `leave` does not clear the queue, and neither `stop` nor `leave` resets
  the loop switch.
- The player is made with `noSubscriber: Pause`. The track that `leave`
  starts loses its connection and is auto-paused, so the next `play`
  command finds the player not playing and starts it
  (`JsPlayer.LeaveThenPlayStarts`).
- A failed track runs the Idle handler twice: once from the `error`
  listener and once from the Idle event that follows. With the loop off,
  the next queued track is therefore skipped (`JsPlayer.FailedTrackSkipsNext`).

## Model

| member | source | states |
|---|---|---|
| Text.Lead | src/index.js:58 | the count of leading white-space characters: everything before it is white space and the character at it is not |
| Text.Tail | src/index.js:58 | where the trailing white space begins: everything from it on is white space and the character before it is not |
| Text.Trim | src/index.js:58 | the result is the slice of the input starting at `Lead`, with only white space cut at either end, and it neither starts nor ends with white space |
| Text.SplitSpaces | src/index.js:58 | the pieces hold no white space and, with the maximal white-space runs of the input put back between them, give the input again |
| Text.SplitTrimmed | src/index.js:58 | on trimmed text the split gives `[""]` for the empty string and otherwise only non-empty words |
| Text.JoinEmpty | src/index.js:86-87 | joining with a non-empty separator gives "" exactly for no parts or one empty part |
| Text.Lower | main.py:513 | lower-casing keeps the length, leaves no ASCII capital, keeps every other character and moves each capital by 32 |
| Text.LowerChar | main.py:513 | an ASCII capital becomes its small letter (code + 32); any other character is kept; the result is never a capital |
| Text.PadStart | src/spotify.js:88 | the result is `width` long (or the input when longer), ends with the input and is padded with `pad` in front |
| Text.IntToString | src/spotify.js:88 | a non-negative number renders as digits that read back as it; a negative one as '-' followed by digits that read back as its magnitude |
| Text.LowerIdempotent | main.py:513 | lower-casing twice is lower-casing once |
| Text.ContainsOccurs | src/index.js:104-105 | `includes` holds exactly when the text occurs at some position |
| Batch.Successes | main.py:283-292 | a batch never yields more sources than it has items |
| Batch.SuccessesAppend | main.py:283-292 | folding a batch in two parts gives the two results one after the other |
| Batch.SuccessesInOrder | main.py:323-336 | the k-th source added comes from the k-th item that resolved; those positions increase; every item that resolved is among them |
| Batch.SuccessesAllResolved | main.py:323-336 | when every item resolves, all are added, in order |
| Batch.SuccessesNoneResolved | main.py:294-298 | when no item resolves, nothing is added |
| Duration.JsRem | src/spotify.js:87 | JavaScript `%`: below 60 in magnitude, equal to Dafny's remainder for a non-negative dividend and never positive for a negative one |
| Duration.FormatDuration | src/spotify.js:84-89 | a missing (non-numeric) length shows "0:00"; a non-negative one shows a clock that reads back as it; a negative one starts with '-' and reads back as nothing |
| Duration.PyClock | main.py:537 | a non-negative length shows a clock that reads back as it; a negative one starts with '-' and reads back as nothing |
| Duration.ClockRoundTrip | src/spotify.js:86-88 | every non-negative number of seconds, split into minutes and seconds, reads back as itself |
| Duration.ClocksAgree | main.py:537 | the Python clock and the JavaScript `formatDuration` agree on every non-negative length |
| Duration.ClocksDifferOnNegative | main.py:537 | on -5 seconds they differ: "-1:-5" in JavaScript, "-1:55" in Python |
| Duration.DurationLabel | src/spotify.js:78 | a missing or zero length shows "Unknown"; a positive one shows a clock that reads back as it |
| Playback.Choose | main.py:362-372 | the advance rule: replay exactly under track-loop with a current track, else dequeue the front exactly when the queue is non-empty |
| Playback.AdvanceShape | main.py:362-374 | the started track becomes current; nothing starts exactly when the queue is empty and no replay is due, and then the slot is cleared; a replay keeps everything; with looping off the front leaves the queue |
| Playback.QueueLoopKeepsTracks | main.py:369-372 | under queue-loop an advance moves the front to the tail and keeps the multiset of queued tracks |
| Playback.RunSplit | main.py:376-379 | advances compose: `a` then `b` completions equal `a + b` completions, plays included |
| Playback.OffIsFifo | main.py:370 | with looping off, k completions play the first k tracks in enqueue order and leave the rest queued |
| Playback.OffDrains | main.py:396-397 | with looping off, one advance past the last track leaves the queue empty and nothing playing |
| Playback.RotateStep | main.py:370-372 | under queue-loop one advance plays the front and turns the queue by one place |
| Playback.QueueLoopTurns | main.py:370-372 | under queue-loop, after k advances the queue is turned by k mod n places |
| Playback.Cycle | main.py:369-372 | the reference order of queue-loop: k tracks, the i-th being `q[i mod n]` |
| Playback.QueueLoopRotates | main.py:369-372 | under queue-loop the tracks played in k advances are exactly `Cycle(q, k)`: the i-th is `q[i mod n]` |
| Playback.QueueLoopRestores | main.py:370-372 | under queue-loop, n completions on n tracks play them in order and restore the queue |
| Playback.QueueLoopRestartsEarlier | main.py:369-372 | under queue-loop, advance k + 1 on an n-track queue (k >= n) starts the track that advance k + 1 - n started |
| Playback.TrackLoopRepeats | main.py:365-368 | under track-loop with a current track, every completion replays it and the queue is never consumed |
| Playback.TrackLoopFromIdle | main.py:362-374 | under track-loop with nothing current, the first advance takes the front and every later one repeats it |
| Playback.ScenarioOffThree | main.py:359-400 | worked example of OffIsFifo: enqueuing A, B, C with looping off plays A, B, C and then the queue is finished |
| Playback.ScenarioQueueLoop | main.py:359-400 | worked example of QueueLoopRotates: A, B under queue-loop: five completions play A, B, A, B, A |
| Playback.ScenarioTrackLoop | main.py:359-400 | worked example of TrackLoopRepeats: A under track-loop: three completions play A, A, A and the queue stays empty |
| Listing.Numbered | main.py:477-478 | at most ten lines, the i-th being "i+1. " followed by the i-th entry |
| Listing.ListingAccountsForAll | main.py:480-481 | each queued entry is listed or counted in "...and N more", and that line appears exactly when more than ten are queued |
| Listing.LineNumberReadsBack | main.py:477-478 | the number in front of line i reads back as i + 1 and the rest is the i-th entry |
| PyBot.YtdlSource.constructor | main.py:74-82 | a source keeps the data it was built from |
| PyBot.AdvancedFollowsRule | main.py:359-400 | on the data behind the sources, one `play_next` is one step of the shared advance rule |
| PyBot.AdvancedReusesSources | main.py:369-374 | outside track-loop, one `play_next` is one step of the advance rule on the source objects themselves: the started source is the old front, put back at the tail under queue-loop |
| PyBot.EntryUrl | main.py:327-329 | a playlist entry's own URL when non-empty, otherwise the watch URL built from its id |
| PyBot.SearchQuery | main.py:342-343 | a query starting with "http" is kept; any other becomes "ytsearch:" followed by the query |
| PyBot.PlanFor | main.py:275-348 | a Spotify link with queries gives "ytsearch:" + each query, in order; without queries the page title is searched, or a missing title halts; a playlist gives each entry's URL (none for an empty entry) and halts when it has no entries; anything else is one search or link look-up |
| PyBot.NextMode | main.py:501-511 | a bare `loop` always changes the mode |
| PyBot.NextModeCycles | main.py:501-511 | off, track, queue, off: three bare `loop` commands come back to the start |
| PyBot.ParseLoopArg | main.py:513-526 | an argument selects a mode exactly when its lower-cased form is in one of the three word lists, and then the mode of that list |
| PyBot.ParseLoopArgIgnoresCase | main.py:513 | the loop argument is read ignoring ASCII case |
| PyBot.TrackAliases | main.py:514-516 | track, t, song and single (in any case) select track-loop |
| PyBot.QueueAliases | main.py:517-519 | queue, q and all select queue-loop |
| PyBot.OffAliases | main.py:520-522 | off, stop and disable select off |
| PyBot.Volume | main.py:590-602 | without a voice client an error; with one, a value outside 0..100 is refused; in range with no source the write raises; otherwise the volume is set to that percent |
| PyBot.DeleteAt | main.py:627 | removing position k keeps the tracks before it and moves those after it up by one |
| PyBot.DeleteAtRemovesOne | main.py:627 | removing a position takes exactly one occurrence of the removed track out of the queue |
| PyBot.DeleteAtInverse | main.py:626-627 | putting the removed track back at its position restores the queue |
| PyBot.Shuffled | main.py:611 | shuffling gives a permutation of the queue |
| PyBot.SwapAt | main.py:611 | one Fisher-Yates swap keeps the multiset |
| PyBot.LoopFooter | main.py:483-489 | a footer is shown exactly when looping is on |
| PyBot.NowPlayingDuration | main.py:536-537 | the duration field appears exactly for a non-zero duration, and a positive one reads back as its clock |
| PyBot.MusicBot.constructor | main.py:40-42 | the bot starts with no queues, nothing playing, no loop modes and no spent source |
| PyBot.MusicBot.QueueOf | main.py:362 | a guild without a queue reads as an empty queue |
| PyBot.MusicBot.NowOf | main.py:362 | a current source exists exactly when the guild is in `now_playing` |
| PyBot.MusicBot.ModeOf | main.py:362 | a guild without a loop entry behaves as off |
| PyBot.MusicBot.PlayNext | main.py:359-400 | `play_next` is one advance (replay with a fresh source over the same data, dequeue, or finish); the started source becomes spent; other guilds and loop modes are untouched |
| PyBot.MusicBot.AppendResolved | main.py:283-292 | the queue grows by exactly the successful look-ups, in order; the count reported is their number |
| PyBot.MusicBot.EnqueuePlanned | main.py:294-351 | no success on a plan with a failure reply gives that reply and changes nothing; otherwise the successes are queued and, when idle, one advance runs on the extended queue |
| PyBot.MusicBot.Play | main.py:257-356 | outside voice nothing changes; otherwise the guild gets a queue and a mode, the plan's reply or its successes are queued, and an idle guild advances once |
| PyBot.MusicBot.InitGuild | main.py:269-273 | a first-time guild gets an empty queue and mode off; an existing one keeps its own |
| PyBot.MusicBot.Stop | main.py:437-447 | the queue is emptied and the loop is switched off, so the next advance finds nothing to play |
| PyBot.MusicBot.Leave | main.py:450-461 | in voice, the queue is emptied and the loop is switched off; outside voice nothing changes |
| PyBot.MusicBot.LoopCommand | main.py:494-526 | a bare `loop` steps the mode; an argument sets the mode it names; an invalid one keeps the mode; the guild always ends with a mode |
| PyBot.MusicBot.Shuffle | main.py:604-613 | shuffles exactly when two or more are queued, giving a permutation; otherwise nothing changes |
| PyBot.MusicBot.Remove | main.py:615-629 | the empty-queue reply exactly when the queue is empty; the invalid-index reply exactly when it is not and the index is outside 1..length; both change nothing; otherwise (and only then) exactly the track at the 1-based index is removed and returned |
| PyBot.MusicBot.QueueCardOf | main.py:464-491 | "Now Singing" shows the current track's title exactly when one is playing; up next are the first ten titles numbered from 1; "...and N more tracks" with N the titles past ten appears exactly when more than ten are queued; the footer names the loop mode, none when off |
| JsQueue.ModeOf | src/queue.js:15 | the loop switch is track-loop when on and off when off, never queue-loop |
| JsQueue.GuildQueue.constructor | src/queue.js:12-17 | a new queue is empty, with nothing current, looping off and no timer |
| JsQueue.GuildQueue.Add | src/queue.js:19-21 | the track is appended at the tail; nothing else changes |
| JsQueue.GuildQueue.AddMany | src/queue.js:23-25 | the tracks are appended in order at the tail; nothing else changes |
| JsQueue.GuildQueue.Next | src/queue.js:27-33 | `next` is one step of the shared advance rule with the boolean loop as track-loop, and returns the new current track |
| JsQueue.GuildQueue.Clear | src/queue.js:35-37 | the queued tracks are dropped; current, loop and timer stay |
| JsQueue.GuildQueue.SetLoop | src/queue.js:43-45 | the loop switch stores the JavaScript truthiness of the value |
| JsQueue.TruthyBool | src/queue.js:44 | a boolean passed to `setLoop` reads back unchanged |
| JsQueue.NextIsFifo | src/queue.js:27-33 | with the loop off, k calls return the first k tracks in order and leave the rest |
| JsQueue.NextRepeatsWhenLooping | src/queue.js:28-30 | with the loop on and a current track, every call returns it and the queue is untouched |
| JsPlayer.PlaySpec | src/player.js:53-63 | a stream for the URL becomes the current resource and plays, auto-paused without a connection; without a stream nothing changes |
| JsPlayer.OnIdleSpec | src/player.js:88-100 | the Idle handler moves the queue by one advance; nothing to play arms auto-leave, otherwise the chosen track is played |
| JsPlayer.StopSpec | src/player.js:110-114 | after `stop` the queue is empty, auto-leave is armed, the loop switch and connection are kept |
| JsPlayer.LeaveSpec | src/player.js:120-129 | after `leave` there is no connection and no auto-leave, the player is not playing, and the loop switch is kept |
| JsPlayer.HaltSpec | src/player.js:117 | `player.stop(true)` leaves an idle player alone; otherwise the queue moves by one advance; loop switch and connection are kept |
| JsPlayer.ConnectSpec | src/player.js:30-51 | a connection is set and subscribes the player, so an auto-paused player plays again; nothing else changes |
| JsPlayer.StartSpec | src/player.js:65-74 | `start` connects only when there is no connection, then takes the Idle handler's step |
| JsPlayer.FailSpec | src/player.js:23-27 | a failed track advances the queue twice, synchronously, then plays the two chosen tracks in that order |
| JsPlayer.GuildAudioController.constructor | src/player.js:14-28 | a new controller is bound to its guild and queue, unconnected, idle, with no timer armed |
| JsPlayer.GuildAudioController.Connect | src/player.js:30-51 | `connect` follows `ConnectSpec`; timers are unchanged |
| JsPlayer.GuildAudioController.Play | src/player.js:53-63 | succeeds exactly when a stream is found, and then follows `PlaySpec`; a failure changes nothing |
| JsPlayer.GuildAudioController.ClearAutoLeave | src/player.js:81-86 | the pending timer, if any, is cancelled and forgotten; no timer is left stray |
| JsPlayer.GuildAudioController.ScheduleAutoLeave | src/player.js:76-79 | the old timer is cancelled and exactly one new one is pending |
| JsPlayer.GuildAudioController.TakeNext | src/player.js:90-98 | the synchronous part of the Idle handler takes the track the advance rule starts, moves the queue by that advance and arms auto-leave when there is none |
| JsPlayer.GuildAudioController.OnIdle | src/player.js:88-100 | the handler follows `OnIdleSpec`; it fails exactly when the chosen track has no stream; no timer is left stray |
| JsPlayer.GuildAudioController.Start | src/player.js:65-74 | `start` follows `StartSpec`, and its result is `StartResult`: false when nothing can play, true when the track plays, an error when its stream fails; the queue moves by one advance |
| JsPlayer.StartResult | src/player.js:53-74 | false exactly when the queue yields no track, true exactly when it yields one whose stream is created, the "Failed to create stream" error exactly when that stream is missing |
| JsPlayer.StartReplies | src/player.js:65-74 | after `start` returns true the taken track is current, playing and connected with its stream as the resource; after false nothing is current and auto-leave is armed; after the error the taken track is current and the old resource stays |
| JsPlayer.GuildAudioController.PlayerIdle | src/player.js:23 | a track that ends makes the player idle and runs the Idle handler once; the result is true exactly when no track was taken or the taken track has a stream; timer bookkeeping stays consistent |
| JsPlayer.GuildAudioController.PlayerFailed | src/player.js:23-27 | a failed track runs the Idle handler from the error listener and again from the Idle event, following `FailSpec` |
| JsPlayer.GuildAudioController.Pause | src/player.js:102-104 | only a playing player pauses; nothing else in the view or the timers changes |
| JsPlayer.GuildAudioController.Resume | src/player.js:106-108 | only a paused player resumes; nothing else in the view or the timers changes |
| JsPlayer.GuildAudioController.HaltPlayer | src/player.js:117 | stopping an active player goes idle and runs the Idle handler; an idle player is left alone |
| JsPlayer.GuildAudioController.Stop | src/player.js:110-114 | `stop` follows `StopSpec` and leaves exactly one auto-leave timer armed |
| JsPlayer.GuildAudioController.Skip | src/player.js:116-118 | `skip` stops the player and the Idle handler advances |
| JsPlayer.GuildAudioController.Leave | src/player.js:120-129 | `leave` follows `LeaveSpec`; the queue holds no timer |
| JsPlayer.GuildAudioController.FireAutoLeave | src/player.js:78 | the fired timer is no longer armed and `leave` runs; no timer remains |
| JsPlayer.StartWhenConnected | src/player.js:65-74 | with a connection, `start` is exactly the Idle handler's step |
| JsPlayer.StartOnEmptyQueue | src/player.js:66-71 | on an empty queue with nothing to loop, `start` plays no new track, clears current and arms auto-leave |
| JsPlayer.IdleReplaysWhenLooping | src/player.js:90-93 | with the loop on and a current track, the Idle handler replays it and leaves the queue |
| JsPlayer.SkipTakesFront | src/player.js:116-118 | with the loop off, skipping a playing track starts the front of the queue (auto-paused without a connection) |
| JsPlayer.StopWithoutLoopGoesIdle | src/player.js:110-114 | with the loop off, `stop` leaves nothing current or queued, the player idle and auto-leave armed |
| JsPlayer.StopUnderLoopKeepsPlaying | src/player.js:110-114 | with the loop on, `stop` clears the queue yet the current track plays again (auto-paused without a connection) |
| JsPlayer.LeaveTakesFront | src/player.js:120-129 | with the loop off, `leave` on an active player consumes the front of the queue before disconnecting |
| JsPlayer.AutoLeaveSurvivesStart | src/player.js:65-74 | an armed auto-leave survives a `start` that plays a track |
| JsPlayer.LeaveThenPlayStarts | src/player.js:19 | after `leave` the player is idle or auto-paused and unconnected, the state in which a `play` command starts it |
| JsPlayer.FailedTrackSkipsNext | src/player.js:23-27 | with the loop off, a failed track makes the second queued track current and, given its stream, the one playing; the first queued track is skipped |
| JsPlayer.FailureAdvancesTwice | src/player.js:23-27 | a failed track advances the queue twice where an ended one advances it once |
| JsYouTube.WatchUrl | src/youtube.js:29 | the watch URL is the fixed prefix followed by the id |
| JsYouTube.VideoTrack | src/youtube.js:27-33 | a playlist video becomes a "youtube" track whose URL is the watch prefix followed by its id, with "Unknown" for a missing or zero length and a clock that reads back otherwise |
| JsYouTube.JsNumber | src/youtube.js:58 | `Number` of blank text is 0 |
| JsYouTube.JsNumberOfDecimal | src/youtube.js:58 | `Number` of a decimal count reads it back |
| JsYouTube.ResolveYouTube | src/youtube.js:9-50 | a valid video URL gives its one track; a playlist gives one track per video in order; otherwise the first search hit or nothing |
| JsYouTube.DirectVideoDuration | src/youtube.js:17 | a video length `Number` can read shows as a clock that reads back as it |
| JsYouTube.DirectVideoDurationNaN | src/youtube.js:17 | a length `Number` cannot read shows as "0:00" |
| JsSpotify.SearchTitle | src/spotify.js:32 | the YouTube search text is the name, a space and the artists joined by spaces ("undefined" without artists) |
| JsSpotify.MakeTrackFromYT | src/spotify.js:74-82 | a "spotify" track with the hit's title and URL; "Unknown" without a length, otherwise a clock that reads back as it |
| JsSpotify.BestMatch | src/spotify.js:30-34 | one Spotify track gives nothing without a YouTube hit, otherwise exactly the track made from its hit |
| JsSpotify.BestMatchIsMatchedOne | src/spotify.js:30-43 | one track resolves exactly as a one-track album would |
| JsSpotify.Matched | src/spotify.js:36-43 | an album or playlist yields at most one "spotify" track per Spotify track |
| JsSpotify.ResolveEach | src/spotify.js:36-43 | the album and playlist loop computes exactly `Matched` |
| JsSpotify.MatchedInOrder | src/spotify.js:38-42 | album order is kept and exactly the tracks without a hit are skipped |
| JsSpotify.MatchedAll | src/spotify.js:38-42 | when every track has a hit, none is skipped |
| JsSpotify.Resolution | src/spotify.js:25-66 | a Spotify track gives its best match and an album or playlist `Matched`; a search gives nothing without items, the missing-artists error for a first item without artists, and otherwise that item's best match |
| JsSpotify.TokenTimeAfter | src/spotify.js:15-18 | the token time moves to the call's time exactly when a new token is obtained |
| JsSpotify.GrantsAtMostOnce | src/spotify.js:15 | two token checks less than five minutes apart obtain at most one token between them |
| JsSpotify.SpotifyOutcome | src/spotify.js:22-23 | a due refresh that is refused is the answer; otherwise the answer is `Resolution`; so an error other than missing artists comes only from a refused grant |
| JsSpotify.SpotifyClient.constructor | src/spotify.js:11 | no token and a last grant time of 0 |
| JsSpotify.SpotifyClient.EnsureToken | src/spotify.js:13-19 | the token time follows `TokenTimeAfter`; within five minutes nothing happens; otherwise a granted token is stored, or the refusal is raised and the token kept |
| JsSpotify.SpotifyClient.Resolve | src/spotify.js:22-67 | `resolveSpotify` returns `SpotifyOutcome`; the token time follows `TokenTimeAfter`; the cached token becomes the granted one exactly when a grant was due and succeeded, else it stays |
| JsBot.Words | src/index.js:58 | the words hold no white space and, with the white-space runs put back between them, give the trimmed text; one empty word exactly for blank text, otherwise no empty word |
| JsBot.ParseCommand | src/index.js:56-78 | a command exactly when the message starts with the prefix; the lower-cased first word is the name of the command chosen, a word naming none is ignored, and `play` gets the remaining words as arguments |
| JsBot.CommandName | src/index.js:62-77 | every command but the ignored one has one of the eight names |
| JsBot.CommandNamed | src/index.js:59-77 | each of the eight names selects the command it names; any other word is ignored |
| JsBot.EmptyQueryMeansNoArgs | src/index.js:86-87 | the play query is empty exactly when there are no arguments |
| JsBot.IsSpotifyQuery | src/index.js:104 | a query is a Spotify query exactly when "spotify.com" occurs in it |
| JsBot.IsYouTubeQuery | src/index.js:105 | a query is a YouTube query exactly when "youtube.com" or "youtu.be" occurs in it |
| JsBot.EnqueueKeepsLimit | src/index.js:124-128 | a queue within the limit stays within it: refused batches change nothing, accepted ones fit, starting only removes |
| JsBot.QueueLines | src/index.js:175-191 | one line for the current track (first), the numbered part and an overflow line past ten |
| JsBot.QueueListingLine | src/index.js:185-187 | line i of the numbered part shows the track at position i, numbered i + 1 |
| JsBot.QueueListingShape | src/index.js:185-189 | at most ten tracks numbered from 1 in queue order, and "...and N more" last exactly when more than ten |
| JsBot.Bot.constructor | src/index.js:27-28 | empty registries, a fresh token cache, and a valid registry |
| JsBot.Bot.GetQueue | src/index.js:30-33 | the guild's queue is created empty on first use and the same one is returned afterwards |
| JsBot.Bot.GetController | src/index.js:35-39 | at most one controller per guild, created idle and unconnected on first use and bound to the guild's queue |
| JsBot.Bot.Register | src/index.js:37 | the new controller is registered under its guild, bound to its queue; the registry stays valid |
| JsBot.Bot.ResolveQuery | src/index.js:103-117 | a Spotify link goes to Spotify, a YouTube link to YouTube, anything else to YouTube and then to Spotify only when YouTube found nothing; a Spotify look-up leaves the token time where the five-minute rule puts it and replaces the cached token exactly when a grant was due and succeeded; a YouTube-only one leaves time and token alone |
| JsBot.Bot.StartIfIdle | src/index.js:138-151 | the controller starts exactly when its player is idle or auto-paused; then `started` holds `start`'s result and the guild's view becomes `StartSpec` of the view before (connected to the member's channel if it had no connection, else on the connection it had; queue advanced once); otherwise nothing changes; other guilds keep their controllers |
| JsBot.Bot.StartRegistered | src/index.js:145 | `start` on the registered controller returns `StartResult` and moves the guild's view to `StartSpec`; no other guild's queue or controller changes |
| JsBot.Bot.EnqueueAndStart | src/index.js:124-151 | a batch past the limit is refused whole and changes nothing; otherwise it is appended and, when the player was idle, `started` and the new view follow `StartEffect`; it touches only the guild's queue and controller |
| JsBot.Bot.EnqueueResolved | src/index.js:119-151 | an error, no match or the limit is answered with nothing changed; otherwise the batch is queued, and the reply, the loop switch, `started` and the controller's new view follow `PlayEffect`; it touches only the guild's queue and controller |
| JsBot.Bot.ResolveAndEnqueue | src/index.js:103-151 | the resolution and the token time follow `ResolvedInOrder`, and the reply and the guild's new view follow `PlayEffect`; it touches only the guild's queue and controller and the token cache |
| JsBot.PlayReplies | src/index.js:143-150 | "Now playing" is sent for the track just started, which is current and playing, connected to the member's channel if the controller had no connection, else on the connection it had; "Queue is empty." leaves nothing current and auto-leave armed |
| JsBot.Bot.PlayQuery | src/index.js:99-151 | the guild gets a queue, the resolution and token time follow `ResolvedInOrder`, the reply and the new view `PlayEffect`; it modifies only the guild's queue and controller and the token cache, and every other guild keeps the same queue and controller (`OthersKept`) |
| JsBot.Bot.HandlePlay | src/index.js:85-152 | usage exactly when the query is empty; the voice refusal exactly when the query is non-empty and the member is in no voice channel; both leave every queue, controller and the token cache unchanged; otherwise as `PlayQuery`; only the guild's queue and controller and the token cache can change, and every other guild keeps the same queue and controller |
| JsBot.Bot.HandlePause | src/index.js:154-159 | with a controller, a playing player pauses and nothing else of that controller changes; without one nothing changes; no queue and no other guild's controller changes |
| JsBot.Bot.HandleResume | src/index.js:161-166 | with a controller, a paused player resumes and nothing else of that controller changes; without one nothing changes; no queue and no other guild's controller changes |
| JsBot.Bot.HandleSkip | src/index.js:168-173 | with a controller, the player halts and the Idle handler advances; otherwise no queue changes; no other guild's queue or controller changes |
| JsBot.Bot.HandleStop | src/index.js:207-212 | with a controller, `stop` follows `StopSpec`; otherwise no queue changes; no other guild's queue or controller changes |
| JsBot.Bot.HandleLeave | src/index.js:200-205 | with a controller, `leave` follows `LeaveSpec` and the controller stays registered; otherwise no queue changes; no other guild's queue or controller changes |
| JsBot.Bot.HandleLoop | src/index.js:193-198 | the loop switch flips, the reply reports the new value, and queue and current stay; only the guild's queue can change, and every other guild keeps the same queue and controller |
| JsBot.Bot.FlipLoop | src/index.js:195-196 | `setLoop(!getLoop())` negates the switch and changes nothing else |
| JsBot.Bot.HandleQueue | src/index.js:175-191 | "Queue is empty." exactly when there is no queue or nothing current or queued; otherwise the joined listing |
| JsBot.Bot.AutoLeaveFires | src/player.js:78 | the guild's timer firing runs `leave` on its controller; no other guild's queue or controller changes |
| JsBot.Bot.PlayerGoesIdle | src/player.js:23 | the guild's track ends and the Idle handler runs once; no other guild's queue or controller changes |
| JsBot.Bot.PlayerErrors | src/player.js:23-27 | the guild's track fails and the controller follows `FailSpec`; no other guild's queue or controller changes |

## Left out

- I/O is not modelled: Discord messages, embeds, reply texts and emoji, and
  typing indicators. Where a handler's reply matters, it is a result value.
- Concurrency and async timing are not modelled. Each command and each
  Idle event runs to completion, atomically. Neither bot has a per-guild
  lock, so interleavings of awaited calls are not represented.
- In the Python bot, `after` callbacks are one `PlayNext` call each.
- `start_idle_timer` is not modelled. It is a plain two-minute sleep in
  `main.py` with nothing to cancel. A second `PlayNext` after a finished
  queue stands for its effect on state.
- The JavaScript auto-leave timer is modelled only as the handle the queue
  holds and the set of armed handles. The delay is not modelled.
- The reconnect handling inside `connect` is not modelled (the
  Disconnected handler at `src/player.js` 38-48). It runs asynchronously
  and depends on library state transitions.
- The audio player's Buffering status is folded into Playing. AutoPaused
  is derived from the connection only: a track started without one is
  auto-paused, and a new connection makes an auto-paused player play.
  The library's own timing of that switch is not modelled.
- JsPlayer.GuildAudioController.PlayerFailed: assumes the two stream
  look-ups of a failed track complete in the order they started, so the
  second play replaces the first. The other order is not modelled.
- A "Failed to create stream" inside the Idle handler is a promise nobody
  awaits (`src/player.js` 23-27). In Node.js such an unhandled rejection
  ends the process; the model only reports it as a failed `play`.
- `pause`, `resume` and `skip` in `main.py` only forward to the voice
  client. The voice client is outside the model.
- Whether the Python voice client is connected or playing is a boolean
  parameter (`inVoice`, `isPlaying`).
- The volume gain is a float on the stream and is not modelled. `Volume`
  states the validation, the percent reported and the error raised when
  nothing is playing.
- The randomness of `random.shuffle` is the `randBelow` parameter.
  `Shuffled` does not claim uniformity.
- The look-ups are parameters: `get_spotify_track_queries`,
  `extract_spotify_title`, `get_youtube_playlist` and yt-dlp's
  `extract_info`. A look-up that raises is modelled as `None`, and the
  120-second timeout counts as such a failure.
- The Python bot's single-item paths surface a failed look-up as the
  generic error reply (`ResolveFailed`). The exact error text is not
  modelled.
- `loop_queue_backup` (`main.py` 43) is never read or written by any
  command, so it is not modelled.
- Case folding is ASCII only. Python's `str.lower` (`main.py` 513) and
  JavaScript's `cmd.toLowerCase()` (`src/index.js` 59) on other letters are
  not modelled.
- JsYouTube.JsNumber: reads non-integer numeric text such as "12.5" or
  "1e3" as not a number, where JavaScript's `Number` gives a number.
  Fractional and exponent notation are not modelled; a video length is
  whole seconds.
- The JavaScript modelled exceptions are: a refused token grant, a missing
  stream ("Failed to create stream") and a Spotify search item without
  artists. Other library exceptions are not modelled.
- The message filter for bots and direct messages at `src/index.js` 55 is
  not modelled. `handlePlay` is given the guild and the member's voice
  channel directly.
- The configuration constants `PREFIX`, `MAX_QUEUE_LENGTH` and
  `AUTO_LEAVE_MS` come from `src/config.js`, which is not part of this
  model. They are parameters, or the delay is dropped.
- `Track.requestedBy` is the author's tag as a string.
- Presentation is not modelled: the bitrate and thumbnail fields of the
  cards, and the Python `nowplaying` card apart from its duration field.
- The other parts of the repository are not part of this model:
  - the conversational reply feature;
  - the root `index.js`, `spotify_handler.py`, `src/web.js` and
    `keepAlive.js`.

=== FILE: batch.dfy ===
/**
 * The batch fold both bots use when a playlist, an album or a Spotify link
 * expands to many items: each item is resolved on its own, a failed item is
 * skipped, and the successes are kept in source order.
 */
module Batch {
  import opened Common

  /** The resolved values of a batch, in order, with failed items dropped. */
  function Successes<T>(rs: seq<Option<T>>): (out: seq<T>)
    ensures |out| <= |rs|
  {
    if rs == [] then []
    else (if rs[0].Some? then [rs[0].value] else []) + Successes(rs[1..])
  }

  /** The positions, counted from `base`, of the items that resolved. */
  function KeptFrom<T>(rs: seq<Option<T>>, base: nat): seq<nat>
  {
    if rs == [] then []
    else (if rs[0].Some? then [base] else []) + KeptFrom(rs[1..], base + 1)
  }

  /** The positions of the items that resolved, in increasing order. */
  function Kept<T>(rs: seq<Option<T>>): seq<nat>
  {
    KeptFrom(rs, 0)
  }

  /** Folding a batch in two halves gives the two folds one after the other. */
  lemma {:induction false} SuccessesAppend<T>(a: seq<Option<T>>, b: seq<Option<T>>)
    ensures Successes(a + b) == Successes(a) + Successes(b)
  {
    if a == [] {
      assert a + b == b;
    } else {
      var head := if a[0].Some? then [a[0].value] else [];
      assert (a + b)[0] == a[0];
      assert (a + b)[1..] == a[1..] + b;
      SuccessesAppend(a[1..], b);
      calc {
        Successes(a + b);
        head + Successes(a[1..] + b);
        head + (Successes(a[1..]) + Successes(b));
        (head + Successes(a[1..])) + Successes(b);
        Successes(a) + Successes(b);
      }
    }
  }

  lemma {:induction false} KeptFromInOrder<T>(rs: seq<Option<T>>, base: nat)
    ensures |KeptFrom(rs, base)| == |Successes(rs)|
    ensures forall k :: 0 <= k < |KeptFrom(rs, base)| ==>
      base <= KeptFrom(rs, base)[k] < base + |rs| && rs[KeptFrom(rs, base)[k] - base] == Some(Successes(rs)[k])
    ensures forall k, l :: 0 <= k < l < |KeptFrom(rs, base)| ==> KeptFrom(rs, base)[k] < KeptFrom(rs, base)[l]
  {
    if rs != [] {
      KeptFromInOrder(rs[1..], base + 1);
    }
  }

  lemma {:induction false} KeptFromComplete<T>(rs: seq<Option<T>>, base: nat)
    ensures forall i :: 0 <= i < |rs| && rs[i].Some? ==> base + i in KeptFrom(rs, base)
  {
    if rs != [] {
      KeptFromComplete(rs[1..], base + 1);
      forall i | 0 <= i < |rs| && rs[i].Some?
        ensures base + i in KeptFrom(rs, base)
      {
        if i > 0 {
          assert rs[1..][i - 1] == rs[i];
          assert base + 1 + (i - 1) in KeptFrom(rs[1..], base + 1);
        }
      }
    }
  }

  /**
   * Order is kept and failures are skipped: the k-th success is the value of
   * the k-th resolved item, those positions increase strictly, and every
   * item that resolved is among them.
   */
  lemma SuccessesInOrder<T>(rs: seq<Option<T>>)
    ensures |Kept(rs)| == |Successes(rs)|
    ensures forall k :: 0 <= k < |Kept(rs)| ==> Kept(rs)[k] < |rs| && rs[Kept(rs)[k]] == Some(Successes(rs)[k])
    ensures forall k, l :: 0 <= k < l < |Kept(rs)| ==> Kept(rs)[k] < Kept(rs)[l]
    ensures forall i :: 0 <= i < |rs| && rs[i].Some? ==> i in Kept(rs)
  {
    KeptFromInOrder(rs, 0);
    KeptFromComplete(rs, 0);
  }

  /** When every item resolves, nothing is skipped. */
  lemma {:induction false} SuccessesAllResolved<T>(rs: seq<Option<T>>)
    requires forall i :: 0 <= i < |rs| ==> rs[i].Some?
    ensures |Successes(rs)| == |rs|
    ensures forall i :: 0 <= i < |rs| ==> Successes(rs)[i] == rs[i].value
  {
    if rs != [] {
      SuccessesAllResolved(rs[1..]);
    }
  }

  /** When no item resolves, the batch adds nothing. */
  lemma {:induction false} SuccessesNoneResolved<T>(rs: seq<Option<T>>)
    requires forall i :: 0 <= i < |rs| ==> rs[i].None?
    ensures Successes(rs) == []
  {
    if rs != [] {
      SuccessesNoneResolved(rs[1..]);
    }
  }
}

=== FILE: common.dfy ===
/** Small wrapper types shared by every module of the model. */
module Common {

  /** A value that may be absent: JavaScript's `null`/`undefined`, Python's `None`. */
  datatype Option<+T> = None | Some(value: T)

  /** The outcome of an operation that can throw; `Err` carries the message. */
  datatype Result<+T> = Ok(value: T) | Err(message: string)
}

=== FILE: duration.dfy ===
/**
 * Rendering a length in seconds as "m:ss": `formatDuration` of the
 * JavaScript resolvers and the `f"{d // 60}:{d % 60:02d}"` of the Python
 * "now playing" card.
 */
module Duration {
  import opened Common
  import opened Text

  /** JavaScript's `%`: the remainder takes the sign of the dividend. */
  function JsRem(a: int, b: int): (r: int)
    requires b > 0
    ensures -b < r < b
    ensures a >= 0 ==> r == a % b
    ensures a < 0 ==> r <= 0
  {
    if a >= 0 then a % b else -((-a) % b)
  }

  /**
   * `formatDuration(seconds)`. `seconds` is `None` when `Number(seconds)` is
   * not a number, which `|| 0` turns into 0. `Math.floor(s / 60)` is `s / 60`
   * here, since Dafny's division rounds down for a positive divisor; the
   * remainder is JavaScript's.
   */
  function FormatDuration(seconds: Option<int>): (t: string)
    ensures seconds.None? ==> t == "0:00"
    ensures seconds.Some? && seconds.value >= 0 ==> ParseClock(t) == Some(seconds.value)
    ensures seconds.Some? && seconds.value < 0 ==> t != [] && t[0] == '-' && ParseClock(t) == None
  {
    var s := if seconds.Some? then seconds.value else 0;
    var t := Clock(s / 60, JsRem(s, 60));
    if s >= 0 then
      assert JsRem(s, 60) == s % 60;
      ClockRoundTrip(s);
      if seconds.None? then ZeroClock(); t else t
    else
      NegativeClock(s / 60, JsRem(s, 60));
      t
  }

  /** Minutes, a colon, and the seconds padded to two places. */
  function Clock(minutes: int, seconds: int): string
  {
    IntToString(minutes) + ":" + PadStart(IntToString(seconds), 2, '0')
  }

  lemma ZeroClock()
    ensures Clock(0, 0) == "0:00"
  {
    assert NatToString(0) == "0";
    assert IntToString(0) == "0";
    assert PadStart("0", 2, '0') == "00";
  }

  /** A clock with negative minutes starts with a minus sign and does not read back. */
  lemma NegativeClock(minutes: int, seconds: int)
    requires minutes < 0
    ensures var t := Clock(minutes, seconds); t != [] && t[0] == '-' && ParseClock(t) == None
  {
    var t := Clock(minutes, seconds);
    var m := IntToString(minutes);
    assert t[0] == m[0];
    if |t| >= 4 && t[|t| - 3] == ':' {
      assert t[..|t| - 3][0] == '-';
    }
  }

  /**
   * The Python card's `f"{d // 60}:{d % 60:02d}"`. Python's `//` and `%`
   * round down, which for the divisor 60 is what Dafny's `/` and `%` do.
   */
  function PyClock(d: int): (t: string)
    ensures d >= 0 ==> ParseClock(t) == Some(d)
    ensures d < 0 ==> t != [] && t[0] == '-' && ParseClock(t) == None
  {
    var t := Clock(d / 60, d % 60);
    if d >= 0 then
      ClockRoundTrip(d);
      t
    else
      NegativeClock(d / 60, d % 60);
      t
  }

  /** Reads an "m:ss" string back into seconds, when it has that form. */
  function ParseClock(t: string): Option<nat>
  {
    if |t| >= 4 && t[|t| - 3] == ':' && AllDigits(t[..|t| - 3]) && AllDigits(t[|t| - 2..])
       && ParseNat(t[|t| - 2..]) < 60
    then Some(ParseNat(t[..|t| - 3]) * 60 + ParseNat(t[|t| - 2..]))
    else None
  }

  /** A number below 100 renders in at most two digits. */
  lemma SmallNatDigits(n: nat)
    requires n < 100
    ensures |NatToString(n)| <= 2
    ensures n < 10 ==> NatToString(n) == [DigitChar(n)]
  {
  }

  /** The two-digit seconds field reads back as the remainder it renders. */
  lemma {:induction false} SecondsField(r: nat)
    requires r < 60
    ensures |PadStart(NatToString(r), 2, '0')| == 2
    ensures AllDigits(PadStart(NatToString(r), 2, '0'))
    ensures ParseNat(PadStart(NatToString(r), 2, '0')) == r
  {
    SmallNatDigits(r);
    ParseNatToString(r);
    var f := PadStart(NatToString(r), 2, '0');
    if r < 10 {
      assert f == ['0', DigitChar(r)];
      assert f[..1] == ['0'];
    } else {
      assert f == NatToString(r);
    }
  }

  lemma ParseClockOf(m: string, f: string, s: nat)
    requires m != [] && AllDigits(m) && |f| == 2 && AllDigits(f) && ParseNat(f) < 60
    requires ParseNat(m) * 60 + ParseNat(f) == s
    ensures ParseClock(m + ":" + f) == Some(s)
  {
    var t := m + ":" + f;
    var head, tail := t[..|t| - 3], t[|t| - 2..];
    assert |t| >= 4 && t[|t| - 3] == ':';
    assert head == m && AllDigits(head) && ParseNat(head) == ParseNat(m) by {
      assert t[..|t| - 3] == m;
    }
    assert tail == f && AllDigits(tail) && ParseNat(tail) == ParseNat(f) by {
      assert t[|t| - 2..] == f;
    }
  }

  /**
   * For a non-negative whole number of seconds, minutes, a colon and the
   * two-digit seconds below 60 read back as that number.
   */
  lemma ClockRoundTrip(s: nat)
    ensures ParseClock(Clock(s / 60, s % 60)) == Some(s)
  {
    var m := NatToString(s / 60);
    var f := PadStart(NatToString(s % 60), 2, '0');
    SecondsField(s % 60);
    ParseNatToString(s / 60);
    DivModSixty(s, ParseNat(m), ParseNat(f));
    ParseClockOf(m, f, s);
  }

  lemma DivModSixty(s: nat, a: nat, b: nat)
    requires a == s / 60 && b == s % 60
    ensures a * 60 + b == s
  {
  }

  /** The Python card and the JavaScript helper agree on every non-negative length. */
  lemma ClocksAgree(d: nat)
    ensures PyClock(d) == FormatDuration(Some(d))
  {
  }

  /**
   * On a negative length they differ: JavaScript's remainder keeps the sign
   * (-5 gives "-1:-5") while Python's is non-negative (-5 gives "-1:55").
   */
  lemma ClocksDifferOnNegative()
    ensures FormatDuration(Some(-5)) == "-1:-5"
    ensures PyClock(-5) == "-1:55"
  {
    JsMinusFive();
    PyMinusFive();
  }

  lemma JsMinusFive()
    ensures FormatDuration(Some(-5)) == "-1:-5"
  {
    assert FormatDuration(Some(-5)) == Clock(-5 / 60, JsRem(-5, 60));
    assert Clock(-5 / 60, JsRem(-5, 60)) == Clock(-1, -5) by {
      MinusFiveArithmetic();
    }
    MinusFiveClocks();
  }

  lemma PyMinusFive()
    ensures PyClock(-5) == "-1:55"
  {
    assert PyClock(-5) == Clock(-5 / 60, -5 % 60);
    assert Clock(-5 / 60, -5 % 60) == Clock(-1, 55) by {
      MinusFiveArithmetic();
    }
    MinusFiveClocks();
  }

  lemma MinusFiveArithmetic()
    ensures -5 / 60 == -1 && -5 % 60 == 55 && JsRem(-5, 60) == -5
  {
  }

  lemma MinusFiveClocks()
    ensures Clock(-1, -5) == "-1:-5"
    ensures Clock(-1, 55) == "-1:55"
  {
    var one, five, fiftyFive := NatToString(1), NatToString(5), NatToString(55);
    assert one == "1" && five == "5";
    assert fiftyFive == "55" by {
      assert NatToString(55) == NatToString(5) + [DigitChar(5)];
    }
    assert IntToString(-1) == "-1";
    assert IntToString(-5) == "-5";
    assert IntToString(55) == "55";
    assert PadStart("-5", 2, '0') == "-5";
    assert PadStart("55", 2, '0') == "55";
  }

  /**
   * `durationInSec ? formatDuration(durationInSec) : "Unknown"`: a clock
   * for a truthy number of seconds, "Unknown" for 0 or a missing value.
   */
  function DurationLabel(d: Option<int>): (s: string)
    ensures d.None? || d.value == 0 ==> s == "Unknown"
    ensures d.Some? && d.value > 0 ==> ParseClock(s) == Some(d.value)
  {
    if d.Some? && d.value != 0 then FormatDuration(d) else "Unknown"
  }
}

=== FILE: js_bot.dfy ===
/**
 * The JS bot's command layer (src/index.js): the per-guild registry of
 * queues and audio controllers, command splitting, and the handlers for
 * play, pause, resume, skip, queue, loop, leave and stop. The Discord
 * message, the member's voice channel and the time of day reach the model
 * as parameters.
 */
module JsBot {
  import opened Common
  import opened Text
  import opened Playback
  import opened JsQueue
  import opened JsPlayer
  import opened JsYouTube
  import opened JsSpotify
  import Listing

  type GuildId = nat

  /** The commands the bot answers; any other word after the prefix is ignored. */
  datatype Command = PlayCmd(args: seq<string>) | PauseCmd | ResumeCmd | SkipCmd | QueueCmd | LoopCmd | LeaveCmd | StopCmd | Ignored

  /**
   * The words of a message after the prefix: trimmed, then split on runs of
   * white space. Putting the runs back between the words gives the trimmed
   * text; blank text gives one empty word, and other text no empty word.
   */
  function Words(rest: string): (words: seq<string>)
    ensures words != [] && forall i :: 0 <= i < |words| ==> NoSpace(words[i])
    ensures |words| == |Gaps(Trim(rest))| + 1 && Interleave(words, Gaps(Trim(rest))) == Trim(rest)
    ensures words == [""] <==> Trim(rest) == ""
    ensures Trim(rest) != "" ==> forall i :: 0 <= i < |words| ==> words[i] != ""
  {
    var t := Trim(rest);
    SplitTrimmed(t);
    SplitSpaces(t)
  }

  /** The words, after lower-casing, that name the commands. */
  const CommandNames: seq<string> := ["play", "pause", "resume", "skip", "queue", "loop", "leave", "stop"]

  /** The word that names a command. */
  function CommandName(c: Command): (name: string)
    requires !c.Ignored?
    ensures name in CommandNames
  {
    match c
    case PlayCmd(_) => "play"
    case PauseCmd => "pause"
    case ResumeCmd => "resume"
    case SkipCmd => "skip"
    case QueueCmd => "queue"
    case LoopCmd => "loop"
    case LeaveCmd => "leave"
    case StopCmd => "stop"
  }

  /**
   * Strip the prefix and split into words; the first word, lower-cased,
   * names the command and the rest are its arguments. A message without
   * the prefix is no command.
   */
  function ParseCommand(content: string, prefix: string): (c: Option<Command>)
    ensures c.Some? <==> StartsWith(content, prefix)
    ensures c.Some? && !c.value.Ignored? ==> Lower(Words(content[|prefix|..])[0]) == CommandName(c.value)
    ensures c.Some? && c.value.Ignored? ==> Lower(Words(content[|prefix|..])[0]) !in CommandNames
    ensures c.Some? && c.value.PlayCmd? ==> c.value.args == Words(content[|prefix|..])[1..]
  {
    if !StartsWith(content, prefix) then None
    else
      var words := Words(content[|prefix|..]);
      Some(CommandNamed(Lower(words[0]), words[1..]))
  }

  /** The command a lower-cased first word names, with the remaining words as arguments. */
  function CommandNamed(name: string, args: seq<string>): (c: Command)
    ensures !c.Ignored? ==> CommandName(c) == name
    ensures c.Ignored? ==> name !in CommandNames
    ensures c.PlayCmd? ==> c.args == args
  {
    match name
    case "play" => PlayCmd(args)
    case "pause" => PauseCmd
    case "resume" => ResumeCmd
    case "skip" => SkipCmd
    case "queue" => QueueCmd
    case "loop" => LoopCmd
    case "leave" => LeaveCmd
    case "stop" => StopCmd
    case _ => Ignored
  }

  /**
   * The play query (the arguments joined by spaces) is empty exactly when
   * there are no arguments: splitting trimmed text never yields an empty
   * word after the first.
   */
  lemma EmptyQueryMeansNoArgs(rest: string)
    ensures var args := Words(rest)[1..];
            Join(args, " ") == "" <==> args == []
  {
    var t := Trim(rest);
    SplitTrimmed(t);
    var args := Words(rest)[1..];
    JoinEmpty(args, " ");
    if args != [] {
      assert t != [];
      assert args[0] == SplitSpaces(t)[1];
    }
  }

  /** Which resolver a play command consulted. */
  datatype Resolver = YouTubeResolver | SpotifyResolver

  /** `query.includes("spotify.com")`. */
  function IsSpotifyQuery(query: string): (r: bool)
    ensures r <==> exists k: nat :: OccursAt(query, "spotify.com", k)
  {
    ContainsOccurs(query, "spotify.com");
    Contains(query, "spotify.com")
  }

  /** `query.includes("youtube.com") || query.includes("youtu.be")`. */
  function IsYouTubeQuery(query: string): (r: bool)
    ensures r <==> (exists k: nat :: OccursAt(query, "youtube.com", k)) || (exists k: nat :: OccursAt(query, "youtu.be", k))
  {
    ContainsOccurs(query, "youtube.com");
    ContainsOccurs(query, "youtu.be");
    Contains(query, "youtube.com") || Contains(query, "youtu.be")
  }

  /** What a play command answered. */
  datatype PlayOutcome =
    | Usage
    | JoinVoiceFirst
    | Failed(message: string)
    | NoMatches
    | LimitExceeded
    | Queued(tracks: seq<Track>, started: Option<Result<bool>>)

  /**
   * The resolution order of `handlePlay`: a Spotify link goes to the
   * Spotify resolver; anything else goes to YouTube first, and a query that
   * is not a YouTube link falls back to Spotify only when YouTube found
   * nothing. Only a Spotify resolution can touch the token timestamp, and
   * it leaves it where the five-minute token rule puts it.
   */
  predicate ResolvedInOrder(query: string, author: string, now: int, grant: Result<string>,
                            yt: YouTubeApi, sp: SpotifyApi, tokenBefore: int, tokenAfter: int,
                            consulted: seq<Resolver>, r: Result<seq<Track>>)
  {
    && consulted != []
    && consulted[0] == (if IsSpotifyQuery(query) then SpotifyResolver else YouTubeResolver)
    && (SpotifyResolver in consulted ==>
          r == SpotifyOutcome(tokenBefore, now, grant, query, author, sp) && tokenAfter == TokenTimeAfter(tokenBefore, now, grant))
    && (SpotifyResolver !in consulted ==> r == Ok(ResolveYouTube(query, author, yt)) && tokenAfter == tokenBefore)
  }

  /**
   * What `handlePlay` does with a resolution `r`, given the guild's slot,
   * loop switch and player status before: an error or an empty result is
   * answered and changes nothing; a batch that would take the queue past
   * `limit` is refused whole and changes nothing; otherwise the whole batch
   * is appended, and when the player was idle or auto-paused the controller
   * starts, which advances the queue once.
   */
  predicate EnqueueEffect(r: Result<seq<Track>>, out: PlayOutcome, limit: nat,
                          before: Slot<Track>, loop: bool, status: Status, after: Slot<Track>)
  {
    && out != Usage && out != JoinVoiceFirst
    && (out.Failed? <==> r.Err?) && (out.Failed? ==> r == Err(out.message))
    && (out == NoMatches <==> r == Ok([]))
    && (out == LimitExceeded <==> r.Ok? && r.value != [] && |before.queue| + |r.value| > limit)
    && (out.Failed? || out == NoMatches || out == LimitExceeded ==> after == before)
    && (out.Queued? ==> r == Ok(out.tracks) && (out.started.Some? <==> status == Idle || status == AutoPaused))
    && (out.Queued? && out.started.None? ==> after == Slot(before.queue + out.tracks, before.nowPlaying))
    && (out.Queued? && out.started.Some? ==>
          after == Advance(Slot(before.queue + out.tracks, before.nowPlaying), ModeOf(loop)).slot)
  }

  /**
   * What `handlePlay` does to the guild's controller, given its view
   * before (that of a fresh controller when there was none): a command
   * that queues nothing changes nothing; a batch queued behind a busy
   * player only lengthens the queue; otherwise the controller starts on
   * the lengthened queue, and `started` holds what `start` returned.
   */
  predicate StartEffect(out: PlayOutcome, before: View, channel: Channel, streamFor: string -> Option<Stream>, after: View)
  {
    && (!out.Queued? ==> after == before)
    && (out.Queued? && out.started.None? ==> after == before.(tracks := before.tracks + out.tracks))
    && (out.Queued? && out.started.Some? ==>
          out.started.value == StartResult(before.(tracks := before.tracks + out.tracks), streamFor)
          && after == StartSpec(before.(tracks := before.tracks + out.tracks), channel, streamFor))
  }

  /**
   * The whole effect of `handlePlay` once the query is resolved, on the
   * guild's controller view: the queue moves as `EnqueueEffect` says, the
   * loop switch is kept, and the controller as `StartEffect` says.
   */
  predicate PlayEffect(r: Result<seq<Track>>, out: PlayOutcome, limit: nat, before: View,
                       channel: Channel, streamFor: string -> Option<Stream>, after: View)
  {
    && EnqueueEffect(r, out, limit, Slot(before.tracks, before.current), before.loop, before.status, Slot(after.tracks, after.current))
    && after.loop == before.loop
    && StartEffect(out, before, channel, streamFor, after)
  }

  /**
   * The replies of `handlePlay` after queueing: "Now playing" names the
   * track just started, which the connected player now plays; "Queue is
   * empty." leaves nothing current and auto-leave armed.
   */
  lemma PlayReplies(out: PlayOutcome, before: View, channel: Channel, streamFor: string -> Option<Stream>, after: View)
    requires StartEffect(out, before, channel, streamFor, after)
    requires out.Queued? && out.started.Some?
    ensures var v := before.(tracks := before.tracks + out.tracks);
            var started := Advance(Slot(v.tracks, v.current), ModeOf(v.loop)).started;
            (out.started.value == Ok(true) ==>
               after.current == started && started.Some? && after.status == Playing && after.connection.Some?
               && after.resource == Some(Resource(streamFor(started.value.url).value)))
            && (out.started.value == Ok(false) ==> after.current == None && after.autoLeave)
  {
    StartReplies(before.(tracks := before.tracks + out.tracks), channel, streamFor);
  }

  /**
   * A play command never takes a queue that was within the limit past it:
   * a refused batch changes nothing, an accepted one fits, and starting the
   * player only takes tracks off.
   */
  lemma {:induction false} EnqueueKeepsLimit(r: Result<seq<Track>>, out: PlayOutcome, limit: nat,
                                             before: Slot<Track>, loop: bool, status: Status, after: Slot<Track>)
    requires EnqueueEffect(r, out, limit, before, loop, status, after)
    requires |before.queue| <= limit
    ensures |after.queue| <= limit
    ensures out.Queued? ==> |before.queue| + |out.tracks| <= limit && out.tracks != []
  {
    if out.Queued? && out.started.Some? {
      var s := Slot(before.queue + out.tracks, before.nowPlaying);
      assert ModeOf(loop) != QueueLoop;
      assert |Advance(s, ModeOf(loop)).slot.queue| <= |s.queue|;
    }
  }

  /** The lines of the queue listing, before they are joined with newlines. */
  function QueueLines(tracks: seq<Track>, current: Option<Track>): (lines: seq<string>)
    ensures |lines| == (if current.Some? then 1 else 0) + |Listing.Numbered(Entries(tracks))|
                       + (if |tracks| > Listing.PageSize then 1 else 0)
    ensures current.Some? ==> lines[0] == "Now: " + current.value.title + " [" + current.value.duration + "]"
  {
    (if current.Some? then ["Now: " + current.value.title + " [" + current.value.duration + "]"] else [])
    + Listing.Numbered(Entries(tracks))
    + (if |tracks| > Listing.PageSize then ["...and " + NatToString(|tracks| - Listing.PageSize) + " more"] else [])
  }

  /** "title [duration]" for each queued track. */
  function Entries(tracks: seq<Track>): (es: seq<string>)
    ensures |es| == |tracks| && forall i :: 0 <= i < |tracks| ==> es[i] == tracks[i].title + " [" + tracks[i].duration + "]"
  {
    seq(|tracks|, i requires 0 <= i < |tracks| => tracks[i].title + " [" + tracks[i].duration + "]")
  }

  /** Line `i` of the numbered part shows the track at position `i`, numbered `i + 1`. */
  lemma QueueListingLine(tracks: seq<Track>, current: Option<Track>, i: nat)
    requires i < |tracks| && i < Listing.PageSize
    ensures QueueLines(tracks, current)[(if current.Some? then 1 else 0) + i]
            == NatToString(i + 1) + ". " + tracks[i].title + " [" + tracks[i].duration + "]"
  {
    QueueLinesAt(tracks, current, i);
    var entry := Entries(tracks)[i];
    assert Listing.Numbered(Entries(tracks))[i] == NatToString(i + 1) + ". " + entry;
  }

  /** Line `i` of the numbered part sits after the "Now:" line, if any. */
  lemma QueueLinesAt(tracks: seq<Track>, current: Option<Track>, i: nat)
    requires i < |tracks| && i < Listing.PageSize
    ensures QueueLines(tracks, current)[(if current.Some? then 1 else 0) + i] == Listing.Numbered(Entries(tracks))[i]
  {
    var head: seq<string> := if current.Some? then ["Now: " + current.value.title + " [" + current.value.duration + "]"] else [];
    var numbered := Listing.Numbered(Entries(tracks));
    var tail := if |tracks| > Listing.PageSize then ["...and " + NatToString(|tracks| - Listing.PageSize) + " more"] else [];
    assert QueueLines(tracks, current) == head + numbered + tail;
    assert (head + numbered + tail)[|head| + i] == numbered[i];
  }

  /**
   * The listing shows at most ten queued tracks, numbered from 1 in queue
   * order, and an "...and N more" line exactly when more than ten are
   * queued, with N the number not shown.
   */
  lemma QueueListingShape(tracks: seq<Track>, current: Option<Track>)
    ensures var shown := if |tracks| < Listing.PageSize then |tracks| else Listing.PageSize;
            |QueueLines(tracks, current)| == (if current.Some? then 1 else 0) + shown + (if |tracks| > Listing.PageSize then 1 else 0)
    ensures forall i :: 0 <= i < |tracks| && i < Listing.PageSize ==>
              QueueLines(tracks, current)[(if current.Some? then 1 else 0) + i]
              == NatToString(i + 1) + ". " + tracks[i].title + " [" + tracks[i].duration + "]"
    ensures |tracks| > Listing.PageSize ==>
              var lines := QueueLines(tracks, current);
              lines[|lines| - 1] == "...and " + NatToString(|tracks| - Listing.PageSize) + " more"
  {
    forall i | 0 <= i < |tracks| && i < Listing.PageSize
      ensures QueueLines(tracks, current)[(if current.Some? then 1 else 0) + i]
              == NatToString(i + 1) + ". " + tracks[i].title + " [" + tracks[i].duration + "]"
    {
      QueueListingLine(tracks, current, i);
    }
    if |tracks| > Listing.PageSize {
      var lines := QueueLines(tracks, current);
      var head: seq<string> := if current.Some? then ["Now: " + current.value.title + " [" + current.value.duration + "]"] else [];
      var tail := ["...and " + NatToString(|tracks| - Listing.PageSize) + " more"];
      assert lines == head + Listing.Numbered(Entries(tracks)) + tail;
      assert lines[|lines| - 1] == tail[0];
    }
  }

  /**
   * The process-wide state: the queue and controller maps, the Spotify
   * token cache and the configured queue limit.
   */
  class Bot {
    var queues: map<GuildId, GuildQueue>
    var controllers: map<GuildId, GuildAudioController>
    const spotify: SpotifyClient
    const maxQueueLength: nat

    /**
     * Each controller is registered under its own guild and drives that
     * guild's queue; distinct guilds have distinct queues; a queue without
     * a controller has no timer; every controller's timers are consistent.
     */
    predicate Valid()
      reads this, queues.Values, controllers.Values
    {
      (forall g :: g in controllers ==> g in queues && controllers[g].queue == queues[g] && controllers[g].guildId == g)
      && (forall g, h :: g in queues && h in queues && g != h ==> queues[g] != queues[h])
      && (forall g :: g in queues && g !in controllers ==> queues[g].idleTimer.None?)
      && (forall g :: g in controllers ==> controllers[g].Valid())
    }

    constructor (maxQueueLength: nat)
      ensures queues == map[] && controllers == map[] && this.maxQueueLength == maxQueueLength
      ensures fresh(spotify) && spotify.lastTokenAt == 0
      ensures Valid()
    {
      queues := map[];
      controllers := map[];
      spotify := new SpotifyClient();
      this.maxQueueLength := maxQueueLength;
    }

    function TracksOf(g: GuildId): seq<Track>
      reads this, if g in queues then {queues[g]} else {}
    {
      if g in queues then queues[g].tracks else []
    }

    function CurrentOf(g: GuildId): Option<Track>
      reads this, if g in queues then {queues[g]} else {}
    {
      if g in queues then queues[g].current else None
    }

    function LoopOf(g: GuildId): bool
      reads this, if g in queues then {queues[g]} else {}
    {
      g in queues && queues[g].loop
    }

    /** The player status a play command sees: a guild without a controller gets a fresh, idle one. */
    function StatusOf(g: GuildId): Status
      reads this, if g in controllers then {controllers[g]} else {}
    {
      if g in controllers then controllers[g].status else Idle
    }

    /**
     * The controller view of guild `g`: its queue's fields with its
     * controller's, or those of a fresh controller when it has none yet.
     */
    function ViewIn(g: GuildId): (v: View)
      reads this, if g in queues then {queues[g]} else {}, if g in controllers then {controllers[g]} else {}
      ensures v.status == StatusOf(g) && v.tracks == TracksOf(g) && v.current == CurrentOf(g) && v.loop == LoopOf(g)
    {
      var autoLeave := g in queues && queues[g].idleTimer.Some?;
      if g in controllers then
        View(TracksOf(g), CurrentOf(g), LoopOf(g), controllers[g].connection, controllers[g].currentResource, controllers[g].status, autoLeave)
      else View(TracksOf(g), CurrentOf(g), LoopOf(g), None, None, Idle, autoLeave)
    }

    /** A registered guild's view is its controller's own view. */
    lemma ViewInController(g: GuildId)
      requires Valid() && g in controllers
      ensures ViewIn(g) == controllers[g].ViewOf()
    {
    }

    /**
     * No guild other than `g` gains or loses a queue or a controller, and
     * each keeps the very queue and controller it had. With a `modifies`
     * clause naming only `g`'s queue and controller, the queues and
     * controllers of all other guilds are then exactly as they were.
     */
    twostate predicate OthersKept(g: GuildId)
      reads this
    {
      && (forall h :: h != g ==> (h in queues <==> h in old(queues)) && (h in controllers <==> h in old(controllers)))
      && (forall h :: h != g && h in queues ==> queues[h] == old(queues[h]))
      && (forall h :: h != g && h in controllers ==> controllers[h] == old(controllers[h]))
    }

    /**
     * Editing the tracks, the current track or the loop switch of one
     * guild's queue keeps the registry valid, as long as its timer handle
     * and every controller stay as they were.
     */
    twostate lemma ValidAfterQueueEdit(g: GuildId)
      requires old(Valid()) && g in old(queues)
      requires queues == old(queues) && controllers == old(controllers)
      requires forall h :: h in queues && h != g ==> unchanged(queues[h])
      requires forall h :: h in controllers ==> unchanged(controllers[h])
      requires queues[g].idleTimer == old(queues[g].idleTimer)
      ensures Valid()
      ensures forall h :: h != g ==> TracksOf(h) == old(TracksOf(h)) && CurrentOf(h) == old(CurrentOf(h)) && LoopOf(h) == old(LoopOf(h))
      ensures ViewIn(g) == old(ViewIn(g)).(tracks := TracksOf(g), current := CurrentOf(g), loop := LoopOf(g))
    {
      forall h | h in controllers
        ensures controllers[h].Valid()
      {
        var c := controllers[h];
        assert old(c.Valid());
        assert c.queue.idleTimer == old(c.queue.idleTimer);
      }
    }

    /**
     * A step of one guild's controller (on its own queue) keeps the
     * registry valid when that controller stays valid and no other guild's
     * objects change.
     */
    twostate lemma ValidAfterControllerStep(g: GuildId)
      requires old(Valid()) && g in old(controllers)
      requires queues == old(queues) && controllers == old(controllers)
      requires forall h :: h in queues && h != g ==> unchanged(queues[h])
      requires forall h :: h in controllers && h != g ==> unchanged(controllers[h])
      requires controllers[g].Valid()
      ensures Valid()
      ensures forall h :: h != g ==> TracksOf(h) == old(TracksOf(h)) && CurrentOf(h) == old(CurrentOf(h))
    {
      forall h | h in controllers && h != g
        ensures controllers[h].Valid()
      {
        var c := controllers[h];
        assert old(c.Valid());
        assert c.queue == queues[h];
      }
    }

    /** `getQueue`: create the guild's queue on first use, return the same one afterwards. */
    method GetQueue(g: GuildId) returns (q: GuildQueue)
      requires Valid()
      modifies this
      ensures g in queues && q == queues[g]
      ensures g in old(queues) ==> queues == old(queues)
      ensures g !in old(queues) ==> fresh(q) && queues == old(queues)[g := q]
                                    && q.tracks == [] && q.current == None && !q.loop && q.idleTimer == None
      ensures controllers == old(controllers)
      ensures Valid()
      ensures ViewIn(g) == old(ViewIn(g))
    {
      if g !in queues {
        var created := new GuildQueue();
        queues := queues[g := created];
      }
      q := queues[g];
    }

    /** `getController`: at most one controller per guild, bound to that guild's queue. */
    method GetController(g: GuildId) returns (c: GuildAudioController)
      requires Valid()
      modifies this
      ensures g in controllers && g in queues && c == controllers[g] && c.queue == queues[g]
      ensures g in old(controllers) ==> controllers == old(controllers) && queues == old(queues)
      ensures g !in old(controllers) ==> fresh(c) && controllers == old(controllers)[g := c]
                                         && c.connection == None && c.currentResource == None && c.status == Idle
      ensures g in old(queues) ==> queues == old(queues)
      ensures g !in old(queues) ==> fresh(queues[g]) && queues == old(queues)[g := queues[g]]
      ensures Valid()
      ensures ViewIn(g) == old(ViewIn(g))
      ensures forall h :: h != g ==> (h in controllers <==> h in old(controllers)) && (h in controllers ==> controllers[h] == old(controllers[h]))
    {
      var q := GetQueue(g);
      if g !in controllers {
        c := Register(g, q);
      }
      c := controllers[g];
    }

    /** A new controller for a guild that has a queue but no controller yet. */
    method Register(g: GuildId, q: GuildQueue) returns (c: GuildAudioController)
      requires Valid() && g in queues && q == queues[g] && g !in controllers
      modifies this
      ensures fresh(c) && controllers == old(controllers)[g := c] && queues == old(queues)
      ensures c.queue == q && c.connection == None && c.currentResource == None && c.status == Idle
      ensures Valid()
    {
      c := new GuildAudioController(g, q);
      controllers := controllers[g := c];
      forall h | h in controllers
        ensures controllers[h].Valid()
      {
        if h != g {
          assert old(controllers[h].Valid());
        }
      }
    }

    /**
     * The resolution order of `handlePlay`: a Spotify link goes to the
     * Spotify resolver, a YouTube link to the YouTube resolver, and any
     * other query to YouTube first and to Spotify only when YouTube found
     * nothing.
     */
    method ResolveQuery(query: string, author: string, now: int, grant: Result<string>,
                        yt: YouTubeApi, sp: SpotifyApi)
      returns (r: Result<seq<Track>>, ghost consulted: seq<Resolver>)
      modifies spotify
      ensures IsSpotifyQuery(query) ==> consulted == [SpotifyResolver]
      ensures !IsSpotifyQuery(query) && IsYouTubeQuery(query) ==> consulted == [YouTubeResolver]
      ensures !IsSpotifyQuery(query) && !IsYouTubeQuery(query) ==>
                consulted == if ResolveYouTube(query, author, yt) == [] then [YouTubeResolver, SpotifyResolver] else [YouTubeResolver]
      ensures ResolvedInOrder(query, author, now, grant, yt, sp, old(spotify.lastTokenAt), spotify.lastTokenAt, consulted, r)
      ensures spotify.accessToken == if SpotifyResolver in consulted && Grants(old(spotify.lastTokenAt), now, grant)
                                     then Some(grant.value) else old(spotify.accessToken)
    {
      if IsSpotifyQuery(query) {
        r := spotify.Resolve(query, author, now, grant, sp);
        consulted := [SpotifyResolver];
      } else if IsYouTubeQuery(query) {
        r := Ok(ResolveYouTube(query, author, yt));
        consulted := [YouTubeResolver];
      } else {
        var tracks := ResolveYouTube(query, author, yt);
        consulted := [YouTubeResolver];
        r := Ok(tracks);
        if |tracks| == 0 {
          r := spotify.Resolve(query, author, now, grant, sp);
          consulted := consulted + [SpotifyResolver];
        }
      }
    }

    /**
     * The end of `handlePlay`: get (or create) the guild's controller and
     * start it unless its player is busy, that is neither idle nor paused
     * for want of a listener.
     */
    method StartIfIdle(g: GuildId, channel: Channel, streamFor: string -> Option<Stream>)
      returns (started: Option<Result<bool>>)
      requires Valid() && g in queues
      modifies this, queues[g], if g in controllers then {controllers[g]} else {}
      ensures Valid() && queues == old(queues)
      ensures started.Some? <==> old(StatusOf(g)) == Idle || old(StatusOf(g)) == AutoPaused
      ensures started.None? ==> queues[g].tracks == old(queues[g].tracks) && queues[g].current == old(queues[g].current)
      ensures g in controllers
      ensures started.Some? ==> started.value == StartResult(old(ViewIn(g)), streamFor)
                                && ViewIn(g) == StartSpec(old(ViewIn(g)), channel, streamFor)
      ensures started.None? ==> ViewIn(g) == old(ViewIn(g))
      ensures forall h :: h != g ==> (h in controllers <==> h in old(controllers)) && (h in controllers ==> controllers[h] == old(controllers[h]))
      ensures started.Some? ==>
                Slot(queues[g].tracks, queues[g].current) == Advance(Slot(old(queues[g].tracks), old(queues[g].current)), ModeOf(old(queues[g].loop))).slot
      ensures queues[g].loop == old(queues[g].loop)
      ensures forall h :: h in queues && h != g ==> unchanged(queues[h])
    {
      var controller := GetController(g);
      if controller.status != Idle && controller.status != AutoPaused {
        return None;
      }
      label Registered:
      var r := StartRegistered(g, channel, streamFor);
      started := Some(r);
    }

    /** `controller.start(channel)` on the guild's registered controller. */
    method StartRegistered(g: GuildId, channel: Channel, streamFor: string -> Option<Stream>)
      returns (r: Result<bool>)
      requires Valid() && g in controllers
      modifies controllers[g], controllers[g].queue
      ensures Valid()
      ensures r == StartResult(old(ViewIn(g)), streamFor)
      ensures ViewIn(g) == StartSpec(old(ViewIn(g)), channel, streamFor)
      ensures forall h :: h in controllers && h != g ==> unchanged(controllers[h])
      ensures Slot(queues[g].tracks, queues[g].current) == Advance(Slot(old(queues[g].tracks), old(queues[g].current)), ModeOf(old(queues[g].loop))).slot
      ensures queues[g].loop == old(queues[g].loop)
      ensures forall h :: h in queues && h != g ==> unchanged(queues[h])
    {
      var controller := controllers[g];
      ViewInController(g);
      label Registered:
      r := controller.Start(channel, streamFor);
      forall h | h in queues && h != g
        ensures unchanged@Registered(queues[h])
      {
        assert queues[h] != controller.queue;
      }
      forall h | h in controllers && h != g
        ensures unchanged@Registered(controllers[h])
      {
        assert controllers[h].queue != controller.queue;
      }
      ValidAfterControllerStep@Registered(g);
      ViewInController(g);
    }

    /**
     * The second half of `handlePlay`, once tracks are resolved: reject the
     * whole batch if it would overflow the queue limit, otherwise append it
     * all and start the controller unless its player is busy.
     */
    method EnqueueAndStart(g: GuildId, tracks: seq<Track>, channel: Channel, streamFor: string -> Option<Stream>)
      returns (out: PlayOutcome)
      requires Valid() && g in queues && tracks != []
      modifies this, queues[g], if g in controllers then {controllers[g]} else {}
      ensures Valid() && queues == old(queues)
      ensures out == LimitExceeded <==> |old(queues[g].tracks)| + |tracks| > maxQueueLength
      ensures out != LimitExceeded ==> out.Queued? && out.tracks == tracks
      ensures out == LimitExceeded ==>
                controllers == old(controllers) && queues[g].tracks == old(queues[g].tracks) && queues[g].current == old(queues[g].current)
      ensures out.Queued? ==> (out.started.Some? <==> old(StatusOf(g)) == Idle || old(StatusOf(g)) == AutoPaused)
      ensures out.Queued? && out.started.None? ==>
                queues[g].tracks == old(queues[g].tracks) + tracks && queues[g].current == old(queues[g].current)
      ensures out.Queued? && out.started.Some? ==>
                Slot(queues[g].tracks, queues[g].current)
                == Advance(Slot(old(queues[g].tracks) + tracks, old(queues[g].current)), ModeOf(old(queues[g].loop))).slot
      ensures queues[g].loop == old(queues[g].loop)
      ensures forall h :: h in queues && h != g ==> unchanged(queues[h])
      ensures StartEffect(out, old(ViewIn(g)), channel, streamFor, ViewIn(g))
      ensures forall h :: h != g ==> (h in controllers <==> h in old(controllers)) && (h in controllers ==> controllers[h] == old(controllers[h]))
    {
      var queue := queues[g];
      if queue.Length() + |tracks| > maxQueueLength {
        return LimitExceeded;
      }
      label Checked:
      queue.AddMany(tracks);
      ValidAfterQueueEdit@Checked(g);
      var started := StartIfIdle(g, channel, streamFor);
      out := Queued(tracks, started);
    }

    /** `handlePlay` from the resolution on, once the guild has a queue. */
    method ResolveAndEnqueue(g: GuildId, query: string, channel: Channel, author: string, now: int,
                             grant: Result<string>, yt: YouTubeApi, sp: SpotifyApi, streamFor: string -> Option<Stream>)
      returns (out: PlayOutcome, ghost resolved: Result<seq<Track>>, ghost consulted: seq<Resolver>)
      requires Valid() && g in queues
      modifies this, queues[g], if g in controllers then {controllers[g]} else {}, spotify
      ensures Valid() && queues == old(queues)
      ensures ResolvedInOrder(query, author, now, grant, yt, sp, old(spotify.lastTokenAt), spotify.lastTokenAt, consulted, resolved)
      ensures PlayEffect(resolved, out, maxQueueLength, old(ViewIn(g)), channel, streamFor, ViewIn(g))
      ensures forall h :: h != g ==> (h in controllers <==> h in old(controllers)) && (h in controllers ==> controllers[h] == old(controllers[h]))
    {
      ghost var before := ViewIn(g);
      var r;
      r, consulted := ResolveQuery(query, author, now, grant, yt, sp);
      resolved := r;
      ghost var token := spotify.lastTokenAt;
      assert Valid() && ViewIn(g) == before;
      out := EnqueueResolved(g, r, channel, streamFor);
      assert spotify.lastTokenAt == token;
    }

    /** The reply to a resolution: its error, no matches, or the batch enqueued and started. */
    method EnqueueResolved(g: GuildId, r: Result<seq<Track>>, channel: Channel, streamFor: string -> Option<Stream>)
      returns (out: PlayOutcome)
      requires Valid() && g in queues
      modifies this, queues[g], if g in controllers then {controllers[g]} else {}
      ensures Valid() && queues == old(queues)
      ensures PlayEffect(r, out, maxQueueLength, old(ViewIn(g)), channel, streamFor, ViewIn(g))
      ensures forall h :: h in queues && h != g ==> unchanged(queues[h])
      ensures forall h :: h != g ==> (h in controllers <==> h in old(controllers)) && (h in controllers ==> controllers[h] == old(controllers[h]))
    {
      if r.Err? {
        return Failed(r.message);
      }
      if |r.value| == 0 {
        return NoMatches;
      }
      out := EnqueueAndStart(g, r.value, channel, streamFor);
    }

    /** `handlePlay` once the query is non-empty and the author is in a voice channel. */
    method PlayQuery(g: GuildId, query: string, channel: Channel, author: string, now: int,
                     grant: Result<string>, yt: YouTubeApi, sp: SpotifyApi, streamFor: string -> Option<Stream>)
      returns (out: PlayOutcome, ghost resolved: Result<seq<Track>>, ghost consulted: seq<Resolver>)
      requires Valid()
      modifies this, if g in queues then {queues[g]} else {}, if g in controllers then {controllers[g]} else {}, spotify
      ensures Valid() && g in queues
      ensures ResolvedInOrder(query, author, now, grant, yt, sp, old(spotify.lastTokenAt), spotify.lastTokenAt, consulted, resolved)
      ensures PlayEffect(resolved, out, maxQueueLength, old(ViewIn(g)), channel, streamFor, ViewIn(g))
      ensures OthersKept(g)
    {
      var queue := GetQueue(g);
      out, resolved, consulted := ResolveAndEnqueue(g, query, channel, author, now, grant, yt, sp, streamFor);
    }

    /**
     * `handlePlay`: an empty query or a member outside voice is answered
     * before anything changes; otherwise the guild's queue exists from here
     * on, the query is resolved as `ResolvedInOrder` says, and the result is
     * answered, refused or enqueued and started as `PlayEffect` says. Only
     * the guild's queue and controller and the token cache can change.
     */
    method HandlePlay(g: GuildId, args: seq<string>, voice: Option<Channel>, author: string, now: int,
                      grant: Result<string>, yt: YouTubeApi, sp: SpotifyApi, streamFor: string -> Option<Stream>)
      returns (out: PlayOutcome, ghost resolved: Result<seq<Track>>, ghost consulted: seq<Resolver>)
      requires Valid()
      modifies this, if g in queues then {queues[g]} else {}, if g in controllers then {controllers[g]} else {}, spotify
      ensures Valid()
      ensures out == Usage <==> Join(args, " ") == ""
      ensures out == JoinVoiceFirst <==> Join(args, " ") != "" && voice.None?
      ensures out == Usage || out == JoinVoiceFirst ==>
                consulted == [] && queues == old(queues) && controllers == old(controllers)
                && spotify.lastTokenAt == old(spotify.lastTokenAt) && unchanged(spotify)
                && (forall h :: h in queues ==> unchanged(queues[h]))
                && (forall h :: h in controllers ==> unchanged(controllers[h]))
      ensures out != Usage && out != JoinVoiceFirst ==>
                g in queues
                && ResolvedInOrder(Join(args, " "), author, now, grant, yt, sp, old(spotify.lastTokenAt), spotify.lastTokenAt, consulted, resolved)
                && PlayEffect(resolved, out, maxQueueLength, old(ViewIn(g)), voice.value, streamFor, ViewIn(g))
      ensures OthersKept(g)
    {
      consulted := [];
      resolved := Ok([]);
      var query := Join(args, " ");
      if query == "" {
        return Usage, resolved, consulted;
      }
      if voice.None? {
        return JoinVoiceFirst, resolved, consulted;
      }
      out, resolved, consulted := PlayQuery(g, query, voice.value, author, now, grant, yt, sp, streamFor);
    }

    /** `handlePause`: without a controller only a reply; otherwise pause its player. */
    method HandlePause(g: GuildId) returns (found: bool)
      requires Valid()
      modifies if g in controllers then {controllers[g]} else {}
      ensures Valid() && found == (g in controllers)
      ensures found ==> controllers[g].ViewOf()
                        == old(controllers[g].ViewOf()).(status := if old(controllers[g].status) == Playing then Paused else old(controllers[g].status))
                        && controllers[g].armed == old(controllers[g].armed)
      ensures forall h :: h in queues ==> unchanged(queues[h])
      ensures forall h :: h in controllers && h != g ==> unchanged(controllers[h])
    {
      found := g in controllers;
      if found {
        var c := controllers[g];
        label Before:
        var _ := c.Pause();
        forall h | h in controllers && h != g
          ensures unchanged@Before(controllers[h])
        {
          assert controllers[h].queue != c.queue;
        }
        ValidAfterControllerStep@Before(g);
      }
    }

    /** `handleResume`: without a controller only a reply; otherwise resume its player. */
    method HandleResume(g: GuildId) returns (found: bool)
      requires Valid()
      modifies if g in controllers then {controllers[g]} else {}
      ensures Valid() && found == (g in controllers)
      ensures found ==> controllers[g].ViewOf()
                        == old(controllers[g].ViewOf()).(status := if old(controllers[g].status) == Paused then Playing else old(controllers[g].status))
                        && controllers[g].armed == old(controllers[g].armed)
      ensures forall h :: h in queues ==> unchanged(queues[h])
      ensures forall h :: h in controllers && h != g ==> unchanged(controllers[h])
    {
      found := g in controllers;
      if found {
        var c := controllers[g];
        label Before:
        var _ := c.Resume();
        forall h | h in controllers && h != g
          ensures unchanged@Before(controllers[h])
        {
          assert controllers[h].queue != c.queue;
        }
        ValidAfterControllerStep@Before(g);
      }
    }

    /** `handleSkip`: without a controller only a reply; otherwise stop the player and let the Idle handler advance. */
    method HandleSkip(g: GuildId, streamFor: string -> Option<Stream>) returns (found: bool)
      requires Valid()
      modifies if g in controllers then {controllers[g], controllers[g].queue} else {}
      ensures Valid() && found == (g in controllers)
      ensures found ==> controllers[g].ViewOf() == HaltSpec(old(controllers[g].ViewOf()), streamFor)
      ensures !found ==> forall h :: h in queues ==> unchanged(queues[h])
      ensures forall h :: h in queues && h != g ==> unchanged(queues[h])
      ensures forall h :: h in controllers && h != g ==> unchanged(controllers[h])
    {
      found := g in controllers;
      if found {
        var c := controllers[g];
        label Before:
        c.Skip(streamFor);
        forall h | h in queues && h != g
          ensures unchanged@Before(queues[h])
        {
          assert queues[h] != c.queue;
        }
        forall h | h in controllers && h != g
          ensures unchanged@Before(controllers[h])
        {
          assert controllers[h].queue != c.queue;
        }
        ValidAfterControllerStep@Before(g);
      }
    }

    /** `handleStop`: without a controller only a reply; otherwise clear the queue, stop, arm auto-leave. */
    method HandleStop(g: GuildId, streamFor: string -> Option<Stream>) returns (found: bool)
      requires Valid()
      modifies if g in controllers then {controllers[g], controllers[g].queue} else {}
      ensures Valid() && found == (g in controllers)
      ensures found ==> controllers[g].ViewOf() == StopSpec(old(controllers[g].ViewOf()), streamFor)
      ensures !found ==> forall h :: h in queues ==> unchanged(queues[h])
      ensures forall h :: h in queues && h != g ==> unchanged(queues[h])
      ensures forall h :: h in controllers && h != g ==> unchanged(controllers[h])
    {
      found := g in controllers;
      if found {
        var c := controllers[g];
        label Before:
        c.Stop(streamFor);
        forall h | h in queues && h != g
          ensures unchanged@Before(queues[h])
        {
          assert queues[h] != c.queue;
        }
        forall h | h in controllers && h != g
          ensures unchanged@Before(controllers[h])
        {
          assert controllers[h].queue != c.queue;
        }
        ValidAfterControllerStep@Before(g);
      }
    }

    /** `handleLeave`: without a controller only a reply; otherwise leave. The controller stays registered. */
    method HandleLeave(g: GuildId, streamFor: string -> Option<Stream>) returns (found: bool)
      requires Valid()
      modifies if g in controllers then {controllers[g], controllers[g].queue} else {}
      ensures Valid() && found == (g in controllers)
      ensures found ==> controllers[g].ViewOf() == LeaveSpec(old(controllers[g].ViewOf()), streamFor)
      ensures !found ==> forall h :: h in queues ==> unchanged(queues[h])
      ensures forall h :: h in queues && h != g ==> unchanged(queues[h])
      ensures forall h :: h in controllers && h != g ==> unchanged(controllers[h])
    {
      found := g in controllers;
      if found {
        var c := controllers[g];
        label Before:
        c.Leave(streamFor);
        forall h | h in queues && h != g
          ensures unchanged@Before(queues[h])
        {
          assert queues[h] != c.queue;
        }
        forall h | h in controllers && h != g
          ensures unchanged@Before(controllers[h])
        {
          assert controllers[h].queue != c.queue;
        }
        ValidAfterControllerStep@Before(g);
      }
    }

    /** `handleLoop`: flip the guild's loop switch, creating its queue if needed. */
    method HandleLoop(g: GuildId) returns (enabled: bool)
      requires Valid()
      modifies this, if g in queues then {queues[g]} else {}
      ensures Valid() && g in queues
      ensures enabled == !old(LoopOf(g)) && LoopOf(g) == enabled
      ensures TracksOf(g) == old(TracksOf(g)) && CurrentOf(g) == old(CurrentOf(g))
      ensures controllers == old(controllers)
      ensures forall h :: h != g ==> TracksOf(h) == old(TracksOf(h)) && CurrentOf(h) == old(CurrentOf(h)) && LoopOf(h) == old(LoopOf(h))
      ensures OthersKept(g)
    {
      var queue := GetQueue(g);
      enabled := FlipLoop(g);
    }

    /** `queue.setLoop(!queue.getLoop())` on a guild that has a queue. */
    method FlipLoop(g: GuildId) returns (enabled: bool)
      requires Valid() && g in queues
      modifies queues[g]
      ensures Valid()
      ensures enabled == !old(queues[g].loop) && queues[g].loop == enabled
      ensures queues[g].tracks == old(queues[g].tracks) && queues[g].current == old(queues[g].current)
      ensures forall h :: h != g ==> TracksOf(h) == old(TracksOf(h)) && CurrentOf(h) == old(CurrentOf(h)) && LoopOf(h) == old(LoopOf(h))
    {
      var queue := queues[g];
      enabled := !queue.GetLoop();
      queue.SetLoop(Bool(enabled));
      ValidAfterQueueEdit(g);
    }

    /** `handleQueue`: the listing of the guild's queue, or "Queue is empty." when there is nothing to show. */
    function HandleQueue(g: GuildId): (reply: string)
      reads this, queues.Values
      ensures g !in queues || (CurrentOf(g).None? && TracksOf(g) == []) ==> reply == "Queue is empty."
      ensures g in queues && (CurrentOf(g).Some? || TracksOf(g) != []) ==> reply == Join(QueueLines(TracksOf(g), CurrentOf(g)), "\n")
    {
      if g !in queues || (queues[g].current.None? && queues[g].Length() == 0) then "Queue is empty."
      else Join(QueueLines(queues[g].tracks, queues[g].current), "\n")
    }

    /** The guild's auto-leave timer fires. */
    method AutoLeaveFires(g: GuildId, streamFor: string -> Option<Stream>)
      requires Valid() && g in controllers && controllers[g].queue.idleTimer.Some?
      modifies controllers[g], controllers[g].queue
      ensures Valid()
      ensures controllers[g].ViewOf() == LeaveSpec(old(controllers[g].ViewOf()), streamFor)
      ensures forall h :: h in queues && h != g ==> unchanged(queues[h])
      ensures forall h :: h in controllers && h != g ==> unchanged(controllers[h])
    {
      var c := controllers[g];
      label Before:
      c.FireAutoLeave(streamFor);
      forall h | h in queues && h != g
        ensures unchanged@Before(queues[h])
      {
        assert queues[h] != c.queue;
      }
      forall h | h in controllers && h != g
        ensures unchanged@Before(controllers[h])
      {
        assert controllers[h].queue != c.queue;
      }
      ValidAfterControllerStep@Before(g);
    }

    /** The guild's player goes idle by itself: its track ended. */
    method PlayerGoesIdle(g: GuildId, streamFor: string -> Option<Stream>)
      requires Valid() && g in controllers
      modifies controllers[g], controllers[g].queue
      ensures Valid()
      ensures controllers[g].ViewOf() == OnIdleSpec(old(controllers[g].ViewOf()).(status := Idle), streamFor)
      ensures forall h :: h in queues && h != g ==> unchanged(queues[h])
      ensures forall h :: h in controllers && h != g ==> unchanged(controllers[h])
    {
      var c := controllers[g];
      label Before:
      var _ := c.PlayerIdle(streamFor);
      forall h | h in queues && h != g
        ensures unchanged@Before(queues[h])
      {
        assert queues[h] != c.queue;
      }
      forall h | h in controllers && h != g
        ensures unchanged@Before(controllers[h])
      {
        assert controllers[h].queue != c.queue;
      }
      ValidAfterControllerStep@Before(g);
    }

    /**
     * The guild's player fails on its track: the error listener and then
     * the Idle event each run the Idle handler.
     */
    method PlayerErrors(g: GuildId, streamFor: string -> Option<Stream>)
      requires Valid() && g in controllers
      modifies controllers[g], controllers[g].queue
      ensures Valid()
      ensures controllers[g].ViewOf() == FailSpec(old(controllers[g].ViewOf()), streamFor)
      ensures forall h :: h in queues && h != g ==> unchanged(queues[h])
      ensures forall h :: h in controllers && h != g ==> unchanged(controllers[h])
    {
      var c := controllers[g];
      label Before:
      c.PlayerFailed(streamFor);
      forall h | h in queues && h != g
        ensures unchanged@Before(queues[h])
      {
        assert queues[h] != c.queue;
      }
      forall h | h in controllers && h != g
        ensures unchanged@Before(controllers[h])
      {
        assert controllers[h].queue != c.queue;
      }
      ValidAfterControllerStep@Before(g);
    }
  }
}

=== FILE: js_player.dfy ===
/**
 * The JS bot's audio controller (src/player.js): it drives a guild's queue,
 * plays tracks on an audio player, and arms an auto-leave timer when the
 * queue runs dry. The voice connection, the audio player's status and the
 * stream look-up are abstract state and parameters; the Idle event is
 * handled where it is raised.
 */
module JsPlayer {
  import opened Common
  import opened Playback
  import opened JsQueue

  /**
   * The audio player's status; `Buffering` is folded into `Playing`. The
   * player is made with `noSubscriber: Pause`: it plays only while a
   * connection is subscribed to it and is `AutoPaused` otherwise.
   */
  datatype Status = Idle | Playing | Paused | AutoPaused

  /** The voice channel a connection was made to. */
  datatype Channel = Channel(id: nat, guildId: nat)

  /** What the stream look-up returns for a URL, and the resource built from it. */
  datatype Stream = Stream(url: string, inputType: string)
  datatype Resource = Resource(stream: Stream)

  function TimersOf(t: Option<TimerId>): (s: set<TimerId>)
    ensures t.None? <==> s == {}
    ensures t.Some? ==> s == {t.value}
  {
    if t.Some? then {t.value} else {}
  }

  /** Everything the controller's commands change, as one value. */
  datatype View = View(tracks: seq<Track>, current: Option<Track>, loop: bool,
                       connection: Option<Channel>, resource: Option<Resource>,
                       status: Status, autoLeave: bool)

  /** The status a playing player takes: `Playing` with a subscribed connection, `AutoPaused` without. */
  function Active(v: View): Status
  {
    if v.connection.Some? then Playing else AutoPaused
  }

  /**
   * `play(track)`: a stream for the track's URL starts it (auto-paused when
   * no connection is subscribed); without one nothing changes (the source
   * throws).
   */
  function PlaySpec(v: View, t: Track, streamFor: string -> Option<Stream>): (w: View)
    ensures streamFor(t.url).None? ==> w == v
    ensures streamFor(t.url).Some? ==> w.resource == Some(Resource(streamFor(t.url).value))
    ensures streamFor(t.url).Some? ==> (w.status == Playing <==> v.connection.Some?) && (w.status == AutoPaused <==> v.connection.None?)
    ensures w.tracks == v.tracks && w.current == v.current && w.connection == v.connection && w.autoLeave == v.autoLeave
  {
    var stream := streamFor(t.url);
    if stream.Some? then v.(resource := Some(Resource(stream.value)), status := Active(v)) else v
  }

  /**
   * The Idle handler: replay the current track under loop, otherwise take
   * the next one from the queue and play it, or arm auto-leave when there
   * is none. The queue moves exactly as the shared advance rule says.
   */
  function OnIdleSpec(v: View, streamFor: string -> Option<Stream>): (w: View)
    ensures var step := Advance(Slot(v.tracks, v.current), ModeOf(v.loop));
            w.tracks == step.slot.queue && w.current == step.slot.nowPlaying
            && (step.started.None? ==> w == v.(tracks := w.tracks, current := w.current, autoLeave := true))
            && (step.started.Some? ==> w == PlaySpec(v.(tracks := w.tracks, current := w.current), step.started.value, streamFor))
  {
    var step := Advance(Slot(v.tracks, v.current), ModeOf(v.loop));
    var v1 := v.(tracks := step.slot.queue, current := step.slot.nowPlaying);
    if step.started.None? then v1.(autoLeave := true) else PlaySpec(v1, step.started.value, streamFor)
  }

  /**
   * `player.stop(true)`: an idle player stays as it is; any other goes idle
   * and raises the Idle event, so the queue advances once by the shared
   * rule. The loop switch and the connection are untouched.
   */
  function HaltSpec(v: View, streamFor: string -> Option<Stream>): (w: View)
    ensures w.loop == v.loop && w.connection == v.connection
    ensures v.status == Idle ==> w == v
    ensures v.status != Idle ==> Slot(w.tracks, w.current) == Advance(Slot(v.tracks, v.current), ModeOf(v.loop)).slot
  {
    if v.status == Idle then v else OnIdleSpec(v.(status := Idle), streamFor)
  }

  /** `stop`: clear the queue, halt the player, arm auto-leave. */
  function StopSpec(v: View, streamFor: string -> Option<Stream>): (w: View)
    ensures w.tracks == [] && w.autoLeave && w.loop == v.loop && w.connection == v.connection
  {
    HaltSpec(v.(tracks := []), streamFor).(autoLeave := true)
  }

  /**
   * `leave`: halt the player, disarm auto-leave, drop the connection. A
   * track the halt started loses its only subscriber and is auto-paused.
   */
  function LeaveSpec(v: View, streamFor: string -> Option<Stream>): (w: View)
    ensures w.connection == None && !w.autoLeave && w.loop == v.loop
    ensures w.status != Playing
  {
    var halted := HaltSpec(v, streamFor);
    halted.(autoLeave := false, connection := None, status := if halted.status == Playing then AutoPaused else halted.status)
  }

  /**
   * `connect`: a new connection subscribes to the player, so an
   * auto-paused player plays again.
   */
  function ConnectSpec(v: View, channel: Channel): (w: View)
    ensures w.connection == Some(channel)
    ensures w.status == if v.status == AutoPaused then Playing else v.status
    ensures w.(connection := v.connection, status := v.status) == v
  {
    v.(connection := Some(channel), status := if v.status == AutoPaused then Playing else v.status)
  }

  /**
   * `start` is `connect` (only when there is no connection) followed by
   * exactly the step the Idle handler takes.
   */
  function StartSpec(v: View, channel: Channel, streamFor: string -> Option<Stream>): (w: View)
    ensures w.connection == if v.connection.None? then Some(channel) else v.connection
  {
    OnIdleSpec(if v.connection.None? then ConnectSpec(v, channel) else v, streamFor)
  }

  /**
   * What `start` returns: false when there is no track to take, true when
   * the track taken gets a stream, and the "Failed to create stream" error
   * that `play` throws otherwise.
   */
  function StartResult(v: View, streamFor: string -> Option<Stream>): (r: Result<bool>)
    ensures var started := Advance(Slot(v.tracks, v.current), ModeOf(v.loop)).started;
            (r == Ok(false) <==> started.None?)
            && (r == Ok(true) <==> started.Some? && streamFor(started.value.url).Some?)
            && (r.Err? <==> started.Some? && streamFor(started.value.url).None?)
  {
    var started := Advance(Slot(v.tracks, v.current), ModeOf(v.loop)).started;
    if started.None? then Ok(false)
    else if streamFor(started.value.url).Some? then Ok(true)
    else Err("Failed to create stream")
  }

  /**
   * A failed track: the `error` listener runs the Idle handler, then the
   * player goes idle and its Idle event runs it again. Each run takes its
   * track synchronously, before either stream look-up completes, so the
   * queue advances twice; the look-ups then complete in the order they
   * started, and the second play replaces the first.
   */
  function FailSpec(v: View, streamFor: string -> Option<Stream>): (w: View)
  {
    var mode := ModeOf(v.loop);
    var first := Advance(Slot(v.tracks, v.current), mode);
    var second := Advance(first.slot, mode);
    var taken := v.(tracks := second.slot.queue, current := second.slot.nowPlaying, status := Idle,
                    autoLeave := v.autoLeave || first.started.None? || second.started.None?);
    var once := if first.started.Some? then PlaySpec(taken, first.started.value, streamFor) else taken;
    if second.started.Some? then PlaySpec(once, second.started.value, streamFor) else once
  }

  class GuildAudioController {
    const guildId: nat
    const queue: GuildQueue
    var connection: Option<Channel>
    var currentResource: Option<Resource>
    var status: Status
    /** The timers this controller has set that have been neither cleared nor fired. */
    var armed: set<TimerId>
    var nextTimer: TimerId

    function ViewOf(): View
      reads this, queue
    {
      View(queue.tracks, queue.current, queue.loop, connection, currentResource, status, queue.idleTimer.Some?)
    }

    /** Every timer handle ever issued is below `nextTimer`. */
    predicate Bounded()
      reads this, queue
    {
      (forall t :: t in armed ==> t < nextTimer) && (queue.idleTimer.Some? ==> queue.idleTimer.value < nextTimer)
    }

    /** Armed timers the queue no longer refers to: nothing can clear them any more. */
    function Stray(): set<TimerId>
      reads this, queue
    {
      armed - TimersOf(queue.idleTimer)
    }

    /** The queue's handle, if any, is an armed timer. */
    predicate Tracked()
      reads this, queue
    {
      TimersOf(queue.idleTimer) <= armed
    }

    /**
     * The armed timers are exactly the one the queue holds: at most one
     * auto-leave is ever pending, and it is the one `clearAutoLeave` can
     * cancel.
     */
    predicate Valid()
      reads this, queue
    {
      Bounded() && Tracked() && Stray() == {}
    }

    constructor (guildId: nat, queue: GuildQueue)
      ensures this.guildId == guildId && this.queue == queue
      ensures connection == None && currentResource == None && status == Idle && armed == {}
      ensures queue.idleTimer.None? ==> Valid()
    {
      this.guildId := guildId;
      this.queue := queue;
      connection := None;
      currentResource := None;
      status := Idle;
      armed := {};
      nextTimer := if queue.idleTimer.Some? then queue.idleTimer.value + 1 else 0;
    }

    /** Join the voice channel and subscribe the player; the reconnect handling is not modelled. */
    method Connect(channel: Channel)
      modifies this
      ensures ViewOf() == ConnectSpec(old(ViewOf()), channel)
      ensures armed == old(armed) && nextTimer == old(nextTimer)
    {
      connection := Some(channel);
      if status == AutoPaused {
        status := Playing;
      }
    }

    /** `play(track)`: throws (here: `false`) when no stream is obtained, leaving `currentResource` as it was. */
    method Play(track: Track, streamFor: string -> Option<Stream>) returns (ok: bool)
      modifies this
      ensures ok <==> streamFor(track.url).Some?
      ensures ViewOf() == PlaySpec(old(ViewOf()), track, streamFor)
      ensures armed == old(armed) && nextTimer == old(nextTimer)
    {
      var stream := streamFor(track.url);
      if stream.None? {
        return false;
      }
      currentResource := Some(Resource(stream.value));
      status := if connection.Some? then Playing else AutoPaused;
      ok := true;
    }

    /** Cancel the queue's pending timer, if any, and forget it. */
    method ClearAutoLeave()
      requires Bounded()
      modifies this, queue
      ensures queue.idleTimer == None
      ensures armed == old(armed) - TimersOf(old(queue.idleTimer))
      ensures ViewOf() == old(ViewOf()).(autoLeave := false)
      ensures Bounded() && Stray() == old(Stray()) && nextTimer == old(nextTimer)
    {
      if queue.idleTimer.Some? {
        armed := armed - {queue.idleTimer.value};
        queue.idleTimer := None;
      }
    }

    /** Cancel any pending timer, then arm a new one: afterwards exactly one is pending. */
    method ScheduleAutoLeave()
      requires Bounded()
      modifies this, queue
      ensures queue.idleTimer == Some(old(nextTimer)) && nextTimer == old(nextTimer) + 1
      ensures armed == old(armed) - TimersOf(old(queue.idleTimer)) + {old(nextTimer)}
      ensures ViewOf() == old(ViewOf()).(autoLeave := true)
      ensures Bounded() && Tracked() && Stray() == old(Stray())
    {
      ClearAutoLeave();
      queue.idleTimer := Some(nextTimer);
      armed := armed + {nextTimer};
      nextTimer := nextTimer + 1;
    }

    /**
     * The synchronous part of the Idle handler: the current track under
     * loop, else the queue's next; with neither, auto-leave is armed. The
     * queue moves by the shared advance rule.
     */
    method TakeNext() returns (next: Option<Track>)
      requires Bounded()
      modifies this, queue
      ensures var step := Advance(Slot(old(queue.tracks), old(queue.current)), ModeOf(old(queue.loop)));
              next == step.started
              && ViewOf() == old(ViewOf()).(tracks := step.slot.queue, current := step.slot.nowPlaying,
                                           autoLeave := old(ViewOf()).autoLeave || next.None?)
      ensures Bounded() && Stray() == old(Stray()) && (old(Tracked()) ==> Tracked())
    {
      if queue.GetLoop() && queue.current.Some? {
        return queue.current;
      }
      next := queue.Next();
      if next.None? {
        ScheduleAutoLeave();
      }
    }

    /**
     * The Idle (and error) handler. `ok` is false when the play it
     * attempted found no stream (the handler's promise rejects).
     */
    method OnIdle(streamFor: string -> Option<Stream>) returns (ok: bool)
      requires Bounded()
      modifies this, queue
      ensures ViewOf() == OnIdleSpec(old(ViewOf()), streamFor)
      ensures var started := Advance(Slot(old(queue.tracks), old(queue.current)), ModeOf(old(queue.loop))).started;
              ok <==> started.None? || streamFor(started.value.url).Some?
      ensures Bounded() && Stray() == old(Stray()) && (old(Tracked()) ==> Tracked())
    {
      var next := TakeNext();
      ok := true;
      if next.Some? {
        ok := Play(next.value, streamFor);
      }
    }

    /**
     * `start`: connect if there is no connection, then take the next
     * track: none arms auto-leave and gives false; one is played and gives
     * true, or an error when no stream is obtained. A timer armed earlier
     * is not cancelled.
     */
    method Start(channel: Channel, streamFor: string -> Option<Stream>) returns (r: Result<bool>)
      requires Valid()
      modifies this, queue
      ensures ViewOf() == StartSpec(old(ViewOf()), channel, streamFor)
      ensures r == StartResult(old(ViewOf()), streamFor)
      ensures r != Ok(false) ==> armed == old(armed) && queue.idleTimer == old(queue.idleTimer)
      ensures Slot(queue.tracks, queue.current)
              == Advance(Slot(old(queue.tracks), old(queue.current)), ModeOf(old(queue.loop))).slot
      ensures queue.loop == old(queue.loop)
      ensures Valid()
    {
      if connection.None? {
        Connect(channel);
      }
      var track := queue.Next();
      if track.None? {
        ScheduleAutoLeave();
        return Ok(false);
      }
      var ok := Play(track.value, streamFor);
      if !ok {
        return Err("Failed to create stream");
      }
      return Ok(true);
    }

    /** The player's track ends: it goes idle by itself and raises the Idle event. */
    method PlayerIdle(streamFor: string -> Option<Stream>) returns (ok: bool)
      requires Valid()
      modifies this, queue
      ensures ViewOf() == OnIdleSpec(old(ViewOf()).(status := Idle), streamFor)
      ensures var started := Advance(Slot(old(queue.tracks), old(queue.current)), ModeOf(old(queue.loop))).started;
              ok <==> started.None? || streamFor(started.value.url).Some?
      ensures Valid()
    {
      status := Idle;
      ok := OnIdle(streamFor);
    }

    /**
     * The player fails on its track: the `error` listener and then the Idle
     * event each run the Idle handler, so the queue advances twice.
     */
    method PlayerFailed(streamFor: string -> Option<Stream>)
      requires Valid()
      modifies this, queue
      ensures ViewOf() == FailSpec(old(ViewOf()), streamFor)
      ensures Valid()
    {
      status := Idle;
      var first := TakeNext();
      var second := TakeNext();
      if first.Some? {
        var _ := Play(first.value, streamFor);
      }
      if second.Some? {
        var _ := Play(second.value, streamFor);
      }
    }

    /** `pause()`: only a playing player pauses. */
    method Pause() returns (paused: bool)
      modifies this
      ensures paused <==> old(status) == Playing
      ensures ViewOf() == old(ViewOf()).(status := if paused then Paused else old(status))
      ensures armed == old(armed) && nextTimer == old(nextTimer)
    {
      paused := status == Playing;
      if paused {
        status := Paused;
      }
    }

    /** `resume()`: only a paused player resumes. */
    method Resume() returns (resumed: bool)
      modifies this
      ensures resumed <==> old(status) == Paused
      ensures ViewOf() == old(ViewOf()).(status := if resumed then Playing else old(status))
      ensures armed == old(armed) && nextTimer == old(nextTimer)
    {
      resumed := status == Paused;
      if resumed {
        status := Playing;
      }
    }

    /** `player.stop(true)` with the Idle event it raises. */
    method HaltPlayer(streamFor: string -> Option<Stream>)
      requires Bounded()
      modifies this, queue
      ensures ViewOf() == HaltSpec(old(ViewOf()), streamFor)
      ensures Bounded() && Stray() == old(Stray()) && (old(Tracked()) ==> Tracked())
    {
      if status != Idle {
        status := Idle;
        var _ := OnIdle(streamFor);
      }
    }

    /**
     * `stop`: clear the queue, stop the player and arm auto-leave. The
     * loop switch is left on, so with a current track the Idle handler
     * plays that track again.
     */
    method Stop(streamFor: string -> Option<Stream>)
      requires Valid()
      modifies this, queue
      ensures ViewOf() == StopSpec(old(ViewOf()), streamFor)
      ensures Valid() && |armed| == 1
    {
      queue.Clear();
      HaltPlayer(streamFor);
      ScheduleAutoLeave();
    }

    /** `skip`: stop the player; the Idle handler advances. */
    method Skip(streamFor: string -> Option<Stream>)
      requires Valid()
      modifies this, queue
      ensures ViewOf() == HaltSpec(old(ViewOf()), streamFor)
      ensures Valid()
    {
      HaltPlayer(streamFor);
    }

    /** `leave`: stop the player, cancel auto-leave, destroy the connection. */
    method Leave(streamFor: string -> Option<Stream>)
      requires Bounded()
      modifies this, queue
      ensures ViewOf() == LeaveSpec(old(ViewOf()), streamFor)
      ensures queue.idleTimer == None && armed == old(Stray())
      ensures Bounded()
    {
      HaltPlayer(streamFor);
      ClearAutoLeave();
      if connection.Some? {
        connection := None;
      }
      if status == Playing {
        status := AutoPaused;
      }
    }

    /** The auto-leave timer fires: it is no longer pending, and `leave` runs. */
    method FireAutoLeave(streamFor: string -> Option<Stream>)
      requires Valid() && queue.idleTimer.Some?
      modifies this, queue
      ensures ViewOf() == LeaveSpec(old(ViewOf()), streamFor)
      ensures Valid() && armed == {}
    {
      armed := armed - {queue.idleTimer.value};
      Leave(streamFor);
    }
  }

  /**
   * The replies to `start`: when it returns true, the queue's current
   * track is the one just started, its stream is the resource, and the
   * player, connected now, plays it; when it returns false, nothing is
   * current and auto-leave is armed.
   */
  lemma StartReplies(v: View, channel: Channel, streamFor: string -> Option<Stream>)
    ensures var w := StartSpec(v, channel, streamFor);
            var started := Advance(Slot(v.tracks, v.current), ModeOf(v.loop)).started;
            (StartResult(v, streamFor) == Ok(true) ==>
               w.current == started && started.Some? && w.connection.Some? && w.status == Playing
               && w.resource == Some(Resource(streamFor(started.value.url).value)))
            && (StartResult(v, streamFor) == Ok(false) ==> w.current == None && w.autoLeave)
            && (StartResult(v, streamFor).Err? ==> w.current == started && w.resource == v.resource)
  {
    AdvanceShape(Slot(v.tracks, v.current), ModeOf(v.loop));
  }

  /** A `start` with a connection already made is exactly the Idle handler's step. */
  lemma StartWhenConnected(v: View, channel: Channel, streamFor: string -> Option<Stream>)
    requires v.connection.Some?
    ensures StartSpec(v, channel, streamFor) == OnIdleSpec(v, streamFor)
  {
    assert v.(connection := v.connection) == v;
  }

  /**
   * `start` on an empty queue with nothing to loop starts no track, clears
   * `current` and arms auto-leave; only the reconnection lets an
   * auto-paused resource play on.
   */
  lemma StartOnEmptyQueue(v: View, channel: Channel, streamFor: string -> Option<Stream>)
    requires v.tracks == [] && !(v.loop && v.current.Some?)
    ensures var w := StartSpec(v, channel, streamFor);
            w.autoLeave && w.current == None && w.tracks == [] && w.resource == v.resource
            && w.status == if v.connection.None? && v.status == AutoPaused then Playing else v.status
  {
  }

  /** With the loop on and a current track, the Idle handler plays that track again and leaves the queue as it is. */
  lemma IdleReplaysWhenLooping(v: View, streamFor: string -> Option<Stream>)
    requires v.loop && v.current.Some?
    ensures OnIdleSpec(v, streamFor) == PlaySpec(v, v.current.value, streamFor)
  {
    assert v.(tracks := v.tracks, current := v.current) == v;
  }

  /** With the loop off, skipping a playing track starts the front of the queue. */
  lemma SkipTakesFront(v: View, streamFor: string -> Option<Stream>)
    requires !v.loop && v.status != Idle && v.tracks != []
    requires streamFor(v.tracks[0].url).Some?
    ensures var w := HaltSpec(v, streamFor);
            w.current == Some(v.tracks[0]) && w.tracks == v.tracks[1..] && w.status == Active(v)
            && w.resource == Some(Resource(streamFor(v.tracks[0].url).value))
  {
  }

  /**
   * With the loop off, `stop` on an active player leaves nothing current,
   * nothing queued, the player idle and auto-leave armed.
   */
  lemma StopWithoutLoopGoesIdle(v: View, streamFor: string -> Option<Stream>)
    requires !v.loop && v.status != Idle
    ensures var w := StopSpec(v, streamFor);
            w.status == Idle && w.current == None && w.tracks == [] && w.autoLeave && w.resource == v.resource
  {
  }

  /**
   * With the loop on and a current track whose stream is found, `stop`
   * clears the queue yet the Idle handler plays the current track again:
   * the player ends up playing (auto-paused without a connection), with
   * auto-leave armed.
   */
  lemma StopUnderLoopKeepsPlaying(v: View, streamFor: string -> Option<Stream>)
    requires v.loop && v.current.Some? && v.status != Idle
    requires streamFor(v.current.value.url).Some?
    ensures var w := StopSpec(v, streamFor);
            w.status == Active(v) && w.current == v.current && w.tracks == [] && w.autoLeave
  {
    var halted := v.(tracks := []).(status := Idle);
    IdleReplaysWhenLooping(halted, streamFor);
  }

  /**
   * `leave` on an active player with the loop off still raises the Idle
   * event first, which takes the next queued track: the queue loses its
   * front even though the bot disconnects.
   */
  lemma LeaveTakesFront(v: View, streamFor: string -> Option<Stream>)
    requires !v.loop && v.status != Idle && v.tracks != []
    ensures var w := LeaveSpec(v, streamFor);
            w.current == Some(v.tracks[0]) && w.tracks == v.tracks[1..] && w.connection == None && !w.autoLeave
  {
  }

  /**
   * After `leave` the player is idle or auto-paused, never playing, so the
   * next `play` command finds it not playing and starts it.
   */
  lemma {:induction false} LeaveThenPlayStarts(v: View, streamFor: string -> Option<Stream>)
    ensures var w := LeaveSpec(v, streamFor);
            (w.status == Idle || w.status == AutoPaused) && w.connection.None?
  {
    var halted := HaltSpec(v, streamFor);
    if v.status != Idle {
      var step := Advance(Slot(v.tracks, v.current), ModeOf(v.loop));
      if step.started.Some? {
        assert halted.status == Idle || halted.status == Active(v);
      }
    }
  }

  /**
   * With the loop off, a failed track skips the next one: both handler
   * runs take a track, so the second queued track ends current and, with
   * its stream found, is the one playing.
   */
  lemma FailedTrackSkipsNext(v: View, streamFor: string -> Option<Stream>)
    requires !v.loop && |v.tracks| >= 2
    ensures var w := FailSpec(v, streamFor);
            w.current == Some(v.tracks[1]) && w.tracks == v.tracks[2..]
            && (streamFor(v.tracks[1].url).Some? ==> w.resource == Some(Resource(streamFor(v.tracks[1].url).value)))
  {
    assert v.tracks[1..][0] == v.tracks[1] && v.tracks[1..][1..] == v.tracks[2..];
  }

  /** A failed track advances the queue once more than a track that ends. */
  lemma FailureAdvancesTwice(v: View, streamFor: string -> Option<Stream>)
    ensures var mode := ModeOf(v.loop);
            var w := FailSpec(v, streamFor);
            Slot(w.tracks, w.current) == Advance(Advance(Slot(v.tracks, v.current), mode).slot, mode).slot
            && Slot(OnIdleSpec(v, streamFor).tracks, OnIdleSpec(v, streamFor).current)
               == Advance(Slot(v.tracks, v.current), mode).slot
  {
  }

  /** An armed auto-leave survives a `start` that plays a track: nothing on the play path disarms it. */
  lemma AutoLeaveSurvivesStart(v: View, channel: Channel, streamFor: string -> Option<Stream>)
    requires v.autoLeave && v.tracks != []
    ensures StartSpec(v, channel, streamFor).autoLeave
  {
  }
}

=== FILE: js_queue.dfy ===
/**
 * The JS bot's per-guild queue (src/queue.js): a FIFO of tracks with a
 * "current" slot and a single-track loop switch. The loop switch is the
 * two-valued case of the shared advance rule: on = track loop, off = off.
 */
module JsQueue {
  import opened Common
  import opened Playback

  /** A queued track; `duration` is the display string ("3:45" or "Unknown"). */
  datatype Track = Track(title: string, url: string, duration: string, source: string, requestedBy: string)

  /** A handle returned by `setTimeout`. */
  type TimerId = nat

  /** The JavaScript values `setLoop` may be given, for the `!!value` coercion. */
  datatype JsValue = Undefined | Null | Bool(b: bool) | Number(n: int) | NaN | Str(s: string) | Object

  /** JavaScript truthiness. */
  predicate Truthy(v: JsValue)
  {
    match v
    case Undefined => false
    case Null => false
    case Bool(b) => b
    case Number(n) => n != 0
    case NaN => false
    case Str(s) => s != ""
    case Object => true
  }

  /** The loop switch as a mode of the shared advance rule. */
  function ModeOf(loop: bool): (m: LoopMode)
    ensures m != QueueLoop
    ensures m == TrackLoop <==> loop
  {
    if loop then TrackLoop else Off
  }

  class GuildQueue {
    var tracks: seq<Track>
    var current: Option<Track>
    var loop: bool
    var idleTimer: Option<TimerId>

    constructor ()
      ensures tracks == [] && current == None && !loop && idleTimer == None
    {
      tracks := [];
      current := None;
      loop := false;
      idleTimer := None;
    }

    /** Append one track at the tail. */
    method Add(track: Track)
      modifies this
      ensures tracks == old(tracks) + [track]
      ensures current == old(current) && loop == old(loop) && idleTimer == old(idleTimer)
    {
      tracks := tracks + [track];
    }

    /** Append all given tracks, in order, at the tail. */
    method AddMany(more: seq<Track>)
      modifies this
      ensures tracks == old(tracks) + more
      ensures current == old(current) && loop == old(loop) && idleTimer == old(idleTimer)
    {
      tracks := tracks + more;
    }

    /**
     * With the loop on and a current track, return it again and leave the
     * queue alone; otherwise shift the front into `current` (null on an
     * empty queue) and return it. This is one step of the shared advance
     * rule, so repeated calls with the loop off return the tracks in the
     * order they were added (Playback.OffIsFifo).
     */
    method Next() returns (track: Option<Track>)
      modifies this
      ensures Advance(Slot(old(tracks), old(current)), ModeOf(loop)) == Step(Slot(tracks, current), track)
      ensures track == current
      ensures loop == old(loop) && idleTimer == old(idleTimer)
    {
      if loop && current.Some? {
        return current;
      }
      if tracks != [] {
        current := Some(tracks[0]);
        tracks := tracks[1..];
      } else {
        current := None;
      }
      track := current;
    }

    /** Drop the queued tracks; the current track and the loop switch stay. */
    method Clear()
      modifies this
      ensures tracks == []
      ensures current == old(current) && loop == old(loop) && idleTimer == old(idleTimer)
    {
      tracks := [];
    }

    function Length(): nat
      reads this
    {
      |tracks|
    }

    /** Store the boolean coercion of `value`. */
    method SetLoop(value: JsValue)
      modifies this
      ensures loop == Truthy(value)
      ensures tracks == old(tracks) && current == old(current) && idleTimer == old(idleTimer)
    {
      loop := Truthy(value);
    }

    function GetLoop(): bool
      reads this
    {
      loop
    }
  }

  /** `!!` keeps a boolean as it is, so a loop switch set from a boolean reads back unchanged. */
  lemma TruthyBool(b: bool)
    ensures Truthy(Bool(b)) == b
  {
  }

  /**
   * With the loop off, `next` on a queue of `k` or more tracks, called `k`
   * times, returns the first `k` tracks in order and leaves the rest.
   */
  lemma NextIsFifo(q: seq<Track>, current: Option<Track>, k: nat)
    requires k <= |q|
    ensures Run(Slot(q, current), ModeOf(false), k).played == q[..k]
    ensures Run(Slot(q, current), ModeOf(false), k).slot.queue == q[k..]
  {
    OffIsFifo(q, current, k);
  }

  /** With the loop on and a current track, `next` returns that track every time and never consumes the queue. */
  lemma NextRepeatsWhenLooping(q: seq<Track>, t: Track, k: nat)
    ensures Run(Slot(q, Some(t)), ModeOf(true), k).played == seq(k, _ => t)
    ensures Run(Slot(q, Some(t)), ModeOf(true), k).slot == Slot(q, Some(t))
  {
    TrackLoopRepeats(q, t, k);
  }
}

=== FILE: js_spotify.dfy ===
/**
 * The Spotify resolver of the JS bot (src/spotify.js): Spotify tracks,
 * albums and playlists are matched to YouTube videos by title, and a plain
 * query is tried as a Spotify search. The client-credentials token is
 * cached for five minutes. play-dl and the Spotify Web API are parameters.
 */
module JsSpotify {
  import opened Common
  import opened Text
  import opened Batch
  import opened JsQueue
  import Duration

  /** How long a client-credentials token is reused, in milliseconds. */
  const TokenLifetime: int := 300000

  /** A Spotify track: its name and, when present, its artists' names. */
  datatype SpotifyTrack = SpotifyTrack(name: string, artists: Option<seq<string>>)

  /** What play-dl recognises a Spotify URL as. */
  datatype SpotifyKind = TrackKind(track: SpotifyTrack) | AlbumKind(tracks: seq<SpotifyTrack>) | PlaylistKind(tracks: seq<SpotifyTrack>)

  /** The best YouTube hit play-dl finds for a title. */
  datatype YtHit = YtHit(title: string, url: string, durationInSec: Option<int>)

  /**
   * The remote answers: play-dl's reading of the input (`None` where it
   * rejects), the Spotify search's items, and the best YouTube hit for a
   * title (`None` where there is none).
   */
  datatype SpotifyApi = SpotifyApi(
    kind: string -> Option<SpotifyKind>,
    searchTracks: string -> seq<SpotifyTrack>,
    ytSearch: string -> Option<YtHit>)

  /**
   * The YouTube search string for a Spotify track: the name, a space, then
   * the artists' names joined by spaces. Optional chaining turns missing
   * artists into the text "undefined".
   */
  function SearchTitle(t: SpotifyTrack): (s: string)
    ensures StartsWith(s, t.name + " ")
    ensures t.artists.Some? ==> s[|t.name| + 1..] == Join(t.artists.value, " ")
    ensures t.artists.None? ==> s[|t.name| + 1..] == "undefined"
  {
    t.name + " " + if t.artists.Some? then Join(t.artists.value, " ") else "undefined"
  }

  /** `makeTrackFromYT`: a track sourced from "spotify", "Unknown" duration when the hit has none. */
  function MakeTrackFromYT(yt: YtHit, requestedBy: string): (t: Track)
    ensures t.source == "spotify" && t.title == yt.title && t.url == yt.url && t.requestedBy == requestedBy
    ensures yt.durationInSec.None? || yt.durationInSec.value == 0 ==> t.duration == "Unknown"
    ensures yt.durationInSec.Some? && yt.durationInSec.value > 0 ==>
              Duration.ParseClock(t.duration) == Some(yt.durationInSec.value)
  {
    Track(yt.title, yt.url, Duration.DurationLabel(yt.durationInSec), "spotify", requestedBy)
  }

  /**
   * One Spotify track matched on YouTube: the track made from the best hit
   * for its search title, or nothing when there is no hit.
   */
  function BestMatch(t: SpotifyTrack, requestedBy: string, ytSearch: string -> Option<YtHit>): (ts: seq<Track>)
    ensures |ts| <= 1
    ensures ts == [] <==> ytSearch(SearchTitle(t)).None?
    ensures ts != [] ==> ts[0] == MakeTrackFromYT(ytSearch(SearchTitle(t)).value, requestedBy)
  {
    var yt := ytSearch(SearchTitle(t));
    if yt.Some? then [MakeTrackFromYT(yt.value, requestedBy)] else []
  }

  /** The YouTube hits for a batch of Spotify tracks, one look-up each, in order. */
  function Hits(tracks: seq<SpotifyTrack>, ytSearch: string -> Option<YtHit>): (hs: seq<Option<YtHit>>)
    ensures |hs| == |tracks| && forall i :: 0 <= i < |tracks| ==> hs[i] == ytSearch(SearchTitle(tracks[i]))
  {
    seq(|tracks|, i requires 0 <= i < |tracks| => ytSearch(SearchTitle(tracks[i])))
  }

  function TracksFrom(hits: seq<YtHit>, requestedBy: string): (ts: seq<Track>)
    ensures |ts| == |hits| && forall i :: 0 <= i < |hits| ==> ts[i] == MakeTrackFromYT(hits[i], requestedBy)
  {
    seq(|hits|, i requires 0 <= i < |hits| => MakeTrackFromYT(hits[i], requestedBy))
  }

  /**
   * What an album or playlist resolves to: a track for every Spotify track
   * that has a YouTube hit, in album order; the others are skipped.
   */
  function Matched(tracks: seq<SpotifyTrack>, requestedBy: string, ytSearch: string -> Option<YtHit>): (ts: seq<Track>)
    ensures |ts| <= |tracks|
    ensures forall i :: 0 <= i < |ts| ==> ts[i].source == "spotify"
  {
    TracksFrom(Successes(Hits(tracks, ytSearch)), requestedBy)
  }

  /**
   * The album and playlist loop: look each track up on YouTube and push a
   * track for every hit.
   */
  method ResolveEach(tracks: seq<SpotifyTrack>, requestedBy: string, ytSearch: string -> Option<YtHit>)
    returns (resolved: seq<Track>)
    ensures resolved == Matched(tracks, requestedBy, ytSearch)
  {
    resolved := [];
    var i := 0;
    while i < |tracks|
      invariant 0 <= i <= |tracks|
      invariant resolved == TracksFrom(Successes(Hits(tracks[..i], ytSearch)), requestedBy)
    {
      var yt := ytSearch(SearchTitle(tracks[i]));
      assert Hits(tracks[..i + 1], ytSearch) == Hits(tracks[..i], ytSearch) + [yt];
      SuccessesAppend(Hits(tracks[..i], ytSearch), [yt]);
      if yt.Some? {
        resolved := resolved + [MakeTrackFromYT(yt.value, requestedBy)];
      }
      i := i + 1;
    }
    assert tracks[..i] == tracks;
  }

  /**
   * Matching keeps album order and skips exactly the tracks without a hit:
   * the `k`-th resolved track comes from the `Kept(...)[k]`-th album track,
   * the positions increase, and every track with a hit is among them.
   */
  lemma MatchedInOrder(tracks: seq<SpotifyTrack>, requestedBy: string, ytSearch: string -> Option<YtHit>)
    ensures var hs := Hits(tracks, ytSearch);
            var ts := Matched(tracks, requestedBy, ytSearch);
            |Kept(hs)| == |ts|
            && (forall k :: 0 <= k < |ts| ==>
                  Kept(hs)[k] < |tracks| && ytSearch(SearchTitle(tracks[Kept(hs)[k]])).Some?
                  && ts[k] == MakeTrackFromYT(ytSearch(SearchTitle(tracks[Kept(hs)[k]])).value, requestedBy))
            && (forall k, l :: 0 <= k < l < |ts| ==> Kept(hs)[k] < Kept(hs)[l])
            && (forall i :: 0 <= i < |tracks| && ytSearch(SearchTitle(tracks[i])).Some? ==> i in Kept(hs))
  {
    SuccessesInOrder(Hits(tracks, ytSearch));
  }

  /** A single Spotify track resolves exactly as a one-track album would. */
  lemma BestMatchIsMatchedOne(t: SpotifyTrack, requestedBy: string, ytSearch: string -> Option<YtHit>)
    ensures BestMatch(t, requestedBy, ytSearch) == Matched([t], requestedBy, ytSearch)
  {
    var hs := Hits([t], ytSearch);
    assert hs == [ytSearch(SearchTitle(t))];
    assert Successes(hs) == (if hs[0].Some? then [hs[0].value] else []) + Successes(hs[1..]);
    assert hs[1..] == [];
  }

  /** When every track has a hit, nothing is skipped. */
  lemma MatchedAll(tracks: seq<SpotifyTrack>, requestedBy: string, ytSearch: string -> Option<YtHit>)
    requires forall i :: 0 <= i < |tracks| ==> ytSearch(SearchTitle(tracks[i])).Some?
    ensures |Matched(tracks, requestedBy, ytSearch)| == |tracks|
  {
    SuccessesAllResolved(Hits(tracks, ytSearch));
  }

  /** The error a search hit without artists raises (`t.artists.map` on undefined). */
  const MissingArtists: string := "Cannot read properties of undefined (reading 'map')"

  /**
   * `resolveSpotify` once the token is in place: a Spotify URL resolves by
   * its kind; anything else is a Spotify search whose first item, if any,
   * is matched on YouTube.
   */
  function Resolution(input: string, requestedBy: string, api: SpotifyApi): (r: Result<seq<Track>>)
    ensures r.Ok? ==> forall i :: 0 <= i < |r.value| ==> r.value[i].source == "spotify"
    // A Spotify URL never fails: a track gives its best match, an album or playlist its matched tracks.
    ensures api.kind(input).Some? && api.kind(input).value.TrackKind? ==>
              r == Ok(BestMatch(api.kind(input).value.track, requestedBy, api.ytSearch))
    ensures api.kind(input).Some? && !api.kind(input).value.TrackKind? ==>
              r == Ok(Matched(api.kind(input).value.tracks, requestedBy, api.ytSearch))
    // A search: nothing without an item, an error for a first item without artists, else its best match.
    ensures api.kind(input).None? && api.searchTracks(input) == [] ==> r == Ok([])
    ensures api.kind(input).None? && api.searchTracks(input) != [] && api.searchTracks(input)[0].artists.None? ==>
              r == Err(MissingArtists)
    ensures api.kind(input).None? && api.searchTracks(input) != [] && api.searchTracks(input)[0].artists.Some? ==>
              r == Ok(BestMatch(api.searchTracks(input)[0], requestedBy, api.ytSearch))
  {
    var kind := api.kind(input);
    if kind.Some? then
      match kind.value
      case TrackKind(t) => Ok(BestMatch(t, requestedBy, api.ytSearch))
      case AlbumKind(ts) => Ok(Matched(ts, requestedBy, api.ytSearch))
      case PlaylistKind(ts) => Ok(Matched(ts, requestedBy, api.ytSearch))
    else
      var items := api.searchTracks(input);
      if |items| == 0 then Ok([])
      else if items[0].artists.None? then Err(MissingArtists)
      else Ok(BestMatch(items[0], requestedBy, api.ytSearch))
  }

  /** Whether `ensureSpotifyToken` at time `now` asks for a new token. */
  predicate NeedsGrant(lastTokenAt: int, now: int)
  {
    !(now - lastTokenAt < TokenLifetime)
  }

  /** Whether `ensureSpotifyToken` at time `now` obtains a new token. */
  predicate Grants(lastTokenAt: int, now: int, grant: Result<string>)
  {
    NeedsGrant(lastTokenAt, now) && grant.Ok?
  }

  /** The token time after `ensureSpotifyToken` at `now`: moved to `now` exactly by a new token. */
  function TokenTimeAfter(lastTokenAt: int, now: int, grant: Result<string>): (t: int)
    ensures Grants(lastTokenAt, now, grant) ==> t == now
    ensures !Grants(lastTokenAt, now, grant) ==> t == lastTokenAt
  {
    if Grants(lastTokenAt, now, grant) then now else lastTokenAt
  }

  /**
   * Two token checks less than five minutes apart obtain at most one token
   * between them, whatever the grants would answer.
   */
  lemma GrantsAtMostOnce(lastTokenAt: int, now1: int, grant1: Result<string>, now2: int, grant2: Result<string>)
    requires now2 - now1 < TokenLifetime
    ensures !(Grants(lastTokenAt, now1, grant1) && Grants(TokenTimeAfter(lastTokenAt, now1, grant1), now2, grant2))
  {
  }

  /**
   * `resolveSpotify` from a token state last refreshed at `lastTokenAt`: a
   * refused grant is the answer when a refresh is due, the resolution
   * otherwise.
   */
  function SpotifyOutcome(lastTokenAt: int, now: int, grant: Result<string>,
                          input: string, requestedBy: string, api: SpotifyApi): (r: Result<seq<Track>>)
    ensures NeedsGrant(lastTokenAt, now) && grant.Err? ==> r == Err(grant.message)
    ensures !(NeedsGrant(lastTokenAt, now) && grant.Err?) ==> r == Resolution(input, requestedBy, api)
    ensures r.Err? && r.message != MissingArtists ==> NeedsGrant(lastTokenAt, now) && grant.Err?
  {
    if NeedsGrant(lastTokenAt, now) && grant.Err? then Err(grant.message) else Resolution(input, requestedBy, api)
  }

  /** The module-level token state of src/spotify.js. */
  class SpotifyClient {
    var lastTokenAt: int
    var accessToken: Option<string>

    constructor ()
      ensures lastTokenAt == 0 && accessToken == None
    {
      lastTokenAt := 0;
      accessToken := None;
    }

    /**
     * `ensureSpotifyToken` at time `now` (ms); `grant` is what the
     * client-credentials grant would answer. Within five minutes of the
     * last refresh nothing happens; otherwise the grant's token is stored
     * with the time, or its error is raised and nothing changes.
     */
    method EnsureToken(now: int, grant: Result<string>) returns (r: Result<()>)
      modifies this
      ensures lastTokenAt == TokenTimeAfter(old(lastTokenAt), now, grant)
      ensures !NeedsGrant(old(lastTokenAt), now) ==> r == Ok(()) && accessToken == old(accessToken)
      ensures Grants(old(lastTokenAt), now, grant) ==> r == Ok(()) && accessToken == Some(grant.value)
      ensures NeedsGrant(old(lastTokenAt), now) && grant.Err? ==> r == Err(grant.message) && accessToken == old(accessToken)
    {
      if now - lastTokenAt < TokenLifetime {
        return Ok(());
      }
      if grant.Err? {
        return Err(grant.message);
      }
      accessToken := Some(grant.value);
      lastTokenAt := now;
      r := Ok(());
    }

    /** `resolveSpotify(input, requestedBy)`: make sure of the token, then resolve. */
    method Resolve(input: string, requestedBy: string, now: int, grant: Result<string>, api: SpotifyApi)
      returns (r: Result<seq<Track>>)
      modifies this
      ensures r == SpotifyOutcome(old(lastTokenAt), now, grant, input, requestedBy, api)
      ensures lastTokenAt == TokenTimeAfter(old(lastTokenAt), now, grant)
      ensures accessToken == if Grants(old(lastTokenAt), now, grant) then Some(grant.value) else old(accessToken)
    {
      var token := EnsureToken(now, grant);
      if token.Err? {
        return Err(token.message);
      }
      var kind := api.kind(input);
      if kind.Some? {
        match kind.value
        case TrackKind(t) =>
          var yt := api.ytSearch(SearchTitle(t));
          return Ok(if yt.Some? then [MakeTrackFromYT(yt.value, requestedBy)] else []);
        case AlbumKind(ts) =>
          var resolved := ResolveEach(ts, requestedBy, api.ytSearch);
          return Ok(resolved);
        case PlaylistKind(ts) =>
          var resolved := ResolveEach(ts, requestedBy, api.ytSearch);
          return Ok(resolved);
      }
      var items := api.searchTracks(input);
      if |items| > 0 {
        var t := items[0];
        if t.artists.None? {
          return Err(MissingArtists);
        }
        var yt := api.ytSearch(SearchTitle(t));
        return Ok(if yt.Some? then [MakeTrackFromYT(yt.value, requestedBy)] else []);
      }
      return Ok([]);
    }
  }
}

=== FILE: js_youtube.dfy ===
/**
 * The YouTube resolver of the JS bot (src/youtube.js): a direct video URL,
 * a playlist or a search, shaped into tracks. The URL checks, the video
 * look-up, the playlist listing and the search belong to ytdl-core, play-dl
 * and youtube-sr and are parameters here.
 */
module JsYouTube {
  import opened Common
  import opened Text
  import opened JsQueue
  import Duration

  /** `videoDetails` of a video; `lengthSeconds` is a decimal string. */
  datatype VideoDetails = VideoDetails(title: string, videoUrl: string, lengthSeconds: string)

  /** A video of a playlist; `durationInSec` is absent (undefined) or a number. */
  datatype PlaylistVideo = PlaylistVideo(title: string, id: string, durationInSec: Option<int>)

  /** A search hit; `durationFormatted` is already a display string. */
  datatype SearchHit = SearchHit(title: string, id: string, durationFormatted: string)

  /** What the YouTube libraries answer for an input. */
  datatype YouTubeApi = YouTubeApi(
    validateUrl: string -> bool,
    getInfo: string -> VideoDetails,
    isPlaylist: string -> bool,
    playlistVideos: string -> seq<PlaylistVideo>,
    search: string -> seq<SearchHit>)

  const WatchPrefix: string := "https://www.youtube.com/watch?v="

  /** The watch URL of a video id. */
  function WatchUrl(id: string): (u: string)
    ensures StartsWith(u, WatchPrefix) && u[|WatchPrefix|..] == id
  {
    WatchPrefix + id
  }

  /**
   * `Number(s)` for a string holding an integer: surrounding white space is
   * ignored, the empty string is 0, one sign is allowed. Anything else is
   * `None` (not a number).
   */
  function JsNumber(s: string): (n: Option<int>)
    ensures Trim(s) == "" ==> n == Some(0)
  {
    var t := Trim(s);
    if t == "" then Some(0)
    else if AllDigits(t) then Some(ParseNat(t))
    else if |t| > 1 && t[0] == '-' && AllDigits(t[1..]) then Some(-(ParseNat(t[1..]) as int))
    else if |t| > 1 && t[0] == '+' && AllDigits(t[1..]) then Some(ParseNat(t[1..]))
    else None
  }

  /** A run of digits has no white space around it to trim. */
  lemma TrimDigits(s: string)
    requires s != [] && AllDigits(s)
    ensures Trim(s) == s
  {
    assert Lead(s) == 0 && Tail(s) == |s|;
    assert s[0..|s|] == s;
  }

  /** The decimal rendering of a count reads back as that count. */
  lemma JsNumberOfDecimal(n: nat)
    ensures JsNumber(NatToString(n)) == Some(n)
  {
    TrimDigits(NatToString(n));
    ParseNatToString(n);
  }

  /**
   * A playlist video as a track: its watch URL, whose id reads back, and
   * "Unknown" for a missing or zero length, else a clock that reads back as
   * the length.
   */
  function VideoTrack(v: PlaylistVideo, requestedBy: string): (t: Track)
    ensures t.source == "youtube" && t.title == v.title && t.requestedBy == requestedBy
    ensures StartsWith(t.url, WatchPrefix) && t.url[|WatchPrefix|..] == v.id
    ensures v.durationInSec.None? || v.durationInSec.value == 0 ==> t.duration == "Unknown"
    ensures v.durationInSec.Some? && v.durationInSec.value > 0 ==> Duration.ParseClock(t.duration) == Some(v.durationInSec.value)
  {
    Track(v.title, WatchUrl(v.id), Duration.DurationLabel(v.durationInSec), "youtube", requestedBy)
  }

  /**
   * `resolveYouTube(input, requestedBy)`: a direct video URL gives its one
   * track; otherwise a playlist gives one track per video, in order;
   * otherwise the first search hit, if any.
   */
  function ResolveYouTube(input: string, requestedBy: string, api: YouTubeApi): (tracks: seq<Track>)
    ensures forall i :: 0 <= i < |tracks| ==> tracks[i].source == "youtube" && tracks[i].requestedBy == requestedBy
    ensures api.validateUrl(input) ==>
              var d := api.getInfo(input);
              tracks == [Track(d.title, d.videoUrl, Duration.FormatDuration(JsNumber(d.lengthSeconds)), "youtube", requestedBy)]
    ensures !api.validateUrl(input) && api.isPlaylist(input) ==>
              var videos := api.playlistVideos(input);
              |tracks| == |videos|
              && forall i :: 0 <= i < |videos| ==>
                   tracks[i].title == videos[i].title && tracks[i].url == WatchUrl(videos[i].id)
                   && tracks[i].duration == Duration.DurationLabel(videos[i].durationInSec)
    ensures !api.validateUrl(input) && !api.isPlaylist(input) ==>
              var hits := api.search(input);
              (tracks == [] <==> hits == [])
              && (hits != [] ==> |tracks| == 1 && tracks[0].title == hits[0].title && tracks[0].url == WatchUrl(hits[0].id)
                                 && tracks[0].duration == (if hits[0].durationFormatted != "" then hits[0].durationFormatted else "Unknown"))
  {
    if api.validateUrl(input) then
      var d := api.getInfo(input);
      [Track(d.title, d.videoUrl, Duration.FormatDuration(JsNumber(d.lengthSeconds)), "youtube", requestedBy)]
    else if api.isPlaylist(input) then
      var videos := api.playlistVideos(input);
      seq(|videos|, i requires 0 <= i < |videos| => VideoTrack(videos[i], requestedBy))
    else
      var hits := api.search(input);
      if hits == [] then []
      else
        var v := hits[0];
        [Track(v.title, WatchUrl(v.id), if v.durationFormatted != "" then v.durationFormatted else "Unknown", "youtube", requestedBy)]
  }

  /** A video's length that `Number` reads as a count of seconds is shown as a clock that reads back as that count. */
  lemma DirectVideoDuration(d: VideoDetails, n: nat)
    requires JsNumber(d.lengthSeconds) == Some(n)
    ensures Duration.ParseClock(Duration.FormatDuration(JsNumber(d.lengthSeconds))) == Some(n)
  {
  }

  /** A length `Number` cannot read is shown as "0:00". */
  lemma DirectVideoDurationNaN(d: VideoDetails)
    requires JsNumber(d.lengthSeconds).None?
    ensures Duration.FormatDuration(JsNumber(d.lengthSeconds)) == "0:00"
  {
  }
}

=== FILE: listing.dfy ===
/**
 * The numbered queue listing both bots show: the first ten queued entries,
 * numbered from 1, and a count of the rest when there are more than ten.
 */
module Listing {
  import opened Text

  /** Entries shown before the listing switches to "...and N more". */
  const PageSize: nat := 10

  /** "1. first", "2. second", ... for at most PageSize entries, in queue order. */
  function Numbered(items: seq<string>): (lines: seq<string>)
    ensures |lines| == if |items| < PageSize then |items| else PageSize
    ensures forall i :: 0 <= i < |lines| ==> lines[i] == NatToString(i + 1) + ". " + items[i]
  {
    var n := if |items| < PageSize then |items| else PageSize;
    seq(n, i requires 0 <= i < n => NatToString(i + 1) + ". " + items[i])
  }

  /** How many entries the listing leaves out; the source prints it only when positive. */
  function Hidden(items: seq<string>): nat
  {
    if |items| > PageSize then |items| - PageSize else 0
  }

  /**
   * Every queued entry is accounted for: it is either listed or counted in
   * the "...and N more" line, and that line appears exactly when more than
   * ten are queued.
   */
  lemma ListingAccountsForAll(items: seq<string>)
    ensures |Numbered(items)| + Hidden(items) == |items|
    ensures Hidden(items) > 0 <==> |items| > PageSize
  {
  }

  /** The number in front of line `i` reads back as `i + 1`. */
  lemma LineNumberReadsBack(items: seq<string>, i: nat)
    requires i < |Numbered(items)|
    ensures var line := Numbered(items)[i];
            var digits := NatToString(i + 1);
            line[..|digits|] == digits && AllDigits(digits) && ParseNat(digits) == i + 1
            && line[|digits|..] == ". " + items[i]
  {
    ParseNatToString(i + 1);
  }
}

=== FILE: playback.dfy ===
/**
 * The advance rule shared by both bots, stated on values: which track a
 * guild plays next under each loop mode, and what its queue and its
 * "now playing" slot become. The Python `play_next` and the JavaScript
 * `GuildQueue.next` / `GuildAudioController.onIdle` are proved to follow it;
 * the lemmas below say what repeated advances do (FIFO, rotation, repeat).
 */
module Playback {
  import opened Common

  /** The Python bot's 'off', 'track' and 'queue'; the JavaScript bot has only the first two. */
  datatype LoopMode = Off | TrackLoop | QueueLoop

  /** What one advance selects. */
  datatype Pick<T> = Replay(track: T) | Dequeue(track: T) | NothingToPlay

  /**
   * The selection rule, in priority order: replay the current track under
   * track-loop, else take the front of the queue, else nothing can play.
   */
  function Choose<T>(queue: seq<T>, nowPlaying: Option<T>, mode: LoopMode): (p: Pick<T>)
    ensures p.Replay? <==> mode == TrackLoop && nowPlaying.Some?
    ensures p.Replay? ==> p.track == nowPlaying.value
    ensures p.Dequeue? <==> queue != [] && !(mode == TrackLoop && nowPlaying.Some?)
    ensures p.Dequeue? ==> p.track == queue[0]
  {
    if mode == TrackLoop && nowPlaying.Some? then Replay(nowPlaying.value)
    else if queue != [] then Dequeue(queue[0])
    else NothingToPlay
  }

  /** The queue after a pick: a dequeued front leaves, and goes back to the tail under queue-loop. */
  function QueueAfter<T>(queue: seq<T>, mode: LoopMode, p: Pick<T>): seq<T>
    requires p.Dequeue? ==> queue != []
  {
    if p.Dequeue? then queue[1..] + (if mode == QueueLoop then [p.track] else []) else queue
  }

  /** One guild's queue and "now playing" slot. */
  datatype Slot<T> = Slot(queue: seq<T>, nowPlaying: Option<T>)

  /** The result of one advance: the new slot and the track started, if any. */
  datatype Step<T> = Step(slot: Slot<T>, started: Option<T>)

  /** The result of several advances: the final slot and the tracks started, in order. */
  datatype Trace<T> = Trace(slot: Slot<T>, played: seq<T>)

  /** One advance from slot `s` under `mode`. */
  function Advance<T>(s: Slot<T>, mode: LoopMode): Step<T>
  {
    var p := Choose(s.queue, s.nowPlaying, mode);
    match p
    case Replay(t) => Step(s, Some(t))
    case Dequeue(t) => Step(Slot(QueueAfter(s.queue, mode, p), Some(t)), Some(t))
    case NothingToPlay => Step(Slot(s.queue, None), None)
  }

  /**
   * What one advance does: the track started becomes the one now playing;
   * nothing starts exactly when the queue is empty and no track-loop
   * replay is due, and then the slot is cleared; otherwise the queue loses
   * at most its front, and only a replay leaves it whole.
   */
  lemma AdvanceShape<T>(s: Slot<T>, mode: LoopMode)
    ensures var r := Advance(s, mode);
            (r.started.Some? ==> r.slot.nowPlaying == r.started)
            && (r.started.None? <==> s.queue == [] && !(mode == TrackLoop && s.nowPlaying.Some?))
            && (r.started.None? ==> r.slot == Slot(s.queue, None))
            && (mode == TrackLoop && s.nowPlaying.Some? ==> r == Step(s, s.nowPlaying))
            && (mode == Off && s.queue != [] ==> r == Step(Slot(s.queue[1..], Some(s.queue[0])), Some(s.queue[0])))
  {
  }

  /**
   * Under queue-loop an advance only reorders the queue: the front track
   * moves to the tail, and no track is lost or added.
   */
  lemma QueueLoopKeepsTracks<T>(s: Slot<T>)
    ensures s.queue != [] ==> Advance(s, QueueLoop).slot.queue == s.queue[1..] + [s.queue[0]]
    ensures multiset(Advance(s, QueueLoop).slot.queue) == multiset(s.queue)
  {
    var p := Choose(s.queue, s.nowPlaying, QueueLoop);
    if p.Dequeue? {
      var q := s.queue;
      assert q == [q[0]] + q[1..];
      assert QueueAfter(q, QueueLoop, p) == q[1..] + [q[0]];
    }
  }

  /** `n` advances in a row. */
  function Run<T>(s: Slot<T>, mode: LoopMode, n: nat): Trace<T>
  {
    if n == 0 then Trace(s, [])
    else
      var before := Run(s, mode, n - 1);
      var step := Advance(before.slot, mode);
      Trace(step.slot, before.played + (if step.started.Some? then [step.started.value] else []))
  }

  /** Running `a` then `b` advances is running `a + b` advances. */
  lemma {:induction false} RunSplit<T>(s: Slot<T>, mode: LoopMode, a: nat, b: nat)
    ensures Run(s, mode, a + b).slot == Run(Run(s, mode, a).slot, mode, b).slot
    ensures Run(s, mode, a + b).played == Run(s, mode, a).played + Run(Run(s, mode, a).slot, mode, b).played
    decreases b
  {
    if b > 0 {
      RunSplit(s, mode, a, b - 1);
    }
  }

  /**
   * With looping off, tracks play in exactly the order they were queued:
   * after `k` advances the first `k` tracks have played and the rest wait.
   */
  lemma {:induction false} OffIsFifo<T>(q: seq<T>, np: Option<T>, k: nat)
    requires k <= |q|
    ensures Run(Slot(q, np), Off, k) == Trace(Slot(q[k..], if k == 0 then np else Some(q[k - 1])), q[..k])
  {
    if k > 0 {
      OffIsFifo(q, np, k - 1);
      assert q[k - 1..][1..] == q[k..];
      assert q[..k] == q[..k - 1] + [q[k - 1]];
    }
  }

  /** With looping off, one advance past the last track leaves nothing playing. */
  lemma OffDrains<T>(q: seq<T>, np: Option<T>)
    ensures Run(Slot(q, np), Off, |q| + 1) == Trace(Slot([], None), q)
  {
    OffIsFifo(q, np, |q|);
    assert q[..|q|] == q;
  }

  /** `q` turned left by `r` places. */
  function Rotate<T>(q: seq<T>, r: nat): seq<T>
    requires r <= |q|
  {
    q[r..] + q[..r]
  }

  /** The place within a cycle of length `n` after `k` steps: `k mod n`, by repeated subtraction. */
  function CyclePos(k: nat, n: nat): (r: nat)
    requires n > 0
    ensures r < n
    decreases k
  {
    if k < n then k else CyclePos(k - n, n)
  }

  /** One more step moves one place along the cycle, wrapping to 0 at its end. */
  lemma {:induction false} CyclePosSucc(k: nat, n: nat)
    requires n > 0
    ensures CyclePos(k + 1, n) == if CyclePos(k, n) + 1 == n then 0 else CyclePos(k, n) + 1
    decreases k
  {
    if k >= n {
      CyclePosSucc(k - n, n);
    }
  }

  /** Under queue-loop one advance plays the front track and turns the queue by one more place. */
  lemma RotateStep<T>(q: seq<T>, s: Slot<T>, r: nat)
    requires r < |q| && s.queue == Rotate(q, r)
    ensures Advance(s, QueueLoop).started == Some(q[r])
    ensures Advance(s, QueueLoop).slot.queue == if r + 1 == |q| then q else Rotate(q, r + 1)
  {
    var rotated := Rotate(q, r);
    assert rotated[0] == q[r];
    assert rotated[1..] + [q[r]] == q[r + 1..] + q[..r + 1] by {
      assert rotated[1..] == q[r + 1..] + q[..r];
      assert q[..r + 1] == q[..r] + [q[r]];
    }
    if r + 1 == |q| {
      assert q[r + 1..] + q[..r + 1] == q;
    }
  }

  /** Under queue-loop, after `k` advances the queue is turned left by `k mod n` places. */
  lemma {:induction false} QueueLoopTurns<T>(q: seq<T>, np: Option<T>, k: nat)
    requires q != []
    ensures Run(Slot(q, np), QueueLoop, k).slot.queue == Rotate(q, CyclePos(k, |q|))
  {
    if k == 0 {
      assert Rotate(q, 0) == q;
    } else {
      QueueLoopTurns(q, np, k - 1);
      QueueLoopStep(q, np, k - 1);
    }
  }

  /** The first `k` places of endless cycling through `q`: place `i` holds `q[i mod n]`. */
  function Cycle<T>(q: seq<T>, k: nat): (c: seq<T>)
    requires q != []
    ensures |c| == k
    ensures forall i :: 0 <= i < k ==> c[i] == q[CyclePos(i, |q|)]
  {
    if k == 0 then [] else Cycle(q, k - 1) + [q[CyclePos(k - 1, |q|)]]
  }

  /**
   * Under queue-loop each advance moves the front track to the tail, so the
   * i-th track started is `q[i mod n]`: the rotation picks the queue in its
   * own order, round after round.
   */
  lemma {:induction false} QueueLoopRotates<T>(q: seq<T>, np: Option<T>, k: nat)
    requires q != []
    ensures Run(Slot(q, np), QueueLoop, k).played == Cycle(q, k)
  {
    if k > 0 {
      QueueLoopTurns(q, np, k - 1);
      QueueLoopRotates(q, np, k - 1);
      QueueLoopStep(q, np, k - 1);
    }
  }

  /**
   * Under queue-loop, advance `k + 1` starts the front of the queue turned
   * by `k mod n` places and turns it one place further.
   */
  lemma QueueLoopStep<T>(q: seq<T>, np: Option<T>, k: nat)
    requires q != []
    requires Run(Slot(q, np), QueueLoop, k).slot.queue == Rotate(q, CyclePos(k, |q|))
    ensures Run(Slot(q, np), QueueLoop, k + 1).played
         == Run(Slot(q, np), QueueLoop, k).played + [q[CyclePos(k, |q|)]]
    ensures Run(Slot(q, np), QueueLoop, k + 1).slot.queue == Rotate(q, CyclePos(k + 1, |q|))
  {
    var r := CyclePos(k, |q|);
    RotateStep(q, Run(Slot(q, np), QueueLoop, k).slot, r);
    CyclePosSucc(k, |q|);
    if r + 1 == |q| {
      assert Rotate(q, 0) == q;
    }
  }

  /** Under queue-loop, `n` advances over an `n`-track queue restore its order. */
  lemma QueueLoopRestores<T>(q: seq<T>, np: Option<T>)
    requires q != []
    ensures Run(Slot(q, np), QueueLoop, |q|).slot.queue == q
    ensures Run(Slot(q, np), QueueLoop, |q|).played == q
  {
    var n := |q|;
    QueueLoopTurns(q, np, n);
    QueueLoopRotates(q, np, n);
    assert CyclePos(n, n) == 0;
    assert Rotate(q, 0) == q;
    var played := Run(Slot(q, np), QueueLoop, n).played;
    forall i | 0 <= i < n
      ensures played[i] == q[i]
    {
      assert CyclePos(i, n) == i;
    }
  }

  /**
   * Under queue-loop a track comes back every `n` advances: from the
   * second round on, each advance starts the very track started `n`
   * advances earlier, so no advance after the first `n` starts a track that
   * was not started before.
   */
  lemma QueueLoopRestartsEarlier<T>(q: seq<T>, np: Option<T>, k: nat)
    requires q != [] && |q| <= k
    ensures var played := Run(Slot(q, np), QueueLoop, k + 1).played;
            |played| == k + 1 && played[k] == played[k - |q|]
  {
    QueueLoopRotates(q, np, k + 1);
  }

  /**
   * Under track-loop with a current track, every advance replays it and the
   * queue is never consumed.
   */
  lemma {:induction false} TrackLoopRepeats<T>(q: seq<T>, t: T, k: nat)
    ensures Run(Slot(q, Some(t)), TrackLoop, k) == Trace(Slot(q, Some(t)), seq(k, _ => t))
  {
    if k > 0 {
      TrackLoopRepeats(q, t, k - 1);
    }
  }

  /**
   * Under track-loop with nothing current, the first advance takes the front
   * track and every later advance repeats it.
   */
  lemma TrackLoopFromIdle<T>(q: seq<T>, k: nat)
    requires q != [] && k >= 1
    ensures Run(Slot(q, None), TrackLoop, k) == Trace(Slot(q[1..], Some(q[0])), seq(k, _ => q[0]))
  {
    RunSplit(Slot(q, None), TrackLoop, 1, k - 1);
    TrackLoopRepeats(q[1..], q[0], k - 1);
    assert [q[0]] + seq(k - 1, _ => q[0]) == seq(k, _ => q[0]);
  }

  /** Worked example of `OffIsFifo`: enqueue A, B, C with looping off: they play A, B, C and then the queue is finished. */
  lemma ScenarioOffThree<T>(a: T, b: T, c: T)
    ensures Run(Slot([a, b, c], None), Off, 4) == Trace(Slot([], None), [a, b, c])
  {
    OffDrains([a, b, c], None);
  }

  /** Worked example of `QueueLoopRotates`: enqueue A, B with queue-loop: five advances play A, B, A, B, A. */
  lemma ScenarioQueueLoop<T>(a: T, b: T)
    ensures Run(Slot([a, b], None), QueueLoop, 5).played == [a, b, a, b, a]
  {
    QueueLoopRotates([a, b], None, 5);
    assert CyclePos(2, 2) == 0 && CyclePos(3, 2) == 1 && CyclePos(4, 2) == 0;
    assert Cycle([a, b], 5) == [a, b, a, b, a];
  }

  /** Worked example of `TrackLoopRepeats`: enqueue A with track-loop: three advances play A, A, A and the queue stays empty. */
  lemma ScenarioTrackLoop<T>(a: T)
    ensures Run(Slot([a], None), TrackLoop, 3) == Trace(Slot([], Some(a)), [a, a, a])
  {
    TrackLoopFromIdle([a], 3);
  }
}

=== FILE: pybot.dfy ===
/**
 * The Python bot (main.py). Per-guild state lives in three dictionaries keyed
 * by guild: the queue of sources, the source now playing and the loop mode.
 * The voice client, the yt-dlp extractor and the Spotify and playlist
 * look-ups are outside the model and reach it as parameters.
 */
module PyBot {
  import opened Common
  import opened Text
  import opened Batch
  import opened Playback
  import Listing
  import Duration

  type GuildId = nat

  /** What yt-dlp extracted for one video. */
  datatype SourceData = SourceData(
    title: string,
    streamUrl: string,
    webpageUrl: string,
    duration: Option<int>,
    thumbnail: Option<string>,
    bitrate: int)

  /**
   * A playable source (YTDLSource): a single-use stream over immutable data.
   * Once played, its stream is spent and cleaned up, so playing the same
   * object again ends at once; the bot records spent sources in
   * `MusicBot.spent`. Replaying a track under track-loop builds a new
   * source from the same data.
   */
  class YtdlSource {
    const data: SourceData

    constructor (data: SourceData)
      ensures this.data == data
    {
      this.data := data;
    }
  }

  /** The data behind a sequence of sources. */
  function DataOf(s: seq<YtdlSource>): (d: seq<SourceData>)
    ensures |d| == |s| && forall i :: 0 <= i < |s| ==> d[i] == s[i].data
  {
    seq(|s|, i requires 0 <= i < |s| => s[i].data)
  }

  function DataOfOpt(o: Option<YtdlSource>): Option<SourceData>
  {
    if o.Some? then Some(o.value.data) else None
  }

  /** What `play_next` did: started a source, or found nothing and armed the idle timer. */
  datatype Advance = NowSinging(player: YtdlSource) | QueueFinished

  /**
   * One `play_next` on a guild whose queue, current source and mode were
   * `q0`, `np0`, `mode`, leaving `q1` and `np1`. A replay has a new source
   * over the same data; a dequeued source is the old front itself.
   */
  predicate Advanced(q0: seq<YtdlSource>, np0: Option<YtdlSource>, mode: LoopMode,
                     q1: seq<YtdlSource>, np1: Option<YtdlSource>, step: Advance)
  {
    match Choose(q0, np0, mode)
    case Replay(p) => step.NowSinging? && np1 == Some(step.player) && step.player.data == p.data && q1 == q0
    case Dequeue(p) => step == NowSinging(p) && np1 == Some(p) && q1 == QueueAfter(q0, mode, Dequeue(p))
    case NothingToPlay => step == QueueFinished && np1 == None && q1 == q0
  }

  /**
   * On the data behind the sources, one `play_next` is one step of the
   * shared advance rule, so the FIFO, rotation and repeat lemmas of
   * Playback describe repeated completions of this bot.
   */
  lemma AdvancedFollowsRule(q0: seq<YtdlSource>, np0: Option<YtdlSource>, mode: LoopMode,
                            q1: seq<YtdlSource>, np1: Option<YtdlSource>, step: Advance)
    requires Advanced(q0, np0, mode, q1, np1, step)
    ensures Playback.Advance(Slot(DataOf(q0), DataOfOpt(np0)), mode)
         == Step(Slot(DataOf(q1), DataOfOpt(np1)), if step.NowSinging? then Some(step.player.data) else None)
  {
    var p := Choose(q0, np0, mode);
    var pd := Choose(DataOf(q0), DataOfOpt(np0), mode);
    if p.Dequeue? {
      assert pd == Dequeue(p.track.data);
      assert DataOf(q1) == DataOf(q0)[1..] + (if mode == QueueLoop then [p.track.data] else []);
    }
  }

  /**
   * Outside track-loop, one `play_next` is one step of the shared advance
   * rule on the source objects themselves: the object started is the old
   * front, and under queue-loop that same object goes back to the tail.
   * With `Playback.QueueLoopRestartsEarlier`, advance `n + 1` on an
   * `n`-source queue starts an object an earlier advance already played.
   */
  lemma AdvancedReusesSources(q0: seq<YtdlSource>, np0: Option<YtdlSource>, mode: LoopMode,
                              q1: seq<YtdlSource>, np1: Option<YtdlSource>, step: Advance)
    requires mode != TrackLoop
    requires Advanced(q0, np0, mode, q1, np1, step)
    ensures Playback.Advance(Slot(q0, np0), mode)
         == Step(Slot(q1, np1), if step.NowSinging? then Some(step.player) else None)
  {
  }

  /** A YouTube playlist entry as yt-dlp lists it. */
  datatype PlaylistEntry = PlaylistEntry(url: Option<string>, id: string)

  /** `entry.get('url') or f"https://www.youtube.com/watch?v={entry.get('id')}"` */
  function EntryUrl(e: PlaylistEntry): (u: string)
    ensures e.url.Some? && e.url.value != "" ==> u == e.url.value
    ensures (e.url.None? || e.url.value == "") ==> u == "https://www.youtube.com/watch?v=" + e.id
  {
    if e.url.Some? && e.url.value != "" then e.url.value else "https://www.youtube.com/watch?v=" + e.id
  }

  /** A query that is not a URL becomes a yt-dlp search. */
  function SearchQuery(query: string): (q: string)
    ensures StartsWith(query, "http") ==> q == query
    ensures !StartsWith(query, "http") ==> StartsWith(q, "ytsearch:")
    ensures !StartsWith(query, "http") ==> |q| == |query| + 9 && q[9..] == query
  {
    if StartsWith(query, "http") then query else "ytsearch:" + query
  }

  predicate IsSpotifyLink(query: string)
  {
    Contains(query, "spotify.com")
  }

  predicate IsYouTubePlaylist(query: string)
  {
    Contains(query, "youtube.com/playlist") || Contains(query, "youtu.be/playlist") || Contains(query, "&list=")
  }

  /** The reply of the `play` command. */
  datatype PlayReply =
    | JoinVoiceFirst
    | SpotifyNoMatches
    | SpotifyNoTitle
    | PlaylistEmpty
    | ResolveFailed
    | Added(count: nat, advance: Option<Advance>)

  /**
   * How `play` resolves a query: either it stops with a reply, or it has a
   * batch of yt-dlp look-ups to enqueue, in order (a `None` is a playlist
   * entry the source skips without a look-up); `onNone` is the reply given
   * instead when not one look-up succeeded (the single-item paths raise,
   * the Spotify batch gives up, the playlist batch carries on). The Spotify
   * search queries, the scraped Spotify title and the playlist entries come
   * from the network and are parameters.
   */
  datatype Plan =
    | Halt(reply: PlayReply)
    | Enqueue(urls: seq<Option<string>>, onNone: Option<PlayReply>)

  function PlanFor(query: string, spotifyQueries: seq<string>, spotifyTitle: Option<string>,
                   entries: seq<Option<PlaylistEntry>>): (p: Plan)
    // A Spotify link with track queries: one YouTube search per query, in order.
    ensures IsSpotifyLink(query) && spotifyQueries != [] ==>
              p.Enqueue? && p.onNone == Some(SpotifyNoMatches) && |p.urls| == |spotifyQueries|
              && forall i :: 0 <= i < |spotifyQueries| ==> p.urls[i] == Some("ytsearch:" + spotifyQueries[i])
    // A Spotify link without queries falls back on the page title, and gives up without one.
    ensures IsSpotifyLink(query) && spotifyQueries == [] && (spotifyTitle.None? || spotifyTitle.value == "") ==>
              p == Halt(SpotifyNoTitle)
    ensures IsSpotifyLink(query) && spotifyQueries == [] && spotifyTitle.Some? && spotifyTitle.value != "" ==>
              p == Enqueue([Some("ytsearch:" + spotifyTitle.value)], Some(ResolveFailed))
    // A playlist link: one look-up per entry, none for an empty entry, and a reply even if all fail.
    ensures !IsSpotifyLink(query) && IsYouTubePlaylist(query) && entries == [] ==> p == Halt(PlaylistEmpty)
    ensures !IsSpotifyLink(query) && IsYouTubePlaylist(query) && entries != [] ==>
              p.Enqueue? && p.onNone.None? && |p.urls| == |entries|
              && forall i :: 0 <= i < |entries| ==>
                   p.urls[i] == if entries[i].Some? then Some(EntryUrl(entries[i].value)) else None
    // Anything else is a single link or search.
    ensures !IsSpotifyLink(query) && !IsYouTubePlaylist(query) ==> p == Enqueue([Some(SearchQuery(query))], Some(ResolveFailed))
    ensures p.Enqueue? ==> p.urls != []
    ensures p.Enqueue? && p.onNone.Some? ==> !p.onNone.value.Added?
  {
    if IsSpotifyLink(query) then
      if spotifyQueries != [] then
        Enqueue(seq(|spotifyQueries|, i requires 0 <= i < |spotifyQueries| => Some("ytsearch:" + spotifyQueries[i])),
                Some(SpotifyNoMatches))
      else if spotifyTitle.None? || spotifyTitle.value == "" then Halt(SpotifyNoTitle)
      else Enqueue([Some("ytsearch:" + spotifyTitle.value)], Some(ResolveFailed))
    else if IsYouTubePlaylist(query) then
      if entries == [] then Halt(PlaylistEmpty)
      else Enqueue(seq(|entries|, i requires 0 <= i < |entries| =>
                         if entries[i].Some? then Some(EntryUrl(entries[i].value)) else None),
                   None)
    else Enqueue([Some(SearchQuery(query))], Some(ResolveFailed))
  }

  /** What yt-dlp gives for each planned look-up. */
  function Lookups(urls: seq<Option<string>>, extract: string -> Option<SourceData>): (rs: seq<Option<SourceData>>)
    ensures |rs| == |urls|
    ensures forall i :: 0 <= i < |urls| ==> rs[i] == if urls[i].Some? then extract(urls[i].value) else None
  {
    seq(|urls|, i requires 0 <= i < |urls| => if urls[i].Some? then extract(urls[i].value) else None)
  }

  /** Looking up one more URL adds its result, if any, to the end of the successes. */
  lemma LookupsStep(urls: seq<Option<string>>, extract: string -> Option<SourceData>, i: nat)
    requires i < |urls|
    ensures var r := if urls[i].Some? then extract(urls[i].value) else None;
            Successes(Lookups(urls[..i + 1], extract))
            == Successes(Lookups(urls[..i], extract)) + (if r.Some? then [r.value] else [])
  {
    var r := if urls[i].Some? then extract(urls[i].value) else None;
    assert Lookups(urls[..i + 1], extract) == Lookups(urls[..i], extract) + [r];
    SuccessesAppend(Lookups(urls[..i], extract), [r]);
    assert Successes([r]) == (if r.Some? then [r.value] else []) + Successes([r][1..]);
  }

  /** The words, after lower-casing, that the `loop` command takes for each mode. */
  const TrackWords: seq<string> := ["track", "t", "song", "single"]
  const QueueWords: seq<string> := ["queue", "q", "all"]
  const OffWords: seq<string> := ["off", "stop", "disable"]

  /**
   * The `loop` argument: a word of a mode's list, in any case, selects that
   * mode; any other word selects nothing.
   */
  function ParseLoopArg(arg: string): (m: Option<LoopMode>)
    ensures m.Some? <==> Lower(arg) in TrackWords + QueueWords + OffWords
    ensures m == Some(TrackLoop) <==> Lower(arg) in TrackWords
    ensures m == Some(QueueLoop) <==> Lower(arg) in QueueWords
    ensures m == Some(Off) <==> Lower(arg) in OffWords
  {
    var a := Lower(arg);
    if a in ["track", "t", "song", "single"] then Some(TrackLoop)
    else if a in ["queue", "q", "all"] then Some(QueueLoop)
    else if a in ["off", "stop", "disable"] then Some(Off)
    else None
  }

  /** `loop` with no argument: off, then track, then queue, then off again. */
  function NextMode(m: LoopMode): (r: LoopMode)
    ensures r != m
  {
    match m
    case Off => TrackLoop
    case TrackLoop => QueueLoop
    case QueueLoop => Off
  }

  /** Three bare `loop` commands bring the mode back; no two of them agree. */
  lemma NextModeCycles(m: LoopMode)
    ensures NextMode(NextMode(NextMode(m))) == m
    ensures NextMode(NextMode(m)) != m
    ensures m == Off ==> NextMode(m) == TrackLoop && NextMode(NextMode(m)) == QueueLoop
  {
  }

  /** The loop argument is read without regard to the case of ASCII letters. */
  lemma ParseLoopArgIgnoresCase(arg: string)
    ensures ParseLoopArg(Lower(arg)) == ParseLoopArg(arg)
  {
    LowerIdempotent(arg);
  }

  /** Every listed alias of the track mode selects it, in any case. */
  lemma TrackAliases()
    ensures ParseLoopArg("track") == Some(TrackLoop) && ParseLoopArg("t") == Some(TrackLoop)
    ensures ParseLoopArg("song") == Some(TrackLoop) && ParseLoopArg("single") == Some(TrackLoop)
    ensures ParseLoopArg("Track") == Some(TrackLoop)
  {
    assert Lower("track") == "track" && Lower("t") == "t";
    assert Lower("song") == "song" && Lower("single") == "single";
    assert Lower("Track") == "track";
  }

  /** Every listed alias of the queue mode selects it. */
  lemma QueueAliases()
    ensures ParseLoopArg("queue") == Some(QueueLoop) && ParseLoopArg("q") == Some(QueueLoop)
    ensures ParseLoopArg("all") == Some(QueueLoop)
  {
    assert Lower("queue") == "queue" && Lower("q") == "q" && Lower("all") == "all";
  }

  /** Every listed alias of the off mode selects it. */
  lemma OffAliases()
    ensures ParseLoopArg("off") == Some(Off) && ParseLoopArg("stop") == Some(Off)
    ensures ParseLoopArg("disable") == Some(Off)
  {
    assert Lower("off") == "off" && Lower("stop") == "stop";
    assert Lower("disable") == "disable";
  }

  /**
   * The outcome of the `volume` command; the gain itself is a float and is
   * not modelled. With nothing playing the voice client has no source, the
   * attribute write raises, and the command ends in an error with no reply.
   */
  datatype VolumeReply = NotInVoice | VolumeOutOfRange | VolumeSet(percent: int) | NoSourceError

  function Volume(hasVoiceClient: bool, hasSource: bool, volume: int): (r: VolumeReply)
    ensures r.VolumeSet? <==> hasVoiceClient && hasSource && 0 <= volume <= 100
    ensures r.VolumeSet? ==> r.percent == volume
    ensures r == NotInVoice <==> !hasVoiceClient
    ensures r == VolumeOutOfRange <==> hasVoiceClient && (volume < 0 || volume > 100)
    ensures r == NoSourceError <==> hasVoiceClient && 0 <= volume <= 100 && !hasSource
  {
    if !hasVoiceClient then NotInVoice
    else if volume < 0 || volume > 100 then VolumeOutOfRange
    else if !hasSource then NoSourceError
    else VolumeSet(volume)
  }

  /**
   * `seq` without its element at `k`: those before `k` keep their place and
   * those after move up by one.
   */
  function DeleteAt<T>(s: seq<T>, k: nat): (r: seq<T>)
    requires k < |s|
    ensures |r| == |s| - 1
    ensures forall i :: 0 <= i < k ==> r[i] == s[i]
    ensures forall i :: k <= i < |r| ==> r[i] == s[i + 1]
  {
    s[..k] + s[k + 1..]
  }

  /** Deleting one element takes exactly one occurrence of `s[k]` out of the multiset. */
  lemma DeleteAtRemovesOne<T>(s: seq<T>, k: nat)
    requires k < |s|
    ensures multiset(DeleteAt(s, k)) + multiset{s[k]} == multiset(s)
  {
    assert s == s[..k] + [s[k]] + s[k + 1..];
  }

  /** Putting the removed element back where it was restores the queue. */
  lemma DeleteAtInverse<T>(s: seq<T>, k: nat)
    requires k < |s|
    ensures DeleteAt(s, k)[..k] + [s[k]] + DeleteAt(s, k)[k..] == s
  {
    assert DeleteAt(s, k)[..k] == s[..k];
    assert DeleteAt(s, k)[k..] == s[k + 1..];
    assert s == s[..k] + [s[k]] + s[k + 1..];
  }

  /**
   * `random.shuffle`: CPython's Fisher-Yates pass from the last index down
   * to 1, swapping `x[i]` with `x[randBelow(i + 1)]`. The random draws are
   * the parameter; each call has a different argument, so a function
   * covers every outcome.
   */
  method Shuffled<T>(s: seq<T>, randBelow: nat -> nat) returns (r: seq<T>)
    requires forall n: nat :: 0 < n ==> randBelow(n) < n
    ensures |r| == |s|
    ensures multiset(r) == multiset(s)
  {
    r := s;
    var i := |s|;
    while i > 1
      invariant 0 <= i <= |s|
      invariant |r| == |s|
      invariant multiset(r) == multiset(s)
    {
      i := i - 1;
      var j := randBelow(i + 1);
      r := SwapAt(r, i, j);
    }
  }

  function SwapAt<T>(s: seq<T>, i: nat, j: nat): (r: seq<T>)
    requires i < |s| && j < |s|
    ensures |r| == |s| && multiset(r) == multiset(s)
  {
    var t := s[i := s[j]][j := s[i]];
    assert t == s || (multiset(t) == multiset(s) - multiset{s[i], s[j]} + multiset{s[j], s[i]});
    t
  }

  /** The reply of the `remove` command. */
  datatype RemoveReply = QueueIsEmpty | InvalidIndex | Removed(player: YtdlSource)

  /** The fields of the `queue` card. `upNext` empty means the card says the queue is empty. */
  datatype QueueCard = QueueCard(nowSinging: Option<string>, upNext: seq<string>, more: Option<string>, footer: Option<string>)

  /** The loop footer of the `queue` and `nowplaying` cards. */
  function LoopFooter(mode: LoopMode): (f: Option<string>)
    ensures f.None? <==> mode == Off
  {
    match mode
    case TrackLoop => Some("Looping Track")
    case QueueLoop => Some("Looping Queue")
    case Off => None
  }

  /** The "Duration" field of the `nowplaying` card, shown only for a non-zero duration. */
  function NowPlayingDuration(duration: Option<int>): (f: Option<string>)
    ensures f.Some? <==> duration.Some? && duration.value != 0
    ensures f.Some? && duration.value > 0 ==> Duration.ParseClock(f.value) == Some(duration.value)
  {
    if duration.Some? && duration.value != 0 then Some(Duration.PyClock(duration.value)) else None
  }

  /**
   * The bot's per-guild state: `music_queues`, `now_playing` and
   * `loop_mode`. A guild appears in a dictionary only once some command has
   * put it there; a missing queue reads as empty and a missing mode as off.
   */
  class MusicBot {
    var musicQueues: map<GuildId, seq<YtdlSource>>
    var nowPlaying: map<GuildId, YtdlSource>
    var loopMode: map<GuildId, LoopMode>
    /** The sources whose stream some `play_next` has already started. */
    var spent: set<YtdlSource>

    constructor ()
      ensures musicQueues == map[] && nowPlaying == map[] && loopMode == map[] && spent == {}
    {
      musicQueues := map[];
      nowPlaying := map[];
      loopMode := map[];
      spent := {};
    }

    function QueueOf(g: GuildId): (q: seq<YtdlSource>)
      reads this
      ensures g !in musicQueues ==> q == []
    {
      if g in musicQueues then musicQueues[g] else []
    }

    function NowOf(g: GuildId): (p: Option<YtdlSource>)
      reads this
      ensures p.Some? <==> g in nowPlaying
    {
      if g in nowPlaying then Some(nowPlaying[g]) else None
    }

    /** `loop_mode.get(guild_id)`: a guild without an entry behaves as off. */
    function ModeOf(g: GuildId): (m: LoopMode)
      reads this
      ensures g !in loopMode ==> m == Off
    {
      if g in loopMode then loopMode[g] else Off
    }

    /**
     * `play_next`: replay the current track under track loop (a new source
     * over the same data), otherwise start the front of the queue (and put
     * it back at the end under queue loop), otherwise forget the current
     * track and report the queue finished. A started source is spent.
     * Other guilds are untouched.
     */
    method PlayNext(g: GuildId) returns (step: Advance)
      modifies this
      ensures Advanced(old(QueueOf(g)), old(NowOf(g)), old(ModeOf(g)), QueueOf(g), NowOf(g), step)
      ensures old(Choose(QueueOf(g), NowOf(g), ModeOf(g))).Replay? ==> fresh(step.player)
      ensures musicQueues.Keys == old(musicQueues.Keys) && musicQueues - {g} == old(musicQueues) - {g}
      ensures nowPlaying - {g} == old(nowPlaying) - {g}
      ensures loopMode == old(loopMode)
      ensures spent == old(spent) + (if step.NowSinging? then {step.player} else {})
    {
      var mode := ModeOf(g);
      var canPlay := (g in musicQueues && |musicQueues[g]| > 0) || (mode == TrackLoop && g in nowPlaying);
      if canPlay {
        if mode == TrackLoop && g in nowPlaying {
          var current := nowPlaying[g];
          var player := new YtdlSource(current.data);
          nowPlaying := nowPlaying[g := player];
          spent := spent + {player};
          step := NowSinging(player);
        } else {
          var q := musicQueues[g];
          var player := q[0];
          musicQueues := musicQueues[g := q[1..] + if mode == QueueLoop then [player] else []];
          nowPlaying := nowPlaying[g := player];
          spent := spent + {player};
          step := NowSinging(player);
        }
      } else {
        nowPlaying := nowPlaying - {g};
        step := QueueFinished;
      }
    }

    /**
     * The look-up loops of `play`: each planned look-up that yields data
     * appends a new source, failures are skipped, and `added` counts the
     * successes. The queue grows by exactly the successful look-ups, in
     * order.
     */
    method AppendResolved(g: GuildId, urls: seq<Option<string>>, extract: string -> Option<SourceData>)
      returns (added: nat, ghost enqueued: seq<YtdlSource>)
      requires g in musicQueues
      modifies this
      ensures DataOf(enqueued) == Successes(Lookups(urls, extract))
      ensures added == |enqueued|
      ensures forall i :: 0 <= i < |enqueued| ==> fresh(enqueued[i])
      ensures musicQueues == old(musicQueues)[g := old(musicQueues[g]) + enqueued]
      ensures nowPlaying == old(nowPlaying) && loopMode == old(loopMode) && spent == old(spent)
    {
      added := 0;
      enqueued := [];
      ghost var q0 := musicQueues[g];
      assert q0 + enqueued == q0;
      var i := 0;
      while i < |urls|
        invariant 0 <= i <= |urls|
        invariant DataOf(enqueued) == Successes(Lookups(urls[..i], extract))
        invariant added == |enqueued|
        invariant forall k :: 0 <= k < |enqueued| ==> fresh(enqueued[k])
        invariant musicQueues == old(musicQueues)[g := q0 + enqueued]
        invariant nowPlaying == old(nowPlaying) && loopMode == old(loopMode) && spent == old(spent)
      {
        LookupsStep(urls, extract, i);
        if urls[i].Some? {
          var data := extract(urls[i].value);
          if data.Some? {
            var player := new YtdlSource(data.value);
            assert (q0 + enqueued) + [player] == q0 + (enqueued + [player]);
            musicQueues := musicQueues[g := musicQueues[g] + [player]];
            enqueued := enqueued + [player];
            added := added + 1;
          }
        }
        i := i + 1;
      }
      assert urls[..i] == urls;
    }

    /**
     * The second half of `play`: run the planned look-ups, give the plan's
     * failure reply if none succeeded and the plan has one, and otherwise
     * start the next track when nothing is playing.
     */
    method EnqueuePlanned(g: GuildId, isPlaying: bool, urls: seq<Option<string>>, onNone: Option<PlayReply>,
                          extract: string -> Option<SourceData>)
      returns (reply: PlayReply, ghost enqueued: seq<YtdlSource>)
      requires g in musicQueues
      requires onNone.Some? ==> !onNone.value.Added?
      modifies this
      ensures DataOf(enqueued) == Successes(Lookups(urls, extract))
      ensures forall i :: 0 <= i < |enqueued| ==> fresh(enqueued[i])
      ensures g in musicQueues && musicQueues - {g} == old(musicQueues) - {g}
      ensures nowPlaying - {g} == old(nowPlaying) - {g} && loopMode == old(loopMode)
      ensures !reply.Added? ==>
                enqueued == [] && Some(reply) == onNone && musicQueues == old(musicQueues) && nowPlaying == old(nowPlaying)
      ensures reply.Added? ==> reply.count == |enqueued| && (enqueued == [] ==> onNone.None?)
      ensures reply.Added? && isPlaying ==>
                reply.advance.None? && QueueOf(g) == old(QueueOf(g)) + enqueued && NowOf(g) == old(NowOf(g))
      ensures reply.Added? && !isPlaying ==>
                reply.advance.Some?
                && Advanced(old(QueueOf(g)) + enqueued, old(NowOf(g)), ModeOf(g), QueueOf(g), NowOf(g), reply.advance.value)
      ensures spent == old(spent) + (if reply.Added? && reply.advance.Some? && reply.advance.value.NowSinging?
                                     then {reply.advance.value.player} else {})
    {
      var added;
      added, enqueued := AppendResolved(g, urls, extract);
      if added == 0 && onNone.Some? {
        assert old(musicQueues)[g] + enqueued == old(musicQueues)[g];
        return onNone.value, enqueued;
      }
      var advance: Option<Advance> := None;
      if !isPlaying {
        var step := PlayNext(g);
        advance := Some(step);
      }
      reply := Added(added, advance);
    }

    /**
     * `play`: refuse a caller outside voice; otherwise make sure the guild
     * has a queue and a loop mode, resolve the query as planned, enqueue
     * what resolved and, if nothing is playing, start the next track.
     */
    method Play(g: GuildId, inVoice: bool, isPlaying: bool, query: string,
                extract: string -> Option<SourceData>, spotifyQueries: seq<string>,
                spotifyTitle: Option<string>, entries: seq<Option<PlaylistEntry>>)
      returns (reply: PlayReply, ghost enqueued: seq<YtdlSource>)
      modifies this
      ensures !inVoice ==>
                reply == JoinVoiceFirst && enqueued == []
                && musicQueues == old(musicQueues) && nowPlaying == old(nowPlaying) && loopMode == old(loopMode)
      ensures inVoice ==>
                g in musicQueues && loopMode == old(loopMode)[g := old(ModeOf(g))]
                && musicQueues - {g} == old(musicQueues) - {g} && nowPlaying - {g} == old(nowPlaying) - {g}
      ensures inVoice && PlanFor(query, spotifyQueries, spotifyTitle, entries).Halt? ==>
                reply == PlanFor(query, spotifyQueries, spotifyTitle, entries).reply
                && enqueued == [] && QueueOf(g) == old(QueueOf(g)) && NowOf(g) == old(NowOf(g))
      ensures inVoice && PlanFor(query, spotifyQueries, spotifyTitle, entries).Enqueue? ==>
                var plan := PlanFor(query, spotifyQueries, spotifyTitle, entries);
                DataOf(enqueued) == Successes(Lookups(plan.urls, extract))
                && (!reply.Added? ==> enqueued == [] && Some(reply) == plan.onNone
                                      && QueueOf(g) == old(QueueOf(g)) && NowOf(g) == old(NowOf(g)))
                && (reply.Added? ==> reply.count == |enqueued| && (enqueued == [] ==> plan.onNone.None?))
      ensures forall i :: 0 <= i < |enqueued| ==> fresh(enqueued[i])
      ensures reply.Added? && isPlaying ==>
                reply.advance.None? && QueueOf(g) == old(QueueOf(g)) + enqueued && NowOf(g) == old(NowOf(g))
      ensures reply.Added? && !isPlaying ==>
                reply.advance.Some?
                && Advanced(old(QueueOf(g)) + enqueued, old(NowOf(g)), old(ModeOf(g)), QueueOf(g), NowOf(g), reply.advance.value)
      ensures spent == old(spent) + (if reply.Added? && reply.advance.Some? && reply.advance.value.NowSinging?
                                     then {reply.advance.value.player} else {})
    {
      enqueued := [];
      if !inVoice {
        return JoinVoiceFirst, enqueued;
      }
      InitGuild(g);
      var plan := PlanFor(query, spotifyQueries, spotifyTitle, entries);
      if plan.Halt? {
        return plan.reply, enqueued;
      }
      reply, enqueued := EnqueuePlanned(g, isPlaying, plan.urls, plan.onNone, extract);
    }

    /** The lazy set-up at the top of `play`: an empty queue and loop mode 'off' for a guild seen for the first time. */
    method InitGuild(g: GuildId)
      modifies this
      ensures g in musicQueues && g in loopMode
      ensures musicQueues == old(musicQueues)[g := old(QueueOf(g))]
      ensures loopMode == old(loopMode)[g := old(ModeOf(g))]
      ensures nowPlaying == old(nowPlaying) && spent == old(spent)
    {
      if g !in musicQueues {
        musicQueues := musicQueues[g := []];
      }
      if g !in loopMode {
        loopMode := loopMode[g := Off];
      }
    }

    /**
     * `stop`: empty the guild's queue and switch its loop off, so the
     * advance that the stopped player triggers finds nothing to play.
     */
    method Stop(g: GuildId)
      modifies this
      ensures musicQueues == if g in old(musicQueues) then old(musicQueues)[g := []] else old(musicQueues)
      ensures loopMode == if g in old(loopMode) then old(loopMode)[g := Off] else old(loopMode)
      ensures nowPlaying == old(nowPlaying) && spent == old(spent)
      ensures Choose(QueueOf(g), NowOf(g), ModeOf(g)) == NothingToPlay
    {
      if g in musicQueues {
        musicQueues := musicQueues[g := []];
      }
      if g in loopMode {
        loopMode := loopMode[g := Off];
      }
    }

    /** `leave`: outside voice only a reply; otherwise clear the queue and the loop as `stop` does. */
    method Leave(g: GuildId, inVoice: bool) returns (left: bool)
      modifies this
      ensures left == inVoice
      ensures !inVoice ==> musicQueues == old(musicQueues) && loopMode == old(loopMode)
      ensures inVoice ==> musicQueues == (if g in old(musicQueues) then old(musicQueues)[g := []] else old(musicQueues))
                          && loopMode == (if g in old(loopMode) then old(loopMode)[g := Off] else old(loopMode))
      ensures nowPlaying == old(nowPlaying) && spent == old(spent)
    {
      left := inVoice;
      if inVoice {
        if g in musicQueues {
          musicQueues := musicQueues[g := []];
        }
        if g in loopMode {
          loopMode := loopMode[g := Off];
        }
      }
    }

    /**
     * `loop`: with no argument step off -> track -> queue -> off; with an
     * argument set the mode it names, or report it invalid and keep the
     * mode. Either way the guild has a mode afterwards.
     */
    method LoopCommand(g: GuildId, arg: Option<string>) returns (set_: Option<LoopMode>)
      modifies this
      ensures arg.None? ==> set_ == Some(NextMode(old(ModeOf(g))))
      ensures arg.Some? ==> set_ == ParseLoopArg(arg.value)
      ensures set_.Some? ==> loopMode == old(loopMode)[g := set_.value]
      ensures set_.None? ==> loopMode == old(loopMode)[g := old(ModeOf(g))]
      ensures musicQueues == old(musicQueues) && nowPlaying == old(nowPlaying) && spent == old(spent)
    {
      if g !in loopMode {
        loopMode := loopMode[g := Off];
      }
      if arg.None? {
        set_ := Some(NextMode(loopMode[g]));
      } else {
        set_ := ParseLoopArg(arg.value);
      }
      if set_.Some? {
        loopMode := loopMode[g := set_.value];
      }
    }

    /** `shuffle`: refuse fewer than two queued tracks; otherwise permute the queue in place. */
    method Shuffle(g: GuildId, randBelow: nat -> nat) returns (shuffled: bool)
      requires forall n: nat :: 0 < n ==> randBelow(n) < n
      modifies this
      ensures shuffled <==> |old(QueueOf(g))| >= 2
      ensures !shuffled ==> musicQueues == old(musicQueues)
      ensures shuffled ==> g in musicQueues && musicQueues - {g} == old(musicQueues) - {g}
                           && multiset(musicQueues[g]) == multiset(old(musicQueues[g]))
                           && |musicQueues[g]| == |old(musicQueues[g])|
      ensures nowPlaying == old(nowPlaying) && loopMode == old(loopMode) && spent == old(spent)
    {
      if g !in musicQueues || |musicQueues[g]| < 2 {
        return false;
      }
      var r := Shuffled(musicQueues[g], randBelow);
      musicQueues := musicQueues[g := r];
      shuffled := true;
    }

    /** `remove`: delete the track at a 1-based position, refusing an empty queue or a position outside it. */
    method Remove(g: GuildId, index: int) returns (reply: RemoveReply)
      modifies this
      ensures reply == QueueIsEmpty <==> old(QueueOf(g)) == []
      ensures reply == InvalidIndex <==> old(QueueOf(g)) != [] && !(1 <= index <= |old(QueueOf(g))|)
      ensures reply.Removed? <==> old(QueueOf(g)) != [] && 1 <= index <= |old(QueueOf(g))|
      ensures !reply.Removed? ==> musicQueues == old(musicQueues)
      ensures reply.Removed? ==>
                1 <= index <= |old(QueueOf(g))|
                && reply.player == old(QueueOf(g))[index - 1]
                && musicQueues == old(musicQueues)[g := DeleteAt(old(QueueOf(g)), index - 1)]
      ensures nowPlaying == old(nowPlaying) && loopMode == old(loopMode) && spent == old(spent)
    {
      if g !in musicQueues || |musicQueues[g]| == 0 {
        return QueueIsEmpty;
      }
      if index < 1 || index > |musicQueues[g]| {
        return InvalidIndex;
      }
      var removed := musicQueues[g][index - 1];
      musicQueues := musicQueues[g := DeleteAt(musicQueues[g], index - 1)];
      reply := Removed(removed);
    }

    /** The `queue` card: the current title, up to ten numbered titles, the overflow count and the loop footer. */
    function QueueCardOf(g: GuildId): (card: QueueCard)
      reads this
      ensures card.nowSinging.Some? <==> g in nowPlaying
      ensures g in nowPlaying ==> card.nowSinging == Some(nowPlaying[g].data.title)
      ensures card.upNext == Listing.Numbered(Titles(QueueOf(g)))
      ensures card.more.Some? <==> |QueueOf(g)| > Listing.PageSize
      ensures |QueueOf(g)| > Listing.PageSize ==>
                card.more == Some("...and " + NatToString(|QueueOf(g)| - Listing.PageSize) + " more tracks")
      ensures card.footer == LoopFooter(ModeOf(g))
    {
      var titles := Titles(QueueOf(g));
      QueueCard(
        if g in nowPlaying then Some(nowPlaying[g].data.title) else None,
        Listing.Numbered(titles),
        if |titles| > Listing.PageSize then Some("...and " + NatToString(Listing.Hidden(titles)) + " more tracks") else None,
        LoopFooter(ModeOf(g)))
    }
  }

  /** The titles of queued sources, in queue order. */
  function Titles(q: seq<YtdlSource>): (t: seq<string>)
    ensures |t| == |q| && forall i :: 0 <= i < |q| ==> t[i] == q[i].data.title
  {
    seq(|q|, i requires 0 <= i < |q| => q[i].data.title)
  }
}

=== FILE: text.dfy ===
/**
 * Character strings as both bots build and inspect them: substring tests,
 * decimal rendering of integers, padding, joining, ASCII case folding and
 * the whitespace splitting JavaScript performs with `trim()` and `split(/\s+/)`.
 */
module Text {

  predicate StartsWith(s: string, prefix: string)
  {
    |prefix| <= |s| && s[..|prefix|] == prefix
  }

  /** `s.includes(sub)` in JavaScript, `sub in s` in Python. */
  predicate Contains(s: string, sub: string)
    decreases |s|
  {
    StartsWith(s, sub) || (s != [] && Contains(s[1..], sub))
  }

  /** `sub` occurs in `s` starting at position `k`. */
  predicate OccursAt(s: string, sub: string, k: nat)
  {
    k + |sub| <= |s| && s[k..k + |sub|] == sub
  }

  /** `Contains` holds exactly when `sub` occurs at some position of `s`. */
  lemma {:induction false} ContainsOccurs(s: string, sub: string)
    ensures Contains(s, sub) <==> exists k: nat :: OccursAt(s, sub, k)
    decreases |s|
  {
    if StartsWith(s, sub) {
      assert OccursAt(s, sub, 0);
    } else if s != [] {
      ContainsOccurs(s[1..], sub);
      if Contains(s[1..], sub) {
        var k: nat :| OccursAt(s[1..], sub, k);
        assert s[k + 1..k + 1 + |sub|] == s[1..][k..k + |sub|];
        assert OccursAt(s, sub, k + 1);
      }
      if exists k: nat :: OccursAt(s, sub, k) {
        var k: nat :| OccursAt(s, sub, k);
        assert k != 0;
        assert s[1..][k - 1..k - 1 + |sub|] == s[k..k + |sub|];
        assert OccursAt(s[1..], sub, k - 1);
      }
    }
  }

  predicate IsDigit(c: char)
  {
    '0' <= c <= '9'
  }

  predicate AllDigits(s: string)
  {
    forall i :: 0 <= i < |s| ==> IsDigit(s[i])
  }

  function DigitChar(d: nat): (c: char)
    requires d < 10
    ensures IsDigit(c)
  {
    ('0' as int + d) as char
  }

  function DigitValue(c: char): (d: nat)
    requires IsDigit(c)
    ensures d < 10 && DigitChar(d) == c
  {
    c as int - '0' as int
  }

  /** Decimal rendering of a natural number, as `String(n)` / `str(n)` give it. */
  function NatToString(n: nat): (s: string)
    ensures s != [] && AllDigits(s)
    ensures s[0] == '0' ==> n == 0 && s == "0"
    decreases n
  {
    if n < 10 then [DigitChar(n)] else NatToString(n / 10) + [DigitChar(n % 10)]
  }

  /** Decimal rendering of an integer, with a leading minus sign when negative. */
  function IntToString(i: int): (s: string)
    ensures s != []
    ensures i >= 0 ==> AllDigits(s) && ParseNat(s) == i
    ensures i < 0 ==> |s| >= 2 && s[0] == '-' && AllDigits(s[1..]) && ParseNat(s[1..]) == -i
  {
    if i < 0 then
      ParseNatToString(-i);
      assert ("-" + NatToString(-i))[1..] == NatToString(-i);
      "-" + NatToString(-i)
    else
      ParseNatToString(i);
      NatToString(i)
  }

  /** The value of a non-empty string of decimal digits. */
  function ParseNat(s: string): nat
    requires s != [] && AllDigits(s)
    decreases |s|
  {
    if |s| == 1 then DigitValue(s[0])
    else ParseNat(s[..|s| - 1]) * 10 + DigitValue(s[|s| - 1])
  }

  /** Reading back the decimal rendering of `n` gives `n`. */
  lemma {:induction false} ParseNatToString(n: nat)
    ensures ParseNat(NatToString(n)) == n
    decreases n
  {
    if n >= 10 {
      var s := NatToString(n);
      ParseNatToString(n / 10);
      assert s[..|s| - 1] == NatToString(n / 10);
    }
  }

  /** `s.padStart(width, pad)`: `pad` repeated in front until `s` is `width` long. */
  function PadStart(s: string, width: nat, pad: char): (r: string)
    ensures |r| == if |s| < width then width else |s|
    ensures r[|r| - |s|..] == s
    ensures forall i :: 0 <= i < |r| - |s| ==> r[i] == pad
  {
    if |s| < width then seq(width - |s|, _ => pad) + s else s
  }

  /** `parts.join(sep)`, `sep.join(parts)`. */
  function Join(parts: seq<string>, sep: string): string
  {
    if |parts| == 0 then ""
    else if |parts| == 1 then parts[0]
    else parts[0] + sep + Join(parts[1..], sep)
  }

  /** Joining yields the empty string exactly for no parts or a single empty part. */
  lemma {:induction false} JoinEmpty(parts: seq<string>, sep: string)
    requires sep != []
    ensures Join(parts, sep) == "" <==> |parts| == 0 || (|parts| == 1 && parts[0] == "")
  {
    if |parts| > 1 {
      assert |Join(parts, sep)| >= |sep|;
    }
  }

  predicate IsUpper(c: char)
  {
    'A' <= c <= 'Z'
  }

  /** ASCII lower-casing of one character: a capital becomes its small letter, anything else stays. */
  function LowerChar(c: char): (r: char)
    ensures IsUpper(c) ==> 'a' <= r <= 'z' && r as int == c as int + 32
    ensures !IsUpper(c) ==> r == c
    ensures !IsUpper(r)
  {
    if IsUpper(c) then (c as int - 'A' as int + 'a' as int) as char else c
  }

  /**
   * ASCII lower-casing of a string: the result has no capital left and
   * agrees with the input character by character once case is ignored.
   */
  function Lower(s: string): (r: string)
    ensures |r| == |s|
    ensures forall i :: 0 <= i < |r| ==> !IsUpper(r[i])
    ensures forall i :: 0 <= i < |s| && !IsUpper(s[i]) ==> r[i] == s[i]
    ensures forall i :: 0 <= i < |s| && IsUpper(s[i]) ==> r[i] as int == s[i] as int + 32
  {
    seq(|s|, i requires 0 <= i < |s| => LowerChar(s[i]))
  }

  /** Lower-casing twice is lower-casing once. */
  lemma LowerIdempotent(s: string)
    ensures Lower(Lower(s)) == Lower(s)
  {
  }

  /**
   * The characters JavaScript's `trim()` removes and `\s` matches: the
   * ECMAScript WhiteSpace and LineTerminator code points.
   */
  predicate IsSpace(c: char)
  {
    c == ' ' || c == '\t' || c == '\n' || c == '\r' || c == '\U{000B}' || c == '\U{000C}'
    || c == '\U{00A0}' || c == '\U{1680}' || ('\U{2000}' <= c <= '\U{200A}')
    || c == '\U{2028}' || c == '\U{2029}' || c == '\U{202F}' || c == '\U{205F}'
    || c == '\U{3000}' || c == '\U{FEFF}'
  }

  predicate NoSpace(s: string)
  {
    forall i :: 0 <= i < |s| ==> !IsSpace(s[i])
  }

  function TrimStart(s: string): (r: string)
    ensures r == [] || !IsSpace(r[0])
    ensures |r| <= |s| && r == s[|s| - |r|..]
    ensures AllSpace(s[..|s| - |r|])
    decreases |s|
  {
    if s != [] && IsSpace(s[0]) then
      var r := TrimStart(s[1..]);
      assert s[..|s| - |r|] == [s[0]] + s[1..][..|s| - 1 - |r|];
      r
    else s
  }

  predicate AllSpace(s: string)
  {
    forall i :: 0 <= i < |s| ==> IsSpace(s[i])
  }

  /** How many white-space characters `s` starts with. */
  function Lead(s: string): (n: nat)
    ensures n <= |s| && AllSpace(s[..n])
    ensures n < |s| ==> !IsSpace(s[n])
    decreases |s|
  {
    if s != [] && IsSpace(s[0]) then
      var k := Lead(s[1..]);
      assert s[..k + 1] == [s[0]] + s[1..][..k];
      k + 1
    else 0
  }

  /** Where the white space that `s` ends with begins. */
  function Tail(s: string): (n: nat)
    ensures n <= |s| && AllSpace(s[n..])
    ensures n > 0 ==> !IsSpace(s[n - 1])
    decreases |s|
  {
    if s != [] && IsSpace(s[|s| - 1]) then
      var k := Tail(s[..|s| - 1]);
      assert s[k..] == s[..|s| - 1][k..] + [s[|s| - 1]];
      k
    else |s|
  }

  /** Unless `s` is all white space, its leading white space ends before its trailing white space begins. */
  lemma LeadBeforeTail(s: string)
    requires Lead(s) < |s|
    ensures Lead(s) < Tail(s)
  {
    SpaceFrom(s, Tail(s), Lead(s));
  }

  /** A character at or past the start of an all-white suffix is white space. */
  lemma SpaceFrom(s: string, b: nat, a: nat)
    requires b <= |s| && AllSpace(s[b..]) && a < |s|
    ensures b <= a ==> IsSpace(s[a])
  {
    if b <= a {
      assert s[b..][a - b] == s[a];
    }
  }

  /**
   * `s.trim()`: the result is the slice of `s` after its `Lead(s)` leading
   * white-space characters, with only white space after it in `s`, and it
   * neither starts nor ends with white space.
   */
  function Trim(s: string): (r: string)
    ensures r == [] || (!IsSpace(r[0]) && !IsSpace(r[|r| - 1]))
    ensures Lead(s) + |r| <= |s| && s[Lead(s)..Lead(s) + |r|] == r
    ensures AllSpace(s[..Lead(s)]) && AllSpace(s[Lead(s) + |r|..])
  {
    if Lead(s) == |s| then []
    else
      LeadBeforeTail(s);
      s[Lead(s)..Tail(s)]
  }

  /** Index of the first white-space character of `s`, or `|s|` if none. */
  function SpaceAt(s: string): (i: nat)
    ensures i <= |s| && NoSpace(s[..i])
    ensures i < |s| ==> IsSpace(s[i])
    decreases |s|
  {
    if s == [] || IsSpace(s[0]) then 0
    else
      var k := SpaceAt(s[1..]);
      assert s[..k + 1] == [s[0]] + s[1..][..k];
      k + 1
  }

  /** `s` with its leading white-space run dropped. */
  function SkipSpace(s: string): (r: string)
    ensures |r| <= |s|
    ensures r == [] || !IsSpace(r[0])
    ensures r == s[|s| - |r|..]
    ensures AllSpace(s[..|s| - |r|])
    decreases |s|
  {
    TrimStart(s)
  }

  /** The white-space runs of `s` that `SplitSpaces` splits at, in order. */
  function Gaps(s: string): (gs: seq<string>)
    ensures forall k :: 0 <= k < |gs| ==> gs[k] != [] && AllSpace(gs[k])
    decreases |s|
  {
    var i := SpaceAt(s);
    if i == |s| then []
    else
      var rest := SkipSpace(s[i..]);
      var gap := s[i..|s| - |rest|];
      GapAt(s, i);
      ConsGap(gap, Gaps(rest));
      [gap] + Gaps(rest)
  }

  /** The white space skipped at a white-space position `i` is a non-empty run. */
  lemma GapAt(s: string, i: nat)
    requires i < |s| && IsSpace(s[i])
    ensures var rest := SkipSpace(s[i..]); var gap := s[i..|s| - |rest|]; gap != [] && AllSpace(gap)
  {
    var rest := SkipSpace(s[i..]);
    assert s[i..][..|s| - i - |rest|] == s[i..|s| - |rest|];
  }

  /** A non-empty white-space run in front of such runs. */
  lemma ConsGap(head: string, tail: seq<string>)
    requires head != [] && AllSpace(head)
    requires forall k :: 0 <= k < |tail| ==> tail[k] != [] && AllSpace(tail[k])
    ensures forall k :: 0 <= k < |[head] + tail| ==> ([head] + tail)[k] != [] && AllSpace(([head] + tail)[k])
  {
  }

  /** `parts[0] + gaps[0] + parts[1] + ... + parts[n]`. */
  function Interleave(parts: seq<string>, gaps: seq<string>): string
    requires |parts| == |gaps| + 1
  {
    if |gaps| == 0 then parts[0] else parts[0] + gaps[0] + Interleave(parts[1..], gaps[1..])
  }

  /**
   * `s.split(/\s+/)`: the pieces between maximal runs of white space. The
   * pieces hold no white space, and putting the runs `Gaps(s)` back between
   * them rebuilds `s`; so the pieces are the input's maximal non-space
   * stretches, in order, with an empty piece where `s` starts or ends with
   * white space.
   */
  function SplitSpaces(s: string): (parts: seq<string>)
    ensures |parts| == |Gaps(s)| + 1
    ensures forall i :: 0 <= i < |parts| ==> NoSpace(parts[i])
    ensures Interleave(parts, Gaps(s)) == s
    decreases |s|
  {
    var i := SpaceAt(s);
    if i == |s| then
      assert s[..i] == s;
      [s]
    else
      var rest := SkipSpace(s[i..]);
      var tail := SplitSpaces(rest);
      var parts := [s[..i]] + tail;
      var gap := s[i..|s| - |rest|];
      SplitStep(s, i, rest, tail, gap);
      ConsNoSpace(s[..i], tail);
      parts
  }

  /** One step of `SplitSpaces`: the first piece, the first gap, then the split of the rest. */
  lemma SplitStep(s: string, i: nat, rest: string, tail: seq<string>, gap: string)
    requires i < |s| && SpaceAt(s) == i && rest == SkipSpace(s[i..])
    requires |tail| == |Gaps(rest)| + 1 && Interleave(tail, Gaps(rest)) == rest
    requires gap == s[i..|s| - |rest|]
    ensures Gaps(s) == [gap] + Gaps(rest)
    ensures Interleave([s[..i]] + tail, Gaps(s)) == s
  {
    GapsStep(s, i, rest, gap);
    var parts := [s[..i]] + tail;
    var gs := [gap] + Gaps(rest);
    assert parts[0] == s[..i] && parts[1..] == tail;
    assert gs[0] == gap && gs[1..] == Gaps(rest);
    assert Interleave(parts, gs) == s[..i] + gap + rest;
    SliceThree(s, i, |s| - |rest|);
    assert s[|s| - |rest|..] == rest;
  }

  /** A piece without white space in front of pieces without white space. */
  lemma ConsNoSpace(head: string, tail: seq<string>)
    requires NoSpace(head)
    requires forall i :: 0 <= i < |tail| ==> NoSpace(tail[i])
    ensures forall i :: 0 <= i < |[head] + tail| ==> NoSpace(([head] + tail)[i])
  {
  }

  /** A non-empty piece in front of non-empty pieces. */
  lemma ConsNonEmpty(head: string, tail: seq<string>)
    requires head != []
    requires forall i :: 0 <= i < |tail| ==> tail[i] != ""
    ensures forall i :: 0 <= i < |[head] + tail| ==> ([head] + tail)[i] != ""
  {
  }

  lemma GapsStep(s: string, i: nat, rest: string, gap: string)
    requires i < |s| && SpaceAt(s) == i && rest == SkipSpace(s[i..])
    requires gap == s[i..|s| - |rest|]
    ensures Gaps(s) == [gap] + Gaps(rest)
  {
  }

  lemma SliceThree(s: string, i: nat, j: nat)
    requires i <= j <= |s|
    ensures s == s[..i] + s[i..j] + s[j..]
  {
  }

  /** Past its first white-space character, `s` splits into its first piece and the split of the rest. */
  lemma SplitAt(s: string)
    requires SpaceAt(s) < |s|
    ensures SplitSpaces(s) == [s[..SpaceAt(s)]] + SplitSpaces(SkipSpace(s[SpaceAt(s)..]))
  {
  }

  /**
   * On a trimmed string the split yields `[""]` for the empty string and
   * otherwise only non-empty words.
   */
  lemma {:induction false} SplitTrimmed(s: string)
    requires s == [] || (!IsSpace(s[0]) && !IsSpace(s[|s| - 1]))
    ensures s == [] ==> SplitSpaces(s) == [""]
    ensures s != [] ==> forall i :: 0 <= i < |SplitSpaces(s)| ==> SplitSpaces(s)[i] != ""
    decreases |s|
  {
    if s != [] {
      var i := SpaceAt(s);
      if i < |s| {
        var rest := SkipSpace(s[i..]);
        assert s[i..][|s| - i - 1] == s[|s| - 1];
        SkipKeepsLast(s[i..]);
        SplitTrimmed(rest);
        SplitTrimmedStep(s, rest);
      } else {
        assert SplitSpaces(s) == [s];
      }
    }
  }

  /** Skipping leading white space keeps a last, non-white character. */
  lemma SkipKeepsLast(t: string)
    requires t != [] && !IsSpace(t[|t| - 1])
    ensures SkipSpace(t) != [] && SkipSpace(t)[|SkipSpace(t)| - 1] == t[|t| - 1]
    ensures !IsSpace(SkipSpace(t)[0]) && !IsSpace(SkipSpace(t)[|SkipSpace(t)| - 1])
  {
    var rest := SkipSpace(t);
    var n := |t| - |rest|;
    SpaceBefore(t, n, |t| - 1);
    assert rest == t[n..];
    assert rest[|rest| - 1] == t[|t| - 1];
  }

  /** A character before the end of an all-white prefix is white space. */
  lemma SpaceBefore(s: string, n: nat, a: nat)
    requires n <= |s| && AllSpace(s[..n]) && a < |s|
    ensures a < n ==> IsSpace(s[a])
  {
    if a < n {
      assert s[..n][a] == s[a];
    }
  }

  /** The inductive step of `SplitTrimmed`, with the claim for the rest as a premise. */
  lemma SplitTrimmedStep(s: string, rest: string)
    requires s != [] && !IsSpace(s[0]) && SpaceAt(s) < |s|
    requires rest == SkipSpace(s[SpaceAt(s)..])
    requires forall i :: 0 <= i < |SplitSpaces(rest)| ==> SplitSpaces(rest)[i] != ""
    ensures forall i :: 0 <= i < |SplitSpaces(s)| ==> SplitSpaces(s)[i] != ""
  {
    var i := SpaceAt(s);
    assert i > 0;
    SplitAt(s);
    ConsNonEmpty(s[..i], SplitSpaces(rest));
  }
}
